=== FILE: README.md ===
# Custom Table CRUD — a Dafny model

Custom Table CRUD is a WordPress plugin. It shows a database table on a page through the
`[wp_table_manager]` shortcode: a form to add and edit records, a sortable table, a search
box and a page selector. Its admin pages create, modify and drop tables. An admin script
writes the shortcode text.

This project models the plugin's request-processing and string-building logic in Dafny and
proves properties of it. Each PHP or JavaScript file of the core becomes one module:

| module | file | what it holds |
|---|---|---|
| `Php` | — | PHP semantics the code relies on: truthiness (`"0"` is falsy), `strpos`, `strtolower`, `trim`, `explode`/`implode`, `str_replace`, `intval`, `is_numeric`, and ordered arrays whose re-assigned keys keep their position |
| `WordPress` | — | request parameters, the table prefix, `add_query_arg`/`remove_query_arg`, and the WordPress helpers, given as functions |
| `Store` | — | the database as `$wpdb` shows it: the existing tables, the rows of one table, and a ghost log of every statement sent |
| `Shortcode` | includes/class-shortcode.php | `parse_columns` (the `field<n>="fieldname=…;displayname=…"` mini-language) and `handle_shortcode` |
| `TableDdl` | includes/class-table-manager.php | `create_table`, `delete_table`, `modify_table`, the ADD/MODIFY/DROP COLUMN builders, and reading a type and length back from SQL |
| `TableCrud` | includes/class-table-manager.php | `render_table`: value coercion, the required check, delete/update/insert routing, sort, search, COUNT, paging |
| `TableRows` | includes/class-table-manager.php | `render_table_row` |
| `Views` | templates/frontend/*.php | the form, table, search and pagination views, as view-models rather than HTML |
| `Ajax` | includes/class-ajax-handler.php | the AJAX endpoints |
| `AdminScript` | assets/js/custom-table-crud-admin.js | the shortcode generator and the create-table form's row handlers |
| `LegacyScript` | js/custom-table-crud.js | the older shortcode generator |
| `AdminPage` | templates/admin/table-manager.php | the create-table and delete-table request handling |
| `AdminInfo` | includes/class-admin.php | `get_table_info` and the page defaults |
| `Autoloader` | custom-table-crud.php | the class autoloader |

## How the outside world is represented

- **WordPress helpers.** `sanitize_text_field`, `sanitize_key`, `esc_like`, `$wpdb->prepare`'s quoting, nonce creation and nonce verification are fields of an `Env` value. The model fixes nothing about them beyond their types. A nonce check is `verifyNonce(token, action)`.
- **The database.** It is a `Database` object. Whether it accepts a statement, and the error text it reports when it does not, are given functions. The result of a read query is a given function of the query text.
- **Redirects.** `wp_redirect` followed by `exit` becomes a `Redirect` value: the query arguments it removes and the ones it adds.
- **AJAX answers.** `wp_send_json_error`/`wp_send_json_success` become a `Reply`.
- **Browser input.** What a browser posts, and what a script reads from the page, are plain inputs.

## Model

| member | source | states |
|---|---|---|
| Shortcode.SegmentPair | includes/class-shortcode.php:133-140 | a kept pair has a PHP-truthy key and a PHP-truthy value |
| Shortcode.SegmentSplitsAtFirstEquals | includes/class-shortcode.php:133-140 | a segment is split at its first `=`, so the value may contain `=`; the key is whitespace-trimmed, the value is trimmed of spaces and quotes, and the pair is kept only when both are truthy |
| Shortcode.SegmentPairs | includes/class-shortcode.php:130-140 | one parse result per `;`-segment, in order |
| Shortcode.ParseSegments | includes/class-shortcode.php:130-140 | the inner loop builds exactly the `$col` array that assigning the segment pairs in order gives |
| Shortcode.Assign | includes/class-shortcode.php:135-140 | the `$col` array is a well-formed ordered PHP array |
| Shortcode.AssignLastWins | includes/class-shortcode.php:135-140 | a later duplicate key overwrites an earlier one: a key holds its last assigned value |
| Shortcode.AssignAbsent | includes/class-shortcode.php:135-140 | a key no segment assigns is absent |
| Shortcode.Descriptor | includes/class-shortcode.php:144-154 | a spec yields a column exactly when fieldname, displayname and displaytype are all set; the column is well formed (readonly defaults to 'false', and a query is kept only for the `query` type) |
| Shortcode.SpecOf | includes/class-shortcode.php:130-154 | the descriptor parsed from one attribute value is well formed |
| Shortcode.DescriptorAt | includes/class-shortcode.php:127-154 | the descriptor of one field attribute is well formed |
| Shortcode.Descriptors | includes/class-shortcode.php:126-154 | one descriptor per attribute key, in order |
| Shortcode.ColumnsFrom | includes/class-shortcode.php:145-149 | `$columns` is a well-formed ordered array keyed by fieldname |
| Shortcode.AddColumn | includes/class-shortcode.php:128-155 | a field attribute whose segments fill fieldname, displayname and displaytype sets that column (with its query only for a query column); any other attribute leaves the columns unchanged |
| Shortcode.ParseColumns | includes/class-shortcode.php:124-160 | the nested loops compute the columns that the descriptors of the field attributes give, in attribute order |
| Shortcode.ColumnsWellFormed | includes/class-shortcode.php:145-154 | every parsed column is well formed |
| Shortcode.ColumnsLastWins | includes/class-shortcode.php:145 | a later spec with the same fieldname replaces the earlier descriptor |
| Shortcode.ColumnsAbsent | includes/class-shortcode.php:144-145 | a fieldname that no valid spec names is not a column |
| Shortcode.ColumnsKeepPosition | includes/class-shortcode.php:145 | later specs never reorder the columns already there: a replaced fieldname keeps its first position |
| Shortcode.ColumnsSkipInvalid | includes/class-shortcode.php:144 | an invalid spec is dropped silently, and the other specs parse as if it were absent |
| Shortcode.FieldKeys | includes/class-shortcode.php:58-63 | exactly the attribute keys matching `^field\d+$`, in order |
| Shortcode.ColumnsOnlyFieldAttributes | includes/class-shortcode.php:127-128 | only `field<n>` attributes affect the columns; every other attribute is ignored |
| Shortcode.ShortcodeAtts | includes/class-shortcode.php:65 | `shortcode_atts` keeps exactly the declared keys, each holding the given attribute or its default |
| Shortcode.DefaultsValid | includes/class-shortcode.php:45-56 | the ten defaults form a well-formed array |
| Shortcode.DefaultKeysNotFieldKeys | includes/class-shortcode.php:45-63 | no default key is a field key |
| Shortcode.Defaults | includes/class-shortcode.php:45-56 | the defaults are declared in source order |
| Shortcode.Declaration | includes/class-shortcode.php:45-63 | the declared attribute array is well formed |
| Shortcode.DeclareAttributes | includes/class-shortcode.php:45-63 | the field-key loop builds exactly the declared array: the defaults, then each field key of the call |
| Shortcode.DeclarationShape | includes/class-shortcode.php:45-63 | the declared keys are the ten defaults followed by the call's field keys, and each default keeps its value |
| Shortcode.DeclaredTable | includes/class-shortcode.php:45-65 | pagination defaults to "5", table_view to "" and showrecordscount to "true" |
| Shortcode.DeclaredSections | includes/class-shortcode.php:45-65 | showform, showtable and showsearch default to "true" |
| Shortcode.DeclaredActions | includes/class-shortcode.php:45-65 | showpagination, showedit, showdelete and showactions default to "true" |
| Shortcode.MergedKeepsFields | includes/class-shortcode.php:58-65 | passing the field keys through `shortcode_atts` changes no column, and each flag is the given attribute or its default |
| Shortcode.HandleShortcode | includes/class-shortcode.php:44-116 | the "No valid fields" error exactly when no column parses, checked before the "No table" error; otherwise the config holds the table, its primary key, the parsed columns, `intval(pagination)` and the lower-cased flags |
| TableDdl.AppendColumnDefinition | includes/class-table-manager.php:56-114 | the type switch and suffixes append exactly the column definition: INT(len\|11), VARCHAR(len\|255), DECIMAL(len\|10,2), TEXT/DATE/DATETIME without a length, any other type VARCHAR; then NULL or NOT NULL; a DEFAULT unless empty (bare for int and decimal, quoted otherwise); AUTO_INCREMENT only for `auto_increment` |
| TableDdl.ColumnDefinitionEnd | includes/class-table-manager.php:56-135 | a column definition never ends in a character that `rtrim(", ")` would remove, unless it ends with a bare default ending in one |
| TableDdl.AddColumnSql | includes/class-table-manager.php:589-653 | ADD COLUMN writes the same column definition as create_table |
| TableDdl.ModifyColumnSql | includes/class-table-manager.php:662-726 | MODIFY COLUMN writes the same column definition as create_table |
| TableDdl.TypeFromSql | includes/class-table-manager.php:813-831 | the type read back is one of the types the table manager writes |
| TableDdl.TypeFromLower | includes/class-table-manager.php:815-830 | the first match in order int, varchar, text, date-but-not-datetime, datetime, decimal/float/double, else text, is a stored type |
| TableDdl.GroupAfter | includes/class-table-manager.php:839-845 | the group found is the text up to the first `)`, non-empty and free of `)` |
| TableDdl.LengthFromSql | includes/class-table-manager.php:839-845 | the length read back never contains `)` |
| TableDdl.LengthAfterOpen | includes/class-table-manager.php:839-845 | the length read is what stands between the first `(` and the next `)` |
| TableDdl.LengthWithoutParen | includes/class-table-manager.php:839-845 | a type without `(` reads back an empty length |
| TableDdl.IntTyped | includes/class-table-manager.php:815-816 | INT(len) lower-cases to int(len), which contains "int" |
| TableDdl.ReadBackInt | includes/class-table-manager.php:813-831 | INT(len) reads back as int |
| TableDdl.VarcharTyped | includes/class-table-manager.php:815-818 | VARCHAR(len) lower-cases to a text with "varchar" and without "int" |
| TableDdl.ReadBackVarchar | includes/class-table-manager.php:813-831 | VARCHAR(len) reads back as varchar |
| TableDdl.DecimalLacksInt | includes/class-table-manager.php:816 | decimal(len) does not contain "int" |
| TableDdl.DecimalLacksDate | includes/class-table-manager.php:822-824 | decimal(len) does not contain "date" |
| TableDdl.DecimalTyped | includes/class-table-manager.php:815-827 | DECIMAL(len) fails every test before the decimal test, and passes that one |
| TableDdl.ReadBackDecimal | includes/class-table-manager.php:813-831 | DECIMAL(len) reads back as decimal |
| TableDdl.TextTyped | includes/class-table-manager.php:815-821 | TEXT passes the text test and no earlier one |
| TableDdl.DateTyped | includes/class-table-manager.php:815-823 | DATE passes the date-but-not-datetime test and no earlier one |
| TableDdl.DatetimeTyped | includes/class-table-manager.php:815-825 | DATETIME contains both "date" and "datetime", and nothing tested earlier |
| TableDdl.ReadBackWords | includes/class-table-manager.php:813-831 | TEXT, DATE and DATETIME read back as text, date and datetime |
| TableDdl.SqlTypeReadBack | includes/class-table-manager.php:813-831 | round trip: the SQL type written for a field type reads back as the type stored (an unlisted type reads back as varchar) |
| TableDdl.GetTableStructure | includes/class-table-manager.php:778-804 | the edit tab's structure: one entry per column in order, typed by the table manager's reader and marked primary for key PRI |
| TableDdl.ReportedTypeReadBack | includes/class-table-manager.php:813-845 | a type that SHOW COLUMNS reports as written up to case ("int(11)" for "INT(11)") reads back as the stored type and the typed or default length |
| TableDdl.LengthUpToCase | includes/class-table-manager.php:839-845 | the length group of `W(L)` is read back from any change of case of it |
| TableDdl.UnsizedIntReadBack | includes/class-table-manager.php:813-845 | an integer column reported as "int" without a width reads back as int with an empty length |
| TableDdl.ColumnStructureReadsBack | includes/class-table-manager.php:778-831 | a column the table manager created, its type reported as written up to case, comes back on the edit tab with its type (DATETIME included), its length or the default, and is_primary exactly for key PRI |
| TableDdl.SqlLengthReadBack | includes/class-table-manager.php:839-845 | round trip: a typed length, or the type's default length, reads back; types without a length read back "" |
| TableDdl.FirstPrimary | includes/class-table-manager.php:47-130 | the field named in PRIMARY KEY is the first one flagged primary; with none there is no clause |
| TableDdl.CreateTableWithoutPrimary | includes/class-table-manager.php:124-137 | without a primary field, the trailing ", " is trimmed and the statement closes with `) $charset_collate;` |
| TableDdl.CreateTableWithPrimary | includes/class-table-manager.php:124-137 | with a primary field, every column fragment is followed by exactly one PRIMARY KEY clause, naming the first primary field |
| TableDdl.FirstPrimaryExtend | includes/class-table-manager.php:47-130 | one more field has a primary field exactly when the ones before it did or it is flagged |
| TableDdl.FirstPrimaryAt | includes/class-table-manager.php:124-130 | the first flagged field is the one found |
| TableDdl.ColumnEntries | includes/class-table-manager.php:47-122 | the column loop writes every field's fragment in order, and notes whether a primary field exists |
| TableDdl.PrimaryKeyEntries | includes/class-table-manager.php:124-130 | the second loop writes the clause for the first primary field only |
| TableDdl.BuildCreateTableSql | includes/class-table-manager.php:33-137 | the statement built is the CREATE TABLE text for the name, fields and collation |
| TableDdl.CreateTable | includes/class-table-manager.php:28-154 | invalid_params for an empty name or no fields, before any SQL; table_exists for an existing table; otherwise one CREATE statement, with creation_failed exactly when the database rejects it |
| TableDdl.DeleteTable | includes/class-table-manager.php:162-188 | invalid_params for an empty name, table_not_exists, else one DROP whose rejection gives deletion_failed |
| TableDdl.FirstByName | includes/class-table-manager.php:573-580 | the index found is the first field with that name, or none has it |
| TableDdl.GetFieldByName | includes/class-table-manager.php:573-580 | the loop returns the first field with that name, or null |
| TableDdl.FirstByNameAt | includes/class-table-manager.php:573-580 | the first matching field is the one found |
| TableDdl.Alters | includes/class-table-manager.php:247-251 | one ALTER statement per generated text, in order |
| TableDdl.RejectionsEmpty | includes/class-table-manager.php:247-260 | no error is collected exactly when the database accepts every statement |
| TableDdl.CollectStatements | includes/class-table-manager.php:219-244 | the operation loop emits statements in operation order: add and modify only when get_field_by_name finds the field, drop always, unknown types never |
| TableDdl.ModifyTable | includes/class-table-manager.php:198-263 | invalid_params for an empty name, table_not_exists, else every statement is sent even after a failure, and modification_failed exactly when one is rejected |
| TableDdl.RunStatements | includes/class-table-manager.php:247-260 | every statement is sent, and the errors are those of the rejected ones, in order |
| TableCrud.PerPage | includes/class-table-manager.php:278 | per_page is the pagination when positive, else 5 |
| TableCrud.Coerce | includes/class-table-manager.php:328-338 | a number keeps its raw text only when numeric, else "" |
| TableCrud.NumericFormats | includes/class-table-manager.php:343-347 | %f or %d exactly for number columns, %f only for a numeric value with a `.`, %s for every other type |
| TableCrud.PostedFields | includes/class-table-manager.php:319-323 | exactly the columns present in POST are submitted |
| TableCrud.SubmissionOf | includes/class-table-manager.php:319-353 | the data holds exactly the posted columns, in column order, with one format per value |
| TableCrud.SubmissionValues | includes/class-table-manager.php:325-340 | each submitted value is the coercion of its posted value |
| TableCrud.FormatsAlignExtend | includes/class-table-manager.php:340-347 | adding a value adds its format at the same position |
| TableCrud.SubmissionFormats | includes/class-table-manager.php:340-347 | each format stands at the position of its value |
| TableCrud.SubmissionError | includes/class-table-manager.php:349-352 | the required error is set exactly when some submitted value is "" in a column whose readonly is not exactly 'true' |
| TableCrud.GatherField | includes/class-table-manager.php:319-350 | one column of the loop matches the per-column step of the submission: an absent field changes nothing; a posted one is coerced by its display type, gets %f, %d or %s, and sets the error flag when it is "" in a column that is not read-only |
| TableCrud.CollectSubmission | includes/class-table-manager.php:315-353 | the submission loop builds exactly that data, those formats and that error flag |
| TableCrud.RequestedId | includes/class-table-manager.php:291-293 | a delete or edit request is taken exactly when its id and `_wpnonce` are present and the nonce verifies for the action and `intval(id)` |
| TableCrud.WritesNeedNonces | includes/class-table-manager.php:291-396 | a delete is sent only under its own record nonce; an insert or update only for a data form under the form nonce with no required error |
| TableCrud.OrderBy | includes/class-table-manager.php:416 | the sort column is `sanitize_key` of a configured column, or the primary key |
| TableCrud.OrderDir | includes/class-table-manager.php:417 | the direction is ASC exactly when the lower-cased `order` is "asc", else DESC |
| TableCrud.SearchClauses | includes/class-table-manager.php:421-426 | one LIKE clause per column |
| TableCrud.BuildListQuery | includes/class-table-manager.php:420-430 | the loop builds the listing query: SELECT *, the OR'd search clauses, ORDER BY |
| TableCrud.CollectSearchClauses | includes/class-table-manager.php:424-426 | the search loop yields one LIKE clause per column, in column order, each matching the escaped term anywhere in the value |
| TableCrud.ImplodeHasPart | includes/class-table-manager.php:427-428 | each part appears in the imploded text |
| TableCrud.EveryColumnSearched | includes/class-table-manager.php:421-428 | a truthy search term searches every column; a falsy one adds no WHERE part |
| TableCrud.CountQuery | includes/class-table-manager.php:437-438 | the corrected count query: only the listing query's leading SELECT * is replaced (the page itself uses the query as written) |
| TableCrud.CountQueryCountsListing | includes/class-table-manager.php:420-438 | the count query counts the rows the listing query lists |
| TableCrud.CountQueryAsWrittenAgrees | includes/class-table-manager.php:437 | replacing every "SELECT *" agrees with replacing the leading one exactly when the rest of the query contains none |
| TableCrud.PatternInWherePart | includes/class-table-manager.php:421-428 | a search term containing "SELECT *" puts it in the WHERE part |
| TableCrud.SearchForSelectAllMiscounts | includes/class-table-manager.php:425-437 | for such a search term, the count query as written differs from the one that counts the listing |
| TableCrud.PageNumber | includes/class-table-manager.php:433 | the page is at least 1 |
| TableCrud.JumpToPage | includes/class-table-manager.php:433-442 | the page-jump option for record k is listed, selects that page, and the page's LIMIT window contains k |
| TableCrud.FindEditRow | includes/class-table-manager.php:403-412 | editing and the edit row are those of a verified edit request |
| TableCrud.RenderPage | includes/class-table-manager.php:415-502 | the rendered page is the view-model of the listing, the form and the notices, its total read with the count query as written |
| TableCrud.RenderTable | includes/class-table-manager.php:271-506 | a write sends exactly one statement, whether or not the database accepts it, and redirects; otherwise nothing is sent and the page is rendered |
| TableCrud.DeleteLinkDeletes | includes/class-table-manager.php:551-555 | following a row's delete link deletes that row by its key |
| TableCrud.EditLinkEdits | includes/class-table-manager.php:545-549 | following a row's edit link opens the form on that row |
| TableCrud.RedirectsRepeatNothing | includes/class-table-manager.php:307-393 | the page a write redirects to drops `_wpnonce`, so reloading it repeats no write; it carries `updated` or `added`, and is no longer editing |
| TableCrud.DirectionWords | includes/class-table-manager.php:417 | "asc" lower-cases to "asc", and "desc" does not |
| TableCrud.SortLinkSortsSanitized | includes/class-table-manager.php:416 | following a configured column's header link sorts under `sanitize_key` of its name, which is not the column when `sanitize_key` changes it |
| TableCrud.SortLinkToggles | templates/frontend/table-view.php:19-22 | for a column that `sanitize_key` leaves unchanged, its header link sorts by it and flips the direction: DESC exactly when that column was sorted ASC |
| TableCrud.SubmitPost | templates/frontend/form-view.php:15-82 | submitting the form as displayed posts a data form under the verifying form nonce, flagged `update_record` exactly when editing, carrying the edited record's id in `record_id` |
| TableCrud.PostedFormRoutes | includes/class-table-manager.php:313-386 | a verified data form updates (on the intval of `record_id`, then redirects with `updated=1`) when it carries `update_record`, inserts otherwise, never deletes, and writes nothing exactly when a required field is empty |
| TableRows.CellOf | includes/class-table-manager.php:519-536 | a url with a truthy value becomes a link, a textarea a multi-line cell, anything else plain text |
| TableRows.CellsOfAt | includes/class-table-manager.php:519-536 | the i-th cell shows the i-th column's value ("" when the row lacks it) formatted by that column's display type |
| TableRows.RenderCells | includes/class-table-manager.php:519-536 | the column loop yields exactly the cells of all columns, in column order |
| TableRows.ActionsOf | includes/class-table-manager.php:539-560 | edit and delete links exactly when the row has its primary key, each with a nonce scoped to that record id; otherwise the "No Primary Key" cell |
| TableRows.RenderTableRow | includes/class-table-manager.php:516-564 | the loop emits one cell per column in column order, then the actions |
| Views.WidgetOf | templates/frontend/form-view.php:32-70 | a read-only field becomes the disabled-plus-hidden pair; a checkbox is checked exactly when the value is "1" |
| Views.FormViewOf | templates/frontend/form-view.php:15-82 | the form always carries `form_type=data_form` and the nonce; a record_id carrier exactly when editing a found row; each field's value is the POSTed one, else the edited row's, else "" |
| Views.ReadonlyCarried | templates/frontend/form-view.php:25-39 | a field is read-only exactly when readonly is 'true', and then renders the disabled input with its hidden carrier |
| Views.Submitted | templates/frontend/form-view.php:22-82 | submitting posts every field except an unchecked checkbox |
| Views.FieldParams | templates/frontend/form-view.php:22-70 | every shown field that sends a value is posted |
| Views.FieldParamsOnlySent | templates/frontend/form-view.php:22-70 | nothing but a shown field that sends a value is posted |
| Views.SubmittedCarries | templates/frontend/form-view.php:15-82 | the submission carries form_type, the nonce, the record id when editing, and `update_record` exactly when editing |
| Views.FieldParamsValue | templates/frontend/form-view.php:22-70 | each sent field posts the value shown |
| Views.RedisplayKeepsValues | templates/frontend/form-view.php:26-74 | a form redisplayed after its own submission keeps each sent value, and marks an error exactly where that value trims to empty |
| Views.TableViewOf | templates/frontend/table-view.php:17-44 | one header per column in order, then the rows, or the "No records found" row |
| Views.TableIsRectangular | templates/frontend/table-view.php:30-44 | the empty row spans all columns plus Actions; each data row has one cell per header |
| Views.OneSortIndicator | templates/frontend/table-view.php:24-26 | the sort indicator appears only on the sort column, classed with the lower-cased direction |
| Views.Preserved | templates/frontend/search-view.php:17-21 | every GET parameter except `search` and `paged` is re-emitted |
| Views.SearchViewOf | templates/frontend/search-view.php:17-44 | the count shows unless showrecordscount is exactly 'false'; the box holds the search term; Clear shows exactly for a truthy term and removes only `search` |
| Views.RecordsTextReadsBack | templates/frontend/search-view.php:27 | "Records: %d" with no plural, and the number reads back as the total |
| Views.TotalPages | templates/frontend/pagination-view.php:13 | total_pages is ceil(total / per_page) |
| Views.PageOptions | templates/frontend/pagination-view.php:25-29 | the options are 1..total_pages, selected exactly at the current page |
| Views.PaginationViewOf | templates/frontend/pagination-view.php:13-29 | the form posts form_type=pagination with its nonce; the selector shows exactly when there is more than one page |
| Views.MorePagesIffMoreRecords | templates/frontend/pagination-view.php:13-21 | more than one page exactly when the total exceeds per_page |
| Views.PageListExact | templates/frontend/pagination-view.php:25-29 | pages run 1..n ascending, each once, and exactly the current one is selected |
| Views.PagesCoverRecords | templates/frontend/pagination-view.php:13-29 | every record falls on a listed page |
| WordPress.Param | includes/class-ajax-handler.php:36 | a parameter is present exactly when posted, with its posted value |
| WordPress.WithPrefix | templates/admin/table-manager.php:23-25 | the name starts with the prefix, and is changed exactly when it did not |
| WordPress.WithPrefixIdempotent | templates/admin/table-manager.php:23-25 | normalising twice equals normalising once |
| WordPress.Without | includes/class-table-manager.php:307 | the keys kept are exactly those not removed |
| WordPress.RemoveQueryArgs | includes/class-table-manager.php:307 | `remove_query_arg` drops exactly the named parameters and keeps the others' values |
| WordPress.AddQueryArgs | includes/class-table-manager.php:375-378 | `add_query_arg` sets the named parameters and keeps the others |
| WordPress.Names | includes/class-table-manager.php:375-378 | the names of the added pairs, in order |
| WordPress.AddQueryArgsSets | includes/class-table-manager.php:375-378 | an added parameter holds its last given value |
| WordPress.Follow | includes/class-table-manager.php:375-378 | following a redirect gives a well-formed parameter array |
| WordPress.FollowLink | templates/frontend/table-view.php:22 | a two-argument link assigns both arguments in turn and keeps every other parameter of the current page |
| Store.Apply | includes/class-table-manager.php:294-381 | an accepted insert adds the row, a delete removes its key, table DDL adds or removes the table, and an ALTER changes no rows |
| Store.Database.Run | includes/class-table-manager.php:294-298 | every statement is logged; the state changes exactly when the database accepts it, and a rejection reports its error |
| Ajax.LoadQueryResults | includes/class-ajax-handler.php:34-67 | errors for a missing or invalid nonce and for an empty query; otherwise one `{id, text}` per row in order: the first column, and the second when present and non-null, else the id |
| Ajax.SuggestedType | includes/class-ajax-handler.php:133-141 | number exactly for int/float/decimal, else date for date, else textarea for text, else text (case-sensitive) |
| Ajax.LongtextIsText | includes/class-ajax-handler.php:139 | the `longtext` test adds nothing to the `text` test |
| Ajax.TypeOptions | includes/class-ajax-handler.php:154-172 | the twelve types in order, each selected exactly when it is the suggestion |
| Ajax.OneTypeSelected | includes/class-ajax-handler.php:169-172 | exactly one option is selected, and it is the suggested type |
| Ajax.SelectedAt | includes/class-ajax-handler.php:169-172 | one selected position counts one |
| Ajax.NoneSelected | includes/class-ajax-handler.php:169-172 | no selected position counts zero |
| Ajax.GetTableFields | includes/class-ajax-handler.php:94-200 | the missing-nonce, invalid-nonce, no-table and no-columns errors in that order; otherwise one field per column in order |
| Ajax.FieldChoices | includes/class-ajax-handler.php:130-192 | the loop gives each column its name and its type select |
| Ajax.DeleteRecord | includes/class-ajax-handler.php:207-244 | after the nonce, an error for an empty table or `intval(record_id)` 0; otherwise one DELETE on the posted key (default "id"), reported by whether it was accepted |
| Ajax.CreateTableCall | includes/class-ajax-handler.php:251-303 | the prefix is prepended unless present, an existing table is rejected before the table manager runs, and success carries the prefixed name |
| Ajax.DeleteTableCall | includes/class-ajax-handler.php:310-342 | a missing name is rejected; otherwise the table manager's delete_table decides |
| Ajax.ModifyTableCall | includes/class-ajax-handler.php:404-438 | after the nonce: "Missing required parameters" without a name or with neither fields nor operations; "Table does not exist" for a name that is not a table, with nothing sent; otherwise every ALTER is sent, success ("Table modified successfully") exactly when all are accepted, else modification_failed's message |
| Ajax.AsWrittenNeverDatetime | includes/class-ajax-handler.php:446-464 | this file's type reader never answers "datetime" |
| Ajax.AsWrittenAgrees | includes/class-ajax-handler.php:446-464 | this file's type reader agrees with the table manager's except that "datetime" becomes "date" |
| Ajax.AsWrittenMisreadsDatetime | includes/class-ajax-handler.php:455-458 | a DATETIME column reads as "date" here, and as "datetime" in the table manager's reader |
| Ajax.GetTableStructure | includes/class-ajax-handler.php:349-397 | the nonce, no-name and no-columns errors; otherwise one structure per column in order, typed by this file's reader |
| Ajax.Structures | includes/class-ajax-handler.php:379-391 | the loop gives each column its name, this file's type, length, null flag, default, extra and key |
| Ajax.StructureReadsBack | includes/class-ajax-handler.php:379-391 | a column the table manager created, its type reported as written up to case, comes back with its length (or the default length) and its type, except that DATETIME comes back as "date" |
| Ajax.StructureAgreesWithEditTab | includes/class-ajax-handler.php:379-391 | the AJAX structure matches the edit tab's entry in every field except a "datetime" type, which is "date" here |
| AdminScript.PaginationText | assets/js/custom-table-crud-admin.js:69 | an empty pagination input gives 5 |
| AdminScript.HeadAttributes | assets/js/custom-table-crud-admin.js:69-114 | pagination, table_view, then the eight flags as "true"/"false", in the order the handler declares them |
| AdminScript.Checked | assets/js/custom-table-crud-admin.js:87-89 | the checked wrappers, in order; none exactly when no box is checked |
| AdminScript.CheckedSound | assets/js/custom-table-crud-admin.js:87-89 | exactly the checked wrappers are emitted |
| AdminScript.FieldAttributes | assets/js/custom-table-crud-admin.js:83-106 | one attribute per checked wrapper |
| AdminScript.FieldAttributesAt | assets/js/custom-table-crud-admin.js:83-106 | the i-th checked wrapper is written as `field<i+1>` |
| AdminScript.FieldKeyAdmitted | assets/js/custom-table-crud-admin.js:100-102 | every `field<n>` written is a key the shortcode handler admits |
| AdminScript.FieldKeyInjective | assets/js/custom-table-crud-admin.js:100-104 | different numbers give different attribute names |
| AdminScript.GeneratedKeys | assets/js/custom-table-crud-admin.js:83-114 | the ten declared attributes come first, then one distinct field key per checked wrapper |
| AdminScript.SpecRoundTrip | assets/js/custom-table-crud-admin.js:92-103 | round trip: a descriptor written for values without `;`, quotes, surrounding spaces or "0" is parsed back to the same fieldname, label, type, readonly and (for `query`) query |
| AdminScript.FieldsSoFarChecked | assets/js/custom-table-crud-admin.js:83-106 | what the loop accumulates, wrapper by wrapper, is the text of the checked wrappers' attributes and their count |
| AdminScript.FieldsText | assets/js/custom-table-crud-admin.js:83-106 | the loop writes the checked wrappers' attributes numbered from 1, and notes whether any was checked |
| AdminScript.GenerateShortcode | assets/js/custom-table-crud-admin.js:62-124 | an alert and no shortcode without a table or a checked field; otherwise the shortcode |
| AdminScript.TypeChanged | assets/js/custom-table-crud-admin.js:150-168 | text clears and disables the length; int, varchar and decimal set 11, 255 and 10,2; any other type keeps the length |
| AdminScript.FieldRowsForm.constructor | templates/admin/table-manager.php:205-250 | the form starts with the `id` row, its Remove button disabled |
| AdminScript.FieldRowsForm.ChangeType | assets/js/custom-table-crud-admin.js:150-168 | only that row's type and length change |
| AdminScript.FieldRowsForm.ChangePrimary | assets/js/custom-table-crud-admin.js:192-197 | checking one primary box unchecks all others, so at most one row is primary |
| AdminScript.FieldRowsForm.ChangeExtra | assets/js/custom-table-crud-admin.js:200-209 | `auto_increment` makes that row the only primary one and an INT(11) |
| AdminScript.FieldRowsForm.AddField | assets/js/custom-table-crud-admin.js:171-183 | a clone of the template, not primary, is appended and the Remove buttons are enabled |
| AdminScript.FieldRowsForm.RemoveField | assets/js/custom-table-crud-admin.js:186-251 | a row is removed only while more than one remains |
| LegacyScript.Checked | js/custom-table-crud.js:27-29 | the checked wrappers, in order |
| LegacyScript.CheckedSound | js/custom-table-crud.js:27-29 | exactly the checked wrappers are emitted |
| LegacyScript.FieldAttributes | js/custom-table-crud.js:24-36 | one attribute per checked wrapper |
| LegacyScript.FieldAttributesAt | js/custom-table-crud.js:24-36 | the i-th checked wrapper is written as `field<i+1>`, a key the handler admits |
| LegacyScript.FieldsSoFarChecked | js/custom-table-crud.js:24-36 | what the loop accumulates is the text of the checked wrappers' attributes and their count |
| LegacyScript.FieldsText | js/custom-table-crud.js:24-36 | the loop writes the checked wrappers' attributes numbered from 1 |
| LegacyScript.GenerateShortcode | js/custom-table-crud.js:20-38 | only pagination and table_view precede the fields, with no check of table or fields |
| LegacyScript.SpecRoundTrip | js/custom-table-crud.js:31-33 | round trip: the descriptor is parsed back to the field, label and type, with readonly defaulted to 'false' and no query |
| AdminPage.PhpBool | templates/admin/table-manager.php:36-39 | the stored flag reads as set exactly when `isset` held |
| AdminPage.FieldFrom | templates/admin/table-manager.php:32-40 | a kept row takes a `sanitize_key` name and its null and primary flags from `isset` at the same index |
| AdminPage.FieldsUpTo | templates/admin/table-manager.php:30-42 | no more fields than rows |
| AdminPage.CollectedRows | templates/admin/table-manager.php:30-42 | each collected field comes from a named row, and no named row is lost |
| AdminPage.CollectFields | templates/admin/table-manager.php:30-42 | the loop collects exactly those fields |
| AdminPage.IntendedFields | templates/admin/table-manager.php:30-42 | no more fields than rows |
| AdminPage.ListKeys | templates/admin/table-manager.php:36-39 | a `[]` list posts keys 0 up to its length |
| AdminPage.IndexedPostReadsRows | templates/admin/table-manager.php:30-42 | with row-indexed input names, the fields collected are exactly the named rows' own fields |
| AdminPage.CompactedPostMisreadsNull | templates/admin/table-manager.php:35-39 | with the `[]` names as written, a nullable row after the hidden template row lends its NULL flag to the `id` row |
| AdminPage.CreatedName | templates/admin/table-manager.php:19-25 | the table is created under a name that starts with the prefix |
| AdminPage.HandleCreate | templates/admin/table-manager.php:17-54 | creation is attempted only when `create_table` is posted and its nonce verifies; the notice is success exactly when the table was created, else error with create_table's message |
| AdminPage.HandleDelete | templates/admin/table-manager.php:57-75 | the table is dropped only with a name, `confirm_delete === 'yes'` and a nonce for that table; such a request always redirects without the three arguments |
| AdminInfo.ActiveTab | includes/class-admin.php:105 | the tab defaults to 'list' |
| AdminInfo.SelectedTable | includes/class-admin.php:111 | the table defaults to '' |
| AdminInfo.MetaOf | includes/class-admin.php:140-156 | the input type by case-sensitive substring test; required exactly when Null is 'NO'; primary exactly when Key is 'PRI' |
| AdminInfo.ColumnsOf | includes/class-admin.php:139-157 | the columns form a well-formed array |
| AdminInfo.PrimaryKeyIsLastPri | includes/class-admin.php:128-161 | the primary key defaults to 'id', and of several PRI columns the last one wins |
| AdminInfo.ColumnsOfStep | includes/class-admin.php:151-156 | each column's entry is assigned, a new name added at the end |
| AdminInfo.ColumnsOfKeys | includes/class-admin.php:138-163 | columns with distinct names are listed in order |
| AdminInfo.ColumnsOfEntries | includes/class-admin.php:151-156 | each column keeps its own entry |
| AdminInfo.ColumnEntry | includes/class-admin.php:151-156 | a column that no later column of the same name follows keeps its own entry: the last assignment to a name stands |
| AdminInfo.GetTableInfo | includes/class-admin.php:123-172 | the loop classifies every reported column, takes the last PRI column as primary key (else 'id'), and stores the count query's answer |
| Autoloader.Slug | custom-table-crud.php:30-33 | the file-name part is the name lower-cased with `_` turned into `-`, character by character |
| Autoloader.ClassFile | custom-table-crud.php:26-33 | no file exactly for names outside `CustomTableCRUD\` |
| Autoloader.Autoload | custom-table-crud.php:23-38 | a file is required exactly when the class is in the namespace and its file exists |
| Autoloader.ForeignClassIgnored | custom-table-crud.php:26-28 | a class outside the namespace never loads a file |
| Autoloader.NamespacedClassFile | custom-table-crud.php:30-33 | a namespaced class is looked up as `includes/class-<slug>.php` under its own name |
| Autoloader.SlugLowerHyphenated | custom-table-crud.php:31-32 | the file-name part has no capital letter and no `_` |
| Autoloader.SlugMerges | custom-table-crud.php:31-32 | names differing only in case, or in `_` against `-`, share one file |
| Autoloader.SlugIs | custom-table-crud.php:31-32 | a slug matching character by character is the slug |
| Autoloader.ShortNameLacksPrefix | custom-table-crud.php:30-31 | a name shorter than the prefix cannot contain it |
| Autoloader.SlugTableManager | custom-table-crud.php:31-32 | Table_Manager becomes table-manager |
| Autoloader.TableManagerFile | custom-table-crud.php:30-33 | `CustomTableCRUD\Table_Manager` loads `includes/class-table-manager.php` |
| Autoloader.SlugAjaxHandler | custom-table-crud.php:31-32 | Ajax_Handler becomes ajax-handler |
| Autoloader.AjaxHandlerFile | custom-table-crud.php:30-33 | `CustomTableCRUD\Ajax_Handler` loads `includes/class-ajax-handler.php` |
| Autoloader.SlugPluginCore | custom-table-crud.php:31-32 | Plugin_Core becomes plugin-core |
| Autoloader.PluginCoreFile | custom-table-crud.php:30-33 | `CustomTableCRUD\Plugin_Core` loads `includes/class-plugin-core.php` |

## Left out

- Database I/O (`$wpdb`, `dbDelta`, `SHOW TABLES/COLUMNS`, `get_primary_key`, `get_tables`, `get_var`): the answers are given functions of the query text, and acceptance of a write is a given predicate. Store does not model SQL itself.
- WordPress helpers (`sanitize_*`, `esc_*`, `wp_verify_nonce`, `wp_create_nonce`, `$wpdb->prepare` quoting): these are uninterpreted functions of an `Env`. Nonce cryptography and expiry are not modelled.
- HTML markup, output buffering and escaping: the views are view-models. `nl2br` and the link markup are cell kinds.
- `wp_redirect`/`exit` and `wp_send_json_*` are result values. The success or error message set just before a redirect is lost with the redirect, so the model does not keep it.
- Debug logging to files in render_table, handle_shortcode and load_query_results: this is file I/O, and the AJAX log runs only after the reply has been sent.
- includes/class-plugin-core.php (hooks, asset loading, activation), uninstall.php, the dashboard and generator page templates, and the `loadFields` AJAX calls of both scripts: these are plumbing and network I/O.
- Table_Manager::get_tables: it is a database read. Its one caller (templates/admin/table-manager.php:114) passes `true`, so the filter that drops the WordPress core tables never runs and is not modelled.
- Clipboard copying, alerts' text and the delete-confirmation dialogs of the scripts: this is browser UI.
- The AJAX handler's own `get_field_length_from_sql` is textually identical to the table manager's, so both are modelled by `TableDdl.LengthFromSql`.
- `is_numeric` and `intval`: these are simple parsers of decimal text. `is_numeric` accepts an optional sign, digits and at most one `.`, and no exponent, hexadecimal or surrounding whitespace. `intval` skips leading whitespace and reads an optional sign and the leading digits. Integers are unbounded here: PHP's `intval` saturates at PHP_INT_MAX and PHP_INT_MIN, and the page offset `($page - 1) * $per_page` turns into a float past PHP_INT_MAX; neither is modelled.
- PHP floats: `%f` formatting is not modelled.
- Browser-side validation (`required`, `step`, `pattern`): it does not affect what the server accepts.
- Store.Apply: an accepted INSERT files the row under the fresh id `nextId`, whatever the posted key column holds, so a posted value for a key that is not auto-increment is ignored. An accepted UPDATE merges its values into an existing row and ignores a missing one; a DELETE of a missing key changes nothing. The model states no more than that about rows, and nothing outside Store reads them.
- TableDdl.ColumnStructureReadsBack, Ajax.StructureReadsBack: they assume SHOW COLUMNS reports the type as written, up to case. MySQL 8.0.19 and later report an integer column as "int" without its "(11)", so the edit tab and the AJAX reply show an empty length for it (UnsizedIntReadBack); the round trip of the length then does not hold for INT.
- TableCrud.RenderPage: it is tied to the page view-model function. Its parts are proved separately (the sort, search, count and paging lemmas and the Views members). Its total is read with the count query as written, so on a search for the text `SELECT *` it is not the count of the listing; CountQueryCountsListing holds of the corrected query only.
- TableCrud.SortLinkToggles: a configured column whose name `sanitize_key` changes ("Title" becomes "title") is sorted under the sanitized name, which is not the header's column, so that header never flips the direction and never shows the sort indicator. SortLinkSortsSanitized states where such a link sorts; the toggle itself is stated only for columns that `sanitize_key` leaves unchanged.
- Store.Database.TableExists: `SHOW TABLES LIKE %s` is a LIKE pattern, in which `_` and `%` are wildcards, but the model answers it by exact membership of the name. A name such as `wp_my_table` can match another table in the source; the model does not capture that.
- Views.FieldParams: a key-value field is rendered with only the empty "Search..." option; its other options come from the `loadFields` AJAX call, which is not modelled, so the model posts the field's shown value as if that option had been chosen. The `_wp_http_referer` field that `wp_nonce_field` also emits is not among the posted parameters.

## Findings

| source | as written | input that shows it | evidently intended | confidence | as-written member | corrected member |
|---|---|---|---|---|---|---|
| includes/class-table-manager.php:437 | `str_replace('SELECT *', 'SELECT COUNT(*)', $query)` rewrites every "SELECT *" in the query, including one inside the escaped search literal | a search for the text `SELECT *`: the LIKE pattern is changed as well, so the count no longer matches the listed rows | replace only the leading `SELECT *`, so the count query counts exactly the rows the listing query lists | not executed | TableCrud.SearchForSelectAllMiscounts | TableCrud.CountQueryCountsListing |
| templates/admin/table-manager.php:36 | `isset($_POST['field_null'][$i])` reads `field_null[]` by row index, but the browser numbers a `[]` list's checked boxes from 0 and skips unchecked ones (also the hidden template row's) | rows `id` (not null), the hidden template row and `title` (null checked), posted by a client that skips form validation (the template row's empty name input is `required`, so a validating browser refuses to submit): the single `field_null[]` box sent has index 0, so the by-index read creates `id` NULL-able and `title` NOT NULL | each row's flags and length read from that row | not executed | AdminPage.CompactedPostMisreadsNull | AdminPage.IndexedPostReadsRows |
| includes/class-ajax-handler.php:455-458 | "date" is tested before "datetime", so the datetime branch is unreachable | a `wp_ajax_get_table_structure` request (the action is registered at includes/class-ajax-handler.php:24, though no shown code sends it) for a table with a `DATETIME` column: the reply reports that column's type as "date" | test date-but-not-datetime first, as the table manager's reader does, so DATETIME reads back as "datetime" | not executed | Ajax.AsWrittenMisreadsDatetime | TableDdl.ColumnStructureReadsBack |

=== FILE: admin_info.dfy ===
/**
  * The admin class's request defaults and its table information: each
  * column's suggested input type, whether it is required and whether it is
  * the primary key, the table's primary key, and its record count.
  */
module AdminInfo {
  import opened Php
  import opened WordPress
  import opened Store
  import Ajax

  // -----------------------------------------------------------------------
  // Page parameters

  /** The table manager's active tab: the sanitized `tab` parameter, "list" when there is none. */
  function ActiveTab(env: Env, get: map<string, string>): (tab: string)
    ensures Param(get, "tab").None? ==> tab == "list"
    ensures Param(get, "tab").Some? ==> tab == env.sanitizeText(Param(get, "tab").value)
  {
    if "tab" in get then env.sanitizeText(get["tab"]) else "list"
  }

  /** The table the generator and the table manager start from: the sanitized `table` parameter, '' when there is none. */
  function SelectedTable(env: Env, get: map<string, string>): (table: string)
    ensures Param(get, "table").None? ==> table == ""
    ensures Param(get, "table").Some? ==> table == env.sanitizeText(Param(get, "table").value)
  {
    if "table" in get then env.sanitizeText(get["table"]) else ""
  }

  // -----------------------------------------------------------------------
  // get_table_info

  /** What the page keeps about a column. */
  datatype ColumnMeta = ColumnMeta(inputType: string, required: bool, default: Option<string>, isPrimary: bool)

  datatype TableInfo = TableInfo(columns: PArray<ColumnMeta>, primaryKey: string, recordCount: nat)

  /**
    * One column's entry: the input type by the same case-sensitive
    * substring tests as the AJAX field list, required exactly when the
    * column is NOT NULL, primary exactly when its key is PRI.
    */
  function MetaOf(c: ColumnInfo): (m: ColumnMeta)
    ensures m.inputType == "number" <==>
      Contains(c.sqlType, "int") || Contains(c.sqlType, "float") || Contains(c.sqlType, "decimal")
    ensures m.inputType == "date" <==> m.inputType != "number" && Contains(c.sqlType, "date")
    ensures m.inputType == "textarea" <==> m.inputType != "number" && m.inputType != "date" && Contains(c.sqlType, "text")
    ensures m.inputType in {"number", "date", "textarea", "text"}
    ensures m.required <==> c.nullable == "NO"
    ensures m.isPrimary <==> c.key == "PRI"
    ensures m.default == c.default
  {
    ColumnMeta(Ajax.SuggestedType(c.sqlType), c.nullable == "NO", c.default, c.key == "PRI")
  }

  /** `$info['columns']`: one entry per column name, assigned in order. */
  function ColumnsOf(cols: seq<ColumnInfo>): (r: PArray<ColumnMeta>)
    ensures r.Valid()
  {
    if cols == [] then EmptyArray()
    else ColumnsOf(cols[..|cols| - 1]).Put(cols[|cols| - 1].field, MetaOf(cols[|cols| - 1]))
  }

  /** `$info['primary_key']`: the last PRI column's name, "id" when there is none. */
  function PrimaryKeyOf(cols: seq<ColumnInfo>): string
  {
    if cols == [] then "id"
    else if cols[|cols| - 1].key == "PRI" then cols[|cols| - 1].field
    else PrimaryKeyOf(cols[..|cols| - 1])
  }

  /** With several PRI columns the last one is the primary key; with none it is "id". */
  lemma {:induction false} PrimaryKeyIsLastPri(cols: seq<ColumnInfo>)
    ensures (forall i :: 0 <= i < |cols| ==> cols[i].key != "PRI") ==> PrimaryKeyOf(cols) == "id"
    ensures forall i :: 0 <= i < |cols| && cols[i].key == "PRI" && (forall j :: i < j < |cols| ==> cols[j].key != "PRI") ==>
      PrimaryKeyOf(cols) == cols[i].field
  {
    if cols != [] {
      var init := cols[..|cols| - 1];
      PrimaryKeyIsLastPri(init);
      forall i | 0 <= i < |cols| - 1 && cols[i].key == "PRI" && (forall j :: i < j < |cols| ==> cols[j].key != "PRI")
        ensures PrimaryKeyOf(cols) == cols[i].field
      {
        assert init[i] == cols[i];
        assert forall j :: i < j < |init| ==> init[j] == cols[j];
      }
    }
  }

  /** The step of the column loop: the new column's entry is assigned, and a new name is added at the end. */
  lemma ColumnsOfStep(cols: seq<ColumnInfo>)
    requires cols != []
    ensures ColumnsOf(cols).vals == ColumnsOf(cols[..|cols| - 1]).vals[cols[|cols| - 1].field := MetaOf(cols[|cols| - 1])]
    ensures cols[|cols| - 1].field !in ColumnsOf(cols[..|cols| - 1]).keys ==>
      ColumnsOf(cols).keys == ColumnsOf(cols[..|cols| - 1]).keys + [cols[|cols| - 1].field]
  {
  }

  /** Columns with distinct names (as SHOW COLUMNS gives them) are listed in order. */
  lemma {:induction false} ColumnsOfKeys(cols: seq<ColumnInfo>)
    requires forall i, j :: 0 <= i < j < |cols| ==> cols[i].field != cols[j].field
    ensures |ColumnsOf(cols).keys| == |cols|
    ensures forall i :: 0 <= i < |cols| ==> ColumnsOf(cols).keys[i] == cols[i].field
  {
    if cols != [] {
      var init, c := cols[..|cols| - 1], cols[|cols| - 1];
      ColumnsOfKeys(init);
      var before := ColumnsOf(init).keys;
      assert c.field !in before by {
        forall i | 0 <= i < |init|
          ensures before[i] != c.field
        {
          assert init[i] == cols[i];
        }
      }
      ColumnsOfStep(cols);
      var after := ColumnsOf(cols).keys;
      assert after == before + [c.field];
      forall i | 0 <= i < |cols|
        ensures after[i] == cols[i].field
      {
        if i < |init| {
          assert init[i] == cols[i];
        }
      }
    }
  }

  /** Columns with distinct names each keep their own entry. */
  lemma ColumnsOfEntries(cols: seq<ColumnInfo>)
    requires forall i, j :: 0 <= i < j < |cols| ==> cols[i].field != cols[j].field
    ensures forall i :: 0 <= i < |cols| ==> ColumnsOf(cols).Get(cols[i].field) == Some(MetaOf(cols[i]))
  {
    ColumnsOfVals(cols);
    forall i | 0 <= i < |cols|
      ensures ColumnsOf(cols).Get(cols[i].field) == Some(MetaOf(cols[i]))
    {
      ColumnEntry(cols, i);
    }
  }

  /** The entries alone, name by name, later assignments overwriting earlier ones. */
  ghost function EntryMap(cols: seq<ColumnInfo>): map<string, ColumnMeta>
  {
    if cols == [] then map[] else EntryMap(cols[..|cols| - 1])[cols[|cols| - 1].field := MetaOf(cols[|cols| - 1])]
  }

  lemma {:induction false} ColumnsOfVals(cols: seq<ColumnInfo>)
    ensures ColumnsOf(cols).vals == EntryMap(cols)
  {
    if cols != [] {
      ColumnsOfVals(cols[..|cols| - 1]);
      ColumnsOfStep(cols);
    }
  }

  /** The entry of a column that no later column renames over: the last assignment to a name stands. */
  lemma {:induction false} ColumnEntry(cols: seq<ColumnInfo>, i: nat)
    requires i < |cols|
    requires forall j :: i < j < |cols| ==> cols[j].field != cols[i].field
    ensures cols[i].field in EntryMap(cols) && EntryMap(cols)[cols[i].field] == MetaOf(cols[i])
  {
    var init := cols[..|cols| - 1];
    if i < |init| {
      assert init[i] == cols[i];
      assert forall j :: i < j < |init| ==> init[j] == cols[j];
      ColumnEntry(init, i);
    }
  }

  /** The columns query as $wpdb->prepare writes it: the quoted name inside the backticks. */
  function ColumnsQuery(env: Env, table: string): string
  {
    "SHOW COLUMNS FROM `" + env.quote(table) + "`"
  }

  function CountQuery(env: Env, table: string): string
  {
    "SELECT COUNT(*) FROM `" + env.quote(table) + "`"
  }

  /**
    * get_table_info: every column the database reports, classified, the
    * last PRI column as the primary key (else "id"), and the record count
    * the count query returns.
    */
  method GetTableInfo(env: Env, showColumns: string -> seq<ColumnInfo>, getVar: string -> nat, table: string)
    returns (info: TableInfo)
    ensures var cols := showColumns(ColumnsQuery(env, table));
      && info.columns == ColumnsOf(cols)
      && info.primaryKey == PrimaryKeyOf(cols)
      && info.recordCount == getVar(CountQuery(env, table))
  {
    var columns := EmptyArray();
    var primaryKey := "id";
    var cols := showColumns(ColumnsQuery(env, table));
    var i := 0;
    while i < |cols|
      invariant 0 <= i <= |cols|
      invariant columns == ColumnsOf(cols[..i])
      invariant primaryKey == PrimaryKeyOf(cols[..i])
    {
      assert cols[..i + 1][..i] == cols[..i];
      var column := cols[i];
      var inputType := "text";
      if Contains(column.sqlType, "int") || Contains(column.sqlType, "float") || Contains(column.sqlType, "decimal") {
        inputType := "number";
      } else if Contains(column.sqlType, "date") {
        inputType := "date";
      } else if Contains(column.sqlType, "text") || Contains(column.sqlType, "longtext") {
        inputType := "textarea";
      }
      columns := columns.Put(column.field, ColumnMeta(inputType, column.nullable == "NO", column.default, column.key == "PRI"));
      if column.key == "PRI" {
        primaryKey := column.field;
      }
      i := i + 1;
    }
    assert cols[..i] == cols;
    info := TableInfo(columns, primaryKey, getVar(CountQuery(env, table)));
  }
}

=== FILE: admin_page.dfy ===
/**
  * The admin table-manager page's request handling: the create-table form
  * (nonce gate, prefixed name, the field rows collected from the posted
  * lists, the notice shown) and the confirmed, nonce-checked table
  * deletion that always redirects.
  */
module AdminPage {
  import opened Php
  import opened WordPress
  import opened Store
  import opened TableDdl
  import AdminScript

  // -----------------------------------------------------------------------
  // The posted create-table form

  /**
    * The create-table form as PHP receives it. `field_name[]`,
    * `field_type[]`, `field_default[]` and `field_extra[]` arrive for every
    * row, in document order. A length input that is disabled is not sent,
    * and a checkbox is sent only when it is checked, so those arrive as
    * arrays keyed by whatever index the browser gave them.
    */
  datatype CreatePost = CreatePost(tableName: string, names: seq<string>, types: seq<string>,
                                   lengths: map<nat, string>, nulls: set<nat>, defaults: seq<string>,
                                   extras: seq<string>, primaries: set<nat>)

  /** `sanitize_text_field($_POST[...][$i])`: a missing entry reads as null, which sanitizes to ''. */
  function Entry(env: Env, xs: seq<string>, i: nat): string
  {
    if i < |xs| then env.sanitizeText(xs[i]) else ""
  }

  function KeyedEntry(env: Env, m: map<nat, string>, i: nat): string
  {
    if i in m then env.sanitizeText(m[i]) else ""
  }

  /** A PHP boolean stored in the field array, as create_table's `isset(...) && ...` test reads it. */
  function PhpBool(b: bool): (o: Option<string>)
    ensures Flag(o) <==> b
  {
    Some(if b then "1" else "")
  }

  /** The field array built from posted row `i`: every value taken at index `i` of its array. */
  function FieldFrom(env: Env, p: CreatePost, i: nat): (f: FieldDef)
    requires i < |p.names|
    ensures f.name == env.sanitizeKey(p.names[i])
    ensures Flag(f.nullable) <==> i in p.nulls
    ensures Flag(f.primary) <==> i in p.primaries
  {
    FieldDef(env.sanitizeKey(p.names[i]), Entry(env, p.types, i), Some(KeyedEntry(env, p.lengths, i)),
             PhpBool(i in p.nulls), Some(Entry(env, p.defaults, i)), Some(Entry(env, p.extras, i)),
             PhpBool(i in p.primaries))
  }

  /** The fields collected from the first `n` posted rows: rows with an empty (or "0") name are skipped. */
  function FieldsUpTo(env: Env, p: CreatePost, n: nat): (fields: seq<FieldDef>)
    requires n <= |p.names|
    ensures |fields| <= n
  {
    if n == 0 then []
    else FieldsUpTo(env, p, n - 1) + (if Truthy(p.names[n - 1]) then [FieldFrom(env, p, n - 1)] else [])
  }

  function Collected(env: Env, p: CreatePost): seq<FieldDef>
  {
    FieldsUpTo(env, p, |p.names|)
  }

  /** Every collected field comes from a posted row with a name, and no row with a name is lost. */
  lemma {:induction false} CollectedRows(env: Env, p: CreatePost, n: nat)
    requires n <= |p.names|
    ensures forall f :: f in FieldsUpTo(env, p, n) ==>
      exists i :: 0 <= i < n && Truthy(p.names[i]) && f == FieldFrom(env, p, i)
    ensures forall i :: 0 <= i < n && Truthy(p.names[i]) ==> FieldFrom(env, p, i) in FieldsUpTo(env, p, n)
  {
    if n > 0 {
      CollectedRows(env, p, n - 1);
    }
  }

  /** The loop over `field_name[]`. */
  method CollectFields(env: Env, p: CreatePost) returns (fields: seq<FieldDef>)
    ensures fields == Collected(env, p)
  {
    fields := [];
    var i := 0;
    while i < |p.names|
      invariant 0 <= i <= |p.names|
      invariant fields == FieldsUpTo(env, p, i)
    {
      if Truthy(p.names[i]) {
        fields := fields + [FieldFrom(env, p, i)];
      }
      i := i + 1;
    }
  }

  // -----------------------------------------------------------------------
  // What the browser posts for the form's rows

  /** The field array a row stands for: its own name, type, length (none when disabled), flags, default and extra. */
  function IntendedField(env: Env, r: AdminScript.FieldRow): FieldDef
  {
    FieldDef(env.sanitizeKey(r.name), env.sanitizeText(r.ftype),
             Some(if r.lengthDisabled then "" else env.sanitizeText(r.length)),
             PhpBool(r.nullable), Some(env.sanitizeText(r.default)), Some(env.sanitizeText(r.extra)),
             PhpBool(r.primary))
  }

  /** The field arrays of the rows with a name, in document order. */
  function IntendedFields(env: Env, rows: seq<AdminScript.FieldRow>): (fields: seq<FieldDef>)
    ensures |fields| <= |rows|
  {
    if rows == [] then []
    else
      var r := rows[|rows| - 1];
      IntendedFields(env, rows[..|rows| - 1]) + (if Truthy(r.name) then [IntendedField(env, r)] else [])
  }

  /** The values of the rows' enabled length inputs, in document order. */
  function EnabledLengths(rows: seq<AdminScript.FieldRow>): seq<string>
  {
    if rows == [] then []
    else
      var r := rows[|rows| - 1];
      EnabledLengths(rows[..|rows| - 1]) + (if r.lengthDisabled then [] else [r.length])
  }

  /** How many rows have the box `checked` picks checked. */
  function CountChecked(rows: seq<AdminScript.FieldRow>, nullBox: bool): nat
  {
    if rows == [] then 0
    else
      var r := rows[|rows| - 1];
      CountChecked(rows[..|rows| - 1], nullBox) + (if (if nullBox then r.nullable else r.primary) then 1 else 0)
  }

  /** The keys PHP gives a list posted as `name[]`: 0 up to its length. */
  function ListKeys(n: nat): (keys: set<nat>)
    ensures forall i: nat :: i in keys <==> i < n
  {
    if n == 0 then {} else ListKeys(n - 1) + {n - 1}
  }

  function ListMap(xs: seq<string>): map<nat, string>
  {
    map i: nat | i < |xs| :: xs[i]
  }

  /**
    * The form as the page writes it: `field_length[]`, `field_null[]` and
    * `field_primary[]` are `[]` lists, so the browser numbers the lengths
    * and checkboxes it sends from 0, skipping disabled inputs and
    * unchecked boxes.
    */
  function PostedAsWritten(tableName: string, rows: seq<AdminScript.FieldRow>): CreatePost
  {
    CreatePost(tableName,
               seq(|rows|, i requires 0 <= i < |rows| => rows[i].name),
               seq(|rows|, i requires 0 <= i < |rows| => rows[i].ftype),
               ListMap(EnabledLengths(rows)), ListKeys(CountChecked(rows, true)),
               seq(|rows|, i requires 0 <= i < |rows| => rows[i].default),
               seq(|rows|, i requires 0 <= i < |rows| => rows[i].extra),
               ListKeys(CountChecked(rows, false)))
  }

  /**
    * The form with the row index written into the names of the length
    * inputs and checkboxes (`field_null[<i>]`), so each sent value keeps
    * its row's index.
    */
  function PostedIndexed(tableName: string, rows: seq<AdminScript.FieldRow>): CreatePost
  {
    CreatePost(tableName,
               seq(|rows|, i requires 0 <= i < |rows| => rows[i].name),
               seq(|rows|, i requires 0 <= i < |rows| => rows[i].ftype),
               map i: nat | i < |rows| && !rows[i].lengthDisabled :: rows[i].length,
               set i: nat | i < |rows| && rows[i].nullable,
               seq(|rows|, i requires 0 <= i < |rows| => rows[i].default),
               seq(|rows|, i requires 0 <= i < |rows| => rows[i].extra),
               set i: nat | i < |rows| && rows[i].primary)
  }

  /** Read at its own index, every posted row gives the field array it stands for. */
  lemma IndexedRowRead(env: Env, tableName: string, rows: seq<AdminScript.FieldRow>, i: nat)
    requires i < |rows|
    ensures FieldFrom(env, PostedIndexed(tableName, rows), i) == IntendedField(env, rows[i])
  {
  }

  /** With row-indexed names, the collected fields are exactly the named rows' fields, each with its own flags and length. */
  lemma {:induction false} IndexedPostReadsRows(env: Env, tableName: string, rows: seq<AdminScript.FieldRow>, n: nat)
    requires n <= |rows|
    ensures FieldsUpTo(env, PostedIndexed(tableName, rows), n) == IntendedFields(env, rows[..n])
  {
    if n > 0 {
      IndexedPostReadsRows(env, tableName, rows, n - 1);
      IndexedRowRead(env, tableName, rows, n - 1);
      assert rows[..n][..n - 1] == rows[..n - 1];
    }
  }

  function Picked(r: AdminScript.FieldRow, nullBox: bool): nat
  {
    if (if nullBox then r.nullable else r.primary) then 1 else 0
  }

  /** Witness for CompactedPostMisreadsNull: the boxes checked among three given rows. */
  lemma CountCheckedThree(a: AdminScript.FieldRow, b: AdminScript.FieldRow, c: AdminScript.FieldRow, nullBox: bool)
    ensures CountChecked([a, b, c], nullBox) == Picked(a, nullBox) + Picked(b, nullBox) + Picked(c, nullBox)
  {
    assert [a, b, c][..2] == [a, b] && [a, b][..1] == [a] && [a][..0] == [];
    assert CountChecked([a], nullBox) == Picked(a, nullBox);
    assert CountChecked([a, b], nullBox) == CountChecked([a], nullBox) + Picked(b, nullBox);
  }

  function Named(env: Env, r: AdminScript.FieldRow): seq<FieldDef>
  {
    if Truthy(r.name) then [IntendedField(env, r)] else []
  }

  /** Witness for CompactedPostMisreadsNull: the intended fields of three given rows. */
  lemma IntendedFieldsThree(env: Env, a: AdminScript.FieldRow, b: AdminScript.FieldRow, c: AdminScript.FieldRow)
    ensures IntendedFields(env, [a, b, c]) == Named(env, a) + Named(env, b) + Named(env, c)
  {
    assert [a, b, c][..2] == [a, b] && [a, b][..1] == [a] && [a][..0] == [];
    assert IntendedFields(env, [a]) == Named(env, a);
    assert IntendedFields(env, [a, b]) == IntendedFields(env, [a]) + Named(env, b);
  }

  function NamedAt(env: Env, p: CreatePost, i: nat): seq<FieldDef>
    requires i < |p.names|
  {
    if Truthy(p.names[i]) then [FieldFrom(env, p, i)] else []
  }

  /** Witness for CompactedPostMisreadsNull: the fields collected from a three-row post. */
  lemma CollectedThree(env: Env, p: CreatePost)
    requires |p.names| == 3
    ensures Collected(env, p) == NamedAt(env, p, 0) + NamedAt(env, p, 1) + NamedAt(env, p, 2)
  {
    assert FieldsUpTo(env, p, 1) == NamedAt(env, p, 0);
    assert FieldsUpTo(env, p, 2) == FieldsUpTo(env, p, 1) + NamedAt(env, p, 1);
  }

  /**
    * As written, the `[]` lists are read by row index: for the `id` row,
    * the hidden template row and a nullable `title` row, the one sent
    * `field_null[]` box has index 0, so `id` is created NULL-able and
    * `title` NOT NULL.
    */
  lemma CompactedPostMisreadsNull(env: Env)
    ensures var title := AdminScript.FieldRow("title", "varchar", "255", false, false, true, "", "");
      var rows := [AdminScript.IdRow, AdminScript.TemplateRow, title];
      var fields := Collected(env, PostedAsWritten("books", rows));
      && |fields| == 2 && IntendedFields(env, rows) == [IntendedField(env, rows[0]), IntendedField(env, title)]
      && Flag(fields[0].nullable) && !Flag(IntendedField(env, rows[0]).nullable)
      && !Flag(fields[1].nullable) && Flag(IntendedField(env, title).nullable)
  {
    var title := AdminScript.FieldRow("title", "varchar", "255", false, false, true, "", "");
    var rows := [AdminScript.IdRow, AdminScript.TemplateRow, title];
    var p := PostedAsWritten("books", rows);
    CountCheckedThree(AdminScript.IdRow, AdminScript.TemplateRow, title, true);
    assert p.nulls == ListKeys(1);
    assert p.names[0] == "id" && p.names[1] == "" && p.names[2] == "title";
    CollectedThree(env, p);
    IntendedFieldsThree(env, AdminScript.IdRow, AdminScript.TemplateRow, title);
  }

  // -----------------------------------------------------------------------
  // Creating a table

  /** The notice the page shows after a request. */
  datatype Notice = NoNotice | Notice(message: string, kind: string)

  const CreateAction := "custom_crud_create_table"

  /** The name the table is created under: the sanitized name, with the prefix in front unless it is there already. */
  function CreatedName(env: Env, p: CreatePost): (table: string)
    ensures StartsWith(table, env.prefix)
  {
    WithPrefix(env, env.sanitizeText(p.tableName))
  }

  /**
    * The create-table branch: it runs only when `create_table` is posted
    * and the nonce verifies; it then creates the table from the collected
    * fields and shows create_table's error message, or the success notice.
    */
  method HandleCreate(env: Env, db: Database, createPosted: bool, nonce: Option<string>, p: CreatePost,
                      charsetCollate: string) returns (notice: Notice)
    modifies db
    ensures !(createPosted && NonceOk(env, nonce, CreateAction)) ==>
      notice == NoNotice && db.log == old(db.log) && db.state == old(db.state)
    ensures createPosted && NonceOk(env, nonce, CreateAction) ==>
      var table, fields := CreatedName(env, p), Collected(env, p);
      var s := Store.CreateTable(table, CreateTableSql(env, table, fields, charsetCollate));
      && notice.Notice?
      && (notice.kind == "success" <==> Truthy(table) && fields != [] && table !in old(db.state.tables) && db.accepts(s))
      && (notice.kind == "success" ==> notice.message == "Table created successfully!" && table in db.state.tables)
      && (notice.kind != "success" ==> notice.kind == "error")
      && (!Truthy(table) || fields == [] ==> notice.message == InvalidCreateParams.message)
      && (Truthy(table) && fields != [] && table in old(db.state.tables) ==> notice.message == TableAlreadyExists.message)
      && (db.log == old(db.log) || db.log == old(db.log) + [s])
  {
    if !(createPosted && NonceOk(env, nonce, CreateAction)) {
      return NoNotice;
    }
    var table := WithPrefix(env, env.sanitizeText(p.tableName));
    var fields := CollectFields(env, p);
    var r := TableDdl.CreateTable(env, db, table, fields, charsetCollate);
    if r.Some? {
      notice := Notice(r.value.message, "error");
    } else {
      notice := Notice("Table created successfully!", "success");
    }
  }

  // -----------------------------------------------------------------------
  // Deleting a table

  /** The branch's outcome: nothing happens, or the page redirects (and exits). */
  datatype DeleteOutcome = Stay | Redirected(to: Redirect)

  /** `$delete_table`: the sanitized `delete_table` parameter, or ''. */
  function DeleteName(env: Env, get: map<string, string>): string
  {
    if "delete_table" in get then env.sanitizeText(get["delete_table"]) else ""
  }

  /** The three conditions: a table named, `confirm_delete` exactly "yes", and a nonce for deleting that very table. */
  predicate DeleteConfirmed(env: Env, get: map<string, string>)
  {
    var name := DeleteName(env, get);
    && Truthy(name)
    && Param(get, "confirm_delete") == Some("yes")
    && NonceOk(env, Param(get, "_wpnonce"), "delete_table_" + name)
  }

  /**
    * The delete-table branch: only a confirmed request with a nonce for
    * that table drops it, and such a request always redirects without
    * the three parameters, whatever delete_table reported.
    */
  method HandleDelete(env: Env, db: Database, get: map<string, string>) returns (out: DeleteOutcome)
    modifies db
    ensures out.Redirected? <==> DeleteConfirmed(env, get)
    ensures out.Redirected? ==> out.to == Redirect(["delete_table", "confirm_delete", "_wpnonce"], [])
    ensures !DeleteConfirmed(env, get) ==> db.log == old(db.log) && db.state == old(db.state)
    ensures DeleteConfirmed(env, get) ==>
      var name := DeleteName(env, get);
      && (db.log == old(db.log) || db.log == old(db.log) + [DropTable(name)])
      && (name in old(db.state.tables) ==> db.log == old(db.log) + [DropTable(name)])
      && (name in old(db.state.tables) && db.accepts(DropTable(name)) ==> name !in db.state.tables)
  {
    var deleteTable := if "delete_table" in get then env.sanitizeText(get["delete_table"]) else "";
    var deleteConfirmed := "confirm_delete" in get && get["confirm_delete"] == "yes";
    var deleteNonceValid := NonceOk(env, Param(get, "_wpnonce"), "delete_table_" + deleteTable);
    if Truthy(deleteTable) && deleteConfirmed && deleteNonceValid {
      var r := TableDdl.DeleteTable(env, db, deleteTable);
      return Redirected(Redirect(["delete_table", "confirm_delete", "_wpnonce"], []));
    }
    return Stay;
  }
}

=== FILE: admin_script.dfy ===
/**
  * The admin pages' script: the shortcode generator, which writes the
  * `[wp_table_manager]` text that the shortcode handler parses, and the
  * handlers of the create-table form's field rows (length defaults, one
  * primary key, AUTO_INCREMENT, adding and removing rows).
  */
module AdminScript {
  import opened Php
  import opened Shortcode
  import TableDdl

  // -----------------------------------------------------------------------
  // generateShortcode

  /** What the generator reads from one `.field-wrapper`: its checkbox, display name, type select, read-only box and query box. */
  datatype Wrapper = Wrapper(checked: bool, fieldname: string, displayname: string, displaytype: string,
                             readonly: bool, query: string)

  /** The eight display checkboxes, in the order the shortcode lists them. */
  datatype Toggles = Toggles(recordsCount: bool, form: bool, table: bool, search: bool, pagination: bool,
                             edit: bool, delete: bool, actions: bool)

  /** The generator's other inputs: the table select, the pagination input and the display checkboxes. */
  datatype Inputs = Inputs(tableView: string, pagination: string, toggles: Toggles)

  /** The generator's result: an alert, or the shortcode written to the output box. */
  datatype Generated = NoTableSelected | NoFieldsSelected | Emitted(text: string)

  function BoolText(b: bool): (r: string)
    ensures r == "true" <==> b
    ensures r == "true" || r == "false"
  {
    if b then "true" else "false"
  }

  /** `pagination?.value || 5`: an empty input gives 5. */
  function PaginationText(p: string): (r: string)
    ensures r != ""
  {
    if p != "" then p else "5"
  }

  /** The attributes before the fields: pagination, table_view, then the eight flags. */
  function HeadAttributes(page: Inputs): (r: seq<(string, string)>)
    ensures |r| == |DefaultKeys| && forall i :: 0 <= i < |r| ==> r[i].0 == DefaultKeys[i]
    ensures r[0].1 == PaginationText(page.pagination) && r[1].1 == page.tableView
    ensures forall i :: 2 <= i < |r| ==> r[i].1 == "true" || r[i].1 == "false"
  {
    var t := page.toggles;
    [("pagination", PaginationText(page.pagination)), ("table_view", page.tableView),
     ("showrecordscount", BoolText(t.recordsCount)), ("showform", BoolText(t.form)),
     ("showtable", BoolText(t.table)), ("showsearch", BoolText(t.search)),
     ("showpagination", BoolText(t.pagination)), ("showedit", BoolText(t.edit)),
     ("showdelete", BoolText(t.delete)), ("showactions", BoolText(t.actions))]
  }

  /** The label written for a field: its display name, or its field name when that is blank. */
  function DisplayNameOf(w: Wrapper): string
  {
    if w.displayname != "" then w.displayname else w.fieldname
  }

  /** The types whose query box is shown, and whose query is written. */
  predicate CarriesQuery(displaytype: string)
  {
    displaytype == "key-value" || displaytype == "query"
  }

  /** The `key=value` segments of a field's descriptor, in the order written. */
  function FieldSegments(w: Wrapper): seq<string>
  {
    DescriptorSegments(w.fieldname, DisplayNameOf(w), w.displaytype, QuerySegments(w), BoolText(w.readonly))
  }

  function DescriptorSegments(f: string, d: string, t: string, qsegs: seq<string>, r: string): seq<string>
  {
    [Segment("fieldname", f), Segment("displayname", d), Segment("displaytype", t)] + qsegs + [Segment("readonly", r)]
  }

  /** The query segment, written only for the types that show the query box. */
  /** One `key=value` segment of a field descriptor. */
  function Segment(k: string, v: string): string
  {
    k + "=" + v
  }

  function QuerySegments(w: Wrapper): seq<string>
  {
    if CarriesQuery(w.displaytype) then [Segment("query", w.query)] else []
  }

  /** A field's descriptor: its segments joined by ";". */
  function FieldSpec(w: Wrapper): string
  {
    Implode(";", FieldSegments(w))
  }

  /** The attribute name of the n-th emitted field. */
  function FieldKey(n: nat): string
  {
    "field" + NatToString(n)
  }

  /** The checked wrappers, in document order. */
  function Checked(ws: seq<Wrapper>): (cs: seq<Wrapper>)
    ensures |cs| <= |ws|
    ensures cs == [] <==> forall i :: 0 <= i < |ws| ==> !ws[i].checked
  {
    if ws == [] then []
    else
      var last := ws[|ws| - 1];
      var init := Checked(ws[..|ws| - 1]);
      init + (if last.checked then [last] else [])
  }

  /** Exactly the checked wrappers are emitted: each emitted one is checked and comes from the page, and each checked one is emitted. */
  lemma {:induction false} CheckedSound(ws: seq<Wrapper>)
    ensures forall w :: w in Checked(ws) <==> w in ws && w.checked
  {
    if ws != [] {
      var init := ws[..|ws| - 1];
      CheckedSound(init);
      assert ws == init + [ws[|ws| - 1]];
    }
  }

  /** The field attributes, one per checked wrapper, numbered from 1. */
  function FieldAttributes(cs: seq<Wrapper>): (r: seq<(string, string)>)
    ensures |r| == |cs|
  {
    if cs == [] then []
    else FieldAttributes(cs[..|cs| - 1]) + [(FieldKey(|cs|), FieldSpec(cs[|cs| - 1]))]
  }

  /** The i-th checked wrapper is written as `field<i+1>`. */
  lemma {:induction false} FieldAttributesAt(cs: seq<Wrapper>, i: int)
    requires 0 <= i < |cs|
    ensures FieldAttributes(cs)[i] == (FieldKey(i + 1), FieldSpec(cs[i]))
    decreases |cs|
  {
    if i < |cs| - 1 {
      FieldAttributesAt(cs[..|cs| - 1], i);
    }
  }

  /** Every `field<n>` the generator writes is a key the shortcode handler admits as a field spec. */
  lemma FieldKeyAdmitted(n: nat)
    ensures IsFieldKey(FieldKey(n))
  {
    var k := FieldKey(n);
    assert k[..5] == "field";
    assert k[5..] == NatToString(n);
  }

  /** Different numbers give different attribute names. */
  lemma FieldKeyInjective(m: nat, n: nat)
    ensures FieldKey(m) == FieldKey(n) ==> m == n
  {
    if FieldKey(m) == FieldKey(n) {
      assert FieldKey(m)[5..] == NatToString(m);
      assert FieldKey(n)[5..] == NatToString(n);
    }
  }

  /**
    * The generated attributes: the ten declared ones first, none of them a
    * field key, then one field key per checked wrapper, all different, so
    * no field spec overwrites another.
    */
  lemma GeneratedKeys(page: Inputs, ws: seq<Wrapper>)
    ensures var attrs := Attributes(page, ws);
      && |attrs| == |DefaultKeys| + |Checked(ws)|
      && (forall i :: 0 <= i < |DefaultKeys| ==> attrs[i].0 == DefaultKeys[i] && !IsFieldKey(attrs[i].0))
      && (forall i :: |DefaultKeys| <= i < |attrs| ==> IsFieldKey(attrs[i].0))
      && (forall i, j :: |DefaultKeys| <= i < j < |attrs| ==> attrs[i].0 != attrs[j].0)
  {
    var cs := Checked(ws);
    var head, fields := HeadAttributes(page), FieldAttributes(cs);
    var attrs := head + fields;
    var n := |DefaultKeys|;
    DefaultKeysNotFieldKeys();
    forall i | 0 <= i < n
      ensures attrs[i].0 == DefaultKeys[i] && !IsFieldKey(attrs[i].0)
    {
      assert attrs[i] == head[i];
    }
    forall i | n <= i < |attrs|
      ensures attrs[i].0 == FieldKey(i - n + 1) && IsFieldKey(attrs[i].0)
    {
      assert attrs[i] == fields[i - n];
      FieldAttributesAt(cs, i - n);
      FieldKeyAdmitted(i - n + 1);
    }
    forall i, j | n <= i < j < |attrs|
      ensures attrs[i].0 != attrs[j].0
    {
      FieldKeyInjective(i - n + 1, j - n + 1);
    }
  }

  /** One attribute as the shortcode text writes it: ` name="value"`. */
  function Attribute(pair: (string, string)): string
  {
    " " + pair.0 + "=\"" + pair.1 + "\""
  }

  /** The attributes written one after another, in order. */
  function AttributeText(pairs: seq<(string, string)>): string
  {
    if pairs == [] then ""
    else AttributeText(pairs[..|pairs| - 1]) + Attribute(pairs[|pairs| - 1])
  }

  /** Every attribute the generator writes, in order. */
  function Attributes(page: Inputs, ws: seq<Wrapper>): seq<(string, string)>
  {
    HeadAttributes(page) + FieldAttributes(Checked(ws))
  }

  /** What generateShortcode produces for the page's inputs. */
  function Generate(page: Inputs, ws: seq<Wrapper>): Generated
  {
    if page.tableView == "" then NoTableSelected
    else if Checked(ws) == [] then NoFieldsSelected
    else Emitted("[wp_table_manager" + AttributeText(Attributes(page, ws)) + "]")
  }

  lemma {:induction false} AttributeTextAppend(a: seq<(string, string)>, b: seq<(string, string)>)
    ensures AttributeText(a + b) == AttributeText(a) + AttributeText(b)
    decreases |b|
  {
    if b == [] {
      assert a + b == a;
    } else {
      var init, last := b[..|b| - 1], b[|b| - 1];
      AttributeTextAppend(a, init);
      DropLastOfAppend(a, b);
      var x, y, z := AttributeText(a), AttributeText(init), Attribute(last);
      assert AttributeText(a + b) == (x + y) + z;
      assert (x + y) + z == x + (y + z);
    }
  }

  lemma DropLastOfAppend<T>(a: seq<T>, b: seq<T>)
    requires b != []
    ensures (a + b)[..|a + b| - 1] == a + b[..|b| - 1]
    ensures (a + b)[|a + b| - 1] == b[|b| - 1]
  {
  }

  /** One checked wrapper appends one attribute, numbered after those before it. */
  lemma FieldAttributesExtend(cs: seq<Wrapper>, w: Wrapper)
    ensures FieldAttributes(cs + [w]) == FieldAttributes(cs) + [(FieldKey(|cs| + 1), FieldSpec(w))]
  {
    assert (cs + [w])[..|cs|] == cs;
  }

  lemma CheckedExtend(ws: seq<Wrapper>, i: int)
    requires 0 <= i < |ws|
    ensures Checked(ws[..i + 1]) == Checked(ws[..i]) + (if ws[i].checked then [ws[i]] else [])
  {
    assert ws[..i + 1][..i] == ws[..i];
  }

  lemma AttributeTextSnoc(pairs: seq<(string, string)>, k: int)
    requires 0 <= k < |pairs|
    ensures AttributeText(pairs[..k + 1]) == AttributeText(pairs[..k]) + Attribute(pairs[k])
  {
    assert pairs[..k + 1][..k] == pairs[..k];
  }

  /** One more checked wrapper adds its attribute, numbered after the ones before it. */
  lemma FieldsTextExtend(cs: seq<Wrapper>, w: Wrapper)
    ensures AttributeText(FieldAttributes(cs + [w])) ==
            AttributeText(FieldAttributes(cs)) + Attribute((FieldKey(|cs| + 1), FieldSpec(w)))
  {
    FieldAttributesExtend(cs, w);
    var attributes := FieldAttributes(cs) + [(FieldKey(|cs| + 1), FieldSpec(w))];
    assert attributes[..|attributes| - 1] == FieldAttributes(cs);
  }

  // -----------------------------------------------------------------------
  // What the shortcode handler reads back from a generated descriptor

  /** A value that survives the descriptor parser unchanged: non-empty PHP-wise, no `;`, nothing the value trim removes at its ends. */
  predicate CleanValue(v: string)
  {
    Truthy(v) && ';' !in v && v[0] !in ValueTrim && v[|v| - 1] !in ValueTrim
  }

  /** A query the parser either keeps unchanged or drops as empty. */
  predicate CleanQuery(q: string)
  {
    ';' !in q && (q == [] || (q[0] !in ValueTrim && q[|q| - 1] !in ValueTrim))
  }

  /** A descriptor key as the generator writes them: lower-case letters only. */
  predicate PlainKey(k: string)
  {
    |k| > 0 && forall i :: 0 <= i < |k| ==> 'a' <= k[i] <= 'z'
  }

  /** A wrapper whose descriptor reads back as written. */
  predicate Readable(w: Wrapper)
  {
    && CleanValue(w.fieldname) && CleanValue(DisplayNameOf(w)) && CleanValue(w.displaytype)
    && (CarriesQuery(w.displaytype) ==> CleanQuery(w.query))
  }

  /** The column the shortcode handler builds for a wrapper: a query only for the `query` type, and only when it is not empty. */
  function ColumnOf(w: Wrapper): Column
  {
    Column(DisplayNameOf(w), w.displaytype, BoolText(w.readonly),
           if w.displaytype == "query" && Truthy(w.query) then Some(w.query) else None)
  }

  /** A key the descriptor parser keeps as it is: it holds neither separator, is not empty PHP-wise and is not trimmed. */
  predicate KeptKey(k: string)
  {
    '=' !in k && ';' !in k && Truthy(k) && Trim(k, PhpWhitespace) == k
  }

  lemma PlainKeyKept(k: string)
    requires PlainKey(k)
    ensures KeptKey(k)
  {
    assert k[0] !in PhpWhitespace && k[|k| - 1] !in PhpWhitespace;
    TrimKeeps(k, PhpWhitespace);
    assert k[0] != '0';
  }

  lemma DescriptorKeysPlain()
    ensures PlainKey("fieldname") && PlainKey("displayname") && PlainKey("displaytype")
    ensures PlainKey("query") && PlainKey("readonly")
  {
  }

  /** The five descriptor keys the generator writes pass through the parser unchanged. */
  lemma DescriptorKeysKept()
    ensures KeptKey("fieldname") && KeptKey("displayname") && KeptKey("displaytype")
    ensures KeptKey("query") && KeptKey("readonly")
  {
    DescriptorKeysPlain();
    PlainKeyKept("fieldname");
    PlainKeyKept("displayname");
    PlainKeyKept("displaytype");
    PlainKeyKept("query");
    PlainKeyKept("readonly");
  }

  /** A `key=value` segment holds no `;` when neither its key nor its value does. */
  lemma SegmentHasNoSeparator(k: string, v: string)
    requires ';' !in k && ';' !in v
    ensures ';' !in Segment(k, v)
  {
    var seg := Segment(k, v);
    forall i | 0 <= i < |seg|
      ensures seg[i] != ';'
    {
      if i < |k| {
        assert seg[i] == k[i];
      } else if i > |k| {
        assert seg[i] == v[i - |k| - 1];
      }
    }
  }

  /** A segment written as `key=value` gives back that pair; an empty (or "0") value is dropped. */
  lemma KeySegment(k: string, v: string)
    requires KeptKey(k)
    requires v == [] || (v[0] !in ValueTrim && v[|v| - 1] !in ValueTrim)
    ensures SegmentPair(Segment(k, v)) == if Truthy(v) then Some((k, v)) else None
  {
    TrimKeeps(v, ValueTrim);
    SegmentSplitsAtFirstEquals(k, v);
  }

  lemma BoolTextClean(b: bool)
    ensures CleanValue(BoolText(b))
  {
  }

  /** The segments of a readable wrapper hold no `;`, so exploding the descriptor gives them back. */
  lemma SegmentsExplode(w: Wrapper)
    requires Readable(w)
    ensures Explode(';', FieldSpec(w)) == FieldSegments(w)
  {
    var segs := FieldSegments(w);
    DescriptorKeysKept();
    SegmentHasNoSeparator("fieldname", w.fieldname);
    SegmentHasNoSeparator("displayname", DisplayNameOf(w));
    SegmentHasNoSeparator("displaytype", w.displaytype);
    SegmentHasNoSeparator("readonly", BoolText(w.readonly));
    if CarriesQuery(w.displaytype) {
      SegmentHasNoSeparator("query", w.query);
    }
    ExplodeImplode(';', segs);
  }

  /**
    * Round trip: the descriptor the generator writes for a readable
    * wrapper is read back by the shortcode handler as that field with its
    * label, type, read-only flag and (for the `query` type) its query.
    */
  lemma SpecRoundTrip(w: Wrapper)
    requires Readable(w)
    ensures SpecOf(FieldSpec(w)) == Some((w.fieldname, ColumnOf(w)))
  {
    SegmentsExplode(w);
    SegmentPairsOf(w);
    AssignPairsOf(w);
  }

  /** The pairs the parser keeps from a readable wrapper's segments: all of them, except an empty query. */
  function PairsOf(w: Wrapper): seq<Option<(string, string)>>
  {
    DescriptorPairs(w.fieldname, DisplayNameOf(w), w.displaytype, QueryPairs(w), BoolText(w.readonly))
  }

  function DescriptorPairs(f: string, d: string, t: string, qs: seq<Option<(string, string)>>, r: string)
    : seq<Option<(string, string)>>
  {
    [Some(("fieldname", f)), Some(("displayname", d)), Some(("displaytype", t))] + qs + [Some(("readonly", r))]
  }

  /** What the query segment contributes: nothing when none is written, a dropped segment when it is empty. */
  function QueryPairs(w: Wrapper): seq<Option<(string, string)>>
  {
    if CarriesQuery(w.displaytype) then [if Truthy(w.query) then Some(("query", w.query)) else None] else []
  }

  /** The query a readable wrapper's descriptor keeps. */
  function KeptQuery(w: Wrapper): Option<string>
  {
    if CarriesQuery(w.displaytype) && Truthy(w.query) then Some(w.query) else None
  }

  lemma {:induction false} SegmentPairsAppend(xs: seq<string>, ys: seq<string>)
    ensures SegmentPairs(xs + ys) == SegmentPairs(xs) + SegmentPairs(ys)
  {
    var ps := SegmentPairs(xs + ys);
    forall j | 0 <= j < |ps|
      ensures ps[j] == (SegmentPairs(xs) + SegmentPairs(ys))[j]
    {
      if j >= |xs| {
        assert (xs + ys)[j] == ys[j - |xs|];
      }
    }
  }

  /** The pairs of three segments, some more, and a last one, segment by segment. */
  lemma SegmentPairsOfFive(a: string, b: string, c: string, qsegs: seq<string>, e: string)
    ensures SegmentPairs([a, b, c] + qsegs + [e]) ==
      [SegmentPair(a), SegmentPair(b), SegmentPair(c)] + SegmentPairs(qsegs) + [SegmentPair(e)]
  {
    SegmentPairsAppend([a, b, c], qsegs);
    SegmentPairsAppend([a, b, c] + qsegs, [e]);
  }

  /** A descriptor key with a clean value is kept as that pair. */
  lemma KeptSegment(k: string, v: string)
    requires KeptKey(k) && CleanValue(v)
    ensures SegmentPair(Segment(k, v)) == Some((k, v))
  {
    KeySegment(k, v);
  }

  /** The segments of a descriptor with clean values parse to its pairs, whatever the query segments parse to. */
  lemma SegmentPairsOfDescriptor(f: string, d: string, t: string, qsegs: seq<string>, qs: seq<Option<(string, string)>>, r: string)
    requires CleanValue(f) && CleanValue(d) && CleanValue(t) && CleanValue(r)
    requires SegmentPairs(qsegs) == qs
    ensures SegmentPairs(DescriptorSegments(f, d, t, qsegs, r)) == DescriptorPairs(f, d, t, qs, r)
  {
    DescriptorKeysKept();
    KeptSegment("fieldname", f);
    KeptSegment("displayname", d);
    KeptSegment("displaytype", t);
    KeptSegment("readonly", r);
    SegmentPairsOfFive(Segment("fieldname", f), Segment("displayname", d), Segment("displaytype", t), qsegs, Segment("readonly", r));
  }

  lemma SegmentPairsOfOne(seg: string)
    ensures SegmentPairs([seg]) == [SegmentPair(seg)]
  {
  }

  /** The query segment of a readable wrapper parses to its query pair, or to a dropped segment when the query is empty. */
  lemma QuerySegmentPairs(w: Wrapper)
    requires CarriesQuery(w.displaytype) ==> CleanQuery(w.query)
    ensures SegmentPairs(QuerySegments(w)) == QueryPairs(w)
  {
    if CarriesQuery(w.displaytype) {
      DescriptorKeysKept();
      KeySegment("query", w.query);
      SegmentPairsOfOne(Segment("query", w.query));
    }
  }

  lemma SegmentPairsOf(w: Wrapper)
    requires Readable(w)
    ensures SegmentPairs(FieldSegments(w)) == PairsOf(w)
  {
    BoolTextClean(w.readonly);
    QuerySegmentPairs(w);
    SegmentPairsOfDescriptor(w.fieldname, DisplayNameOf(w), w.displaytype, QuerySegments(w), QueryPairs(w), BoolText(w.readonly));
  }

  lemma DescriptorKeysDistinct()
    ensures "fieldname" != "displayname" && "fieldname" != "displaytype" && "fieldname" != "query"
    ensures "fieldname" != "readonly" && "displayname" != "displaytype" && "displayname" != "query"
    ensures "displayname" != "readonly" && "displaytype" != "query" && "displaytype" != "readonly"
    ensures "query" != "readonly"
  {
    assert "fieldname"[0] == 'f' && "displayname"[0] == 'd' && "displaytype"[0] == 'd';
    assert "query"[0] == 'q' && "readonly"[0] == 'r' && "displayname"[7] == 'n' && "displaytype"[7] == 't';
  }

  /** Assigning one more pair updates the array's values with it (or leaves them, for a dropped segment). */
  lemma AssignValsSnoc(ps: seq<Option<(string, string)>>, p: Option<(string, string)>)
    ensures Assign(ps + [p]).vals == if p.Some? then Assign(ps).vals[p.value.0 := p.value.1] else Assign(ps).vals
  {
    assert (ps + [p])[..|ps|] == ps;
  }

  /** The values of a descriptor's `$col` array: the five keys the generator writes, the query only when kept. */
  function DescriptorVals(f: string, d: string, t: string, q: Option<string>, r: string): map<string, string>
  {
    var m := map["fieldname" := f]["displayname" := d]["displaytype" := t];
    (if q.Some? then m["query" := q.value] else m)["readonly" := r]
  }

  lemma DescriptorValsLookup(f: string, d: string, t: string, q: Option<string>, r: string)
    ensures var m := DescriptorVals(f, d, t, q, r);
      && "fieldname" in m && m["fieldname"] == f && "displayname" in m && m["displayname"] == d
      && "displaytype" in m && m["displaytype"] == t && "readonly" in m && m["readonly"] == r
      && ("query" in m <==> q.Some?) && (q.Some? ==> m["query"] == q.value)
  {
    DescriptorKeysDistinct();
  }

  /** The `$col` array of the pairs `fieldname`, `displayname`, `displaytype`, the query segment's, then `readonly`. */
  lemma AssignDescriptorPairs(f: string, d: string, t: string, qs: seq<Option<(string, string)>>, q: Option<string>, r: string)
    requires qs == [] || qs == [None] || (q.Some? && qs == [Some(("query", q.value))])
    requires q.Some? <==> qs != [] && qs[0].Some?
    ensures Assign(DescriptorPairs(f, d, t, qs, r)).vals == DescriptorVals(f, d, t, q, r)
  {
    var abc := [Some(("fieldname", f)), Some(("displayname", d)), Some(("displaytype", t))];
    AssignValsSnoc([], abc[0]);
    AssignValsSnoc([abc[0]], abc[1]);
    AssignValsSnoc([abc[0], abc[1]], abc[2]);
    assert [] + [abc[0]] == [abc[0]] && [abc[0]] + [abc[1]] == [abc[0], abc[1]] && [abc[0], abc[1]] + [abc[2]] == abc;
    if qs == [] {
      assert abc + qs == abc;
    } else {
      AssignValsSnoc(abc, qs[0]);
    }
    AssignValsSnoc(abc + qs, Some(("readonly", r)));
  }

  lemma AssignPairsOf(w: Wrapper)
    requires Truthy(w.fieldname) && Truthy(DisplayNameOf(w)) && Truthy(w.displaytype)
    ensures Descriptor(Assign(PairsOf(w))) == Some((w.fieldname, ColumnOf(w)))
  {
    var q := KeptQuery(w);
    AssignDescriptorPairs(w.fieldname, DisplayNameOf(w), w.displaytype, QueryPairs(w), q, BoolText(w.readonly));
    DescriptorValsLookup(w.fieldname, DisplayNameOf(w), w.displaytype, q, BoolText(w.readonly));
  }

  /** The field attributes' text and their count, wrapper by wrapper, as the generator's loop accumulates them. */
  function FieldsSoFar(ws: seq<Wrapper>): (r: (string, nat))
  {
    if ws == [] then ("", 0)
    else
      var before := FieldsSoFar(ws[..|ws| - 1]);
      var w := ws[|ws| - 1];
      if w.checked then (before.0 + Attribute((FieldKey(before.1 + 1), FieldSpec(w))), before.1 + 1)
      else before
  }

  /** The loop's accumulation is the text of the checked wrappers' attributes, numbered from 1. */
  lemma {:induction false} FieldsSoFarChecked(ws: seq<Wrapper>)
    ensures FieldsSoFar(ws) == (AttributeText(FieldAttributes(Checked(ws))), |Checked(ws)|)
  {
    if ws != [] {
      var init, w := ws[..|ws| - 1], ws[|ws| - 1];
      FieldsSoFarChecked(init);
      var cs := Checked(init);
      if w.checked {
        assert Checked(ws) == cs + [w];
        FieldsTextExtend(cs, w);
      } else {
        assert Checked(ws) == cs;
      }
    }
  }

  /** The loop over the field wrappers: the text of the field attributes, and whether any field was checked. */
  method FieldsText(ws: seq<Wrapper>) returns (fieldsText: string, hasFields: bool)
    ensures fieldsText == AttributeText(FieldAttributes(Checked(ws)))
    ensures hasFields <==> Checked(ws) != []
  {
    var fieldIndex := 1;
    fieldsText := "";
    hasFields := false;
    var i := 0;
    while i < |ws|
      invariant 0 <= i <= |ws|
      invariant (fieldsText, fieldIndex - 1) == FieldsSoFar(ws[..i])
      invariant hasFields <==> fieldIndex > 1
    {
      assert ws[..i + 1][..i] == ws[..i];
      var w := ws[i];
      if w.checked {
        hasFields := true;
        fieldsText := fieldsText + Attribute((FieldKey(fieldIndex), FieldSpec(w)));
        fieldIndex := fieldIndex + 1;
      }
      i := i + 1;
    }
    assert ws[..i] == ws;
    FieldsSoFarChecked(ws);
  }

  /**
    * generateShortcode: an alert without a table or without a checked
    * field; otherwise the shortcode, its fields numbered from 1 in
    * document order.
    */
  method GenerateShortcode(page: Inputs, ws: seq<Wrapper>) returns (g: Generated)
    ensures g == Generate(page, ws)
    ensures g.Emitted? <==> page.tableView != "" && exists i :: 0 <= i < |ws| && ws[i].checked
  {
    if page.tableView == "" {
      return NoTableSelected;
    }
    var fieldsText, hasFields := FieldsText(ws);
    if !hasFields {
      return NoFieldsSelected;
    }
    var head := AttributeText(HeadAttributes(page));
    AttributeTextAppend(HeadAttributes(page), FieldAttributes(Checked(ws)));
    assert AttributeText(Attributes(page, ws)) == head + fieldsText;
    g := Emitted("[wp_table_manager" + head + fieldsText + "]");
    AppendRegroup("[wp_table_manager", head, fieldsText, "]");
  }

  // -----------------------------------------------------------------------
  // The create-table form's field rows

  /** One visible `.field-row` of the create-table form: its inputs, and whether its length input is disabled. */
  datatype FieldRow = FieldRow(name: string, ftype: string, length: string, lengthDisabled: bool,
                               primary: bool, nullable: bool, default: string, extra: string)

  /** The row the form starts with: `id`, INT(11), primary, AUTO_INCREMENT. */
  const IdRow := FieldRow("id", "int", "11", false, true, false, "", "auto_increment")

  /** The hidden `.field-template` row that "Add Field" clones: a VARCHAR(255) that is not primary. */
  const TemplateRow := FieldRow("", "varchar", "255", false, false, false, "", "")

  /**
    * A row after its type select changes: TEXT clears and disables the
    * length; INT, VARCHAR and DECIMAL enable it and set the length the
    * server's DDL uses by default for that type; any other type enables it
    * and keeps the length typed so far.
    */
  function TypeChanged(r: FieldRow, value: string): (s: FieldRow)
    ensures s.ftype == value && (s.lengthDisabled <==> value == "text")
    ensures value == "text" ==> s.length == ""
    ensures TableDdl.HasLength(value) ==> s.length == TableDdl.DefaultLength(value)
    ensures value != "text" && !TableDdl.HasLength(value) ==> s.length == r.length
    ensures s.(ftype := r.ftype, length := r.length, lengthDisabled := r.lengthDisabled) == r
  {
    if value == "text" then r.(ftype := value, length := "", lengthDisabled := true)
    else
      var length := if value == "int" then "11" else if value == "varchar" then "255"
                    else if value == "decimal" then "10,2" else r.length;
      r.(ftype := value, length := length, lengthDisabled := false)
  }

  /** At most one row has its primary box checked. */
  predicate AtMostOnePrimary(rows: seq<FieldRow>)
  {
    forall i, j :: 0 <= i < |rows| && 0 <= j < |rows| && rows[i].primary && rows[j].primary ==> i == j
  }

  class FieldRowsForm {
    /** The visible field rows, in document order. */
    var rows: seq<FieldRow>
    /** The `disabled` state of the Remove buttons. */
    var removeDisabled: bool

    /** The form always keeps a row, the Remove buttons are disabled exactly when one row is left, and at most one row is primary. */
    predicate Valid()
      reads this
    {
      |rows| >= 1 && removeDisabled == (|rows| <= 1) && AtMostOnePrimary(rows)
    }

    /** The form as the page renders it: the `id` row, with its Remove button disabled. */
    constructor ()
      ensures rows == [IdRow] && removeDisabled
      ensures Valid()
    {
      rows := [IdRow];
      removeDisabled := true;
    }

    /** The type select of row `i` changes to `value`. */
    method ChangeType(i: nat, value: string)
      requires Valid() && i < |rows|
      modifies this
      ensures rows == old(rows)[i := TypeChanged(old(rows)[i], value)]
      ensures removeDisabled == old(removeDisabled)
      ensures Valid()
    {
      rows := rows[i := TypeChanged(rows[i], value)];
    }

    /**
      * The primary box of row `i` is set to `checked`; when it is checked,
      * every other row's box is unchecked, so whatever the rows were, at
      * most one is primary afterwards.
      */
    method ChangePrimary(i: nat, checked: bool)
      requires |rows| >= 1 && removeDisabled == (|rows| <= 1) && i < |rows|
      requires !checked ==> AtMostOnePrimary(rows)
      modifies this
      ensures |rows| == |old(rows)| && rows[i] == old(rows)[i].(primary := checked)
      ensures forall k :: 0 <= k < |rows| && k != i ==>
        rows[k] == old(rows)[k].(primary := !checked && old(rows)[k].primary)
      ensures removeDisabled == old(removeDisabled)
      ensures Valid()
    {
      rows := rows[i := rows[i].(primary := checked)];
      if checked {
        var j := 0;
        while j < |rows|
          invariant 0 <= j <= |rows| == |old(rows)|
          invariant rows[i] == old(rows)[i].(primary := true)
          invariant forall k :: 0 <= k < |rows| && k != i ==>
            rows[k] == old(rows)[k].(primary := j <= k && old(rows)[k].primary)
          invariant removeDisabled == old(removeDisabled)
        {
          if j != i {
            rows := rows[j := rows[j].(primary := false)];
          }
          j := j + 1;
        }
      }
    }

    /** The extra select of row `i` changes to `value`; AUTO_INCREMENT makes that row the only primary one and an INT(11). */
    method ChangeExtra(i: nat, value: string)
      requires Valid() && i < |rows|
      modifies this
      ensures |rows| == |old(rows)| && rows[i].extra == value
      ensures value == "auto_increment" ==>
        rows[i] == old(rows)[i].(extra := value, primary := true, ftype := "int", length := "11", lengthDisabled := false)
        && forall k :: 0 <= k < |rows| && k != i ==> rows[k] == old(rows)[k].(primary := false)
      ensures value != "auto_increment" ==> rows == old(rows)[i := old(rows)[i].(extra := value)]
      ensures removeDisabled == old(removeDisabled)
      ensures Valid()
    {
      rows := rows[i := rows[i].(extra := value)];
      if value == "auto_increment" {
        ChangePrimary(i, true);
        ChangeType(i, "int");
      }
    }

    /** "Add Field" appends a clone of the template, unchecked as primary, and re-enables the Remove buttons. */
    method AddField()
      requires Valid()
      modifies this
      ensures rows == old(rows) + [TemplateRow.(primary := false)]
      ensures !removeDisabled
      ensures Valid()
    {
      rows := rows + [TemplateRow.(primary := false)];
      removeDisabled := |rows| <= 1;
    }

    /** The Remove button of row `i` is clicked: a disabled button does nothing, so the last row is never removed. */
    method RemoveField(i: nat)
      requires Valid() && i < |rows|
      modifies this
      ensures old(removeDisabled) ==> rows == old(rows)
      ensures !old(removeDisabled) ==> rows == old(rows)[..i] + old(rows)[i + 1..]
      ensures |rows| >= 1
      ensures Valid()
    {
      if !removeDisabled {
        rows := rows[..i] + rows[i + 1..];
        removeDisabled := |rows| <= 1;
      }
    }
  }
}

=== FILE: ajax.dfy ===
/**
  * The AJAX endpoints: options for a query-type form field, the field
  * list of the shortcode generator, record deletion, and the table
  * creation, structure, deletion and modification calls of the admin
  * table editor. Each endpoint answers with wp_send_json_error (a
  * message) or wp_send_json_success (a payload), and stops there.
  */
module Ajax {
  import opened Php
  import opened WordPress
  import opened Store
  import opened TableDdl

  /** A wp_send_json_* answer. */
  datatype Reply<T> = Failure(message: string) | Success(payload: T)

  // -----------------------------------------------------------------------
  // load_query_results

  /** One Select2 option: the first column of a row is its id, the second (when not NULL) its text. */
  datatype Choice = Choice(id: Option<string>, text: Option<string>)

  /** The option of one result row, its columns read by position (None is SQL NULL). */
  function ChoiceOf(row: seq<Option<string>>): Choice
  {
    var id := if |row| > 0 then row[0] else None;
    Choice(id, if |row| > 1 && row[1].Some? then row[1] else id)
  }

  /** The query a query-type field posts, sanitised; "" when none is posted. */
  function PostedQuery(env: Env, post: map<string, string>): string
  {
    if "query" in post then env.sanitizeText(post["query"]) else ""
  }

  /** load_query_results: the rows of the posted query, one option per row, in order. */
  method LoadQueryResults(env: Env, answers: Reads, post: map<string, string>) returns (reply: Reply<seq<Choice>>)
    ensures !NonceOk(env, Param(post, "nonce"), "crud_form_nonce") ==> reply == Failure("Invalid security token.")
    ensures NonceOk(env, Param(post, "nonce"), "crud_form_nonce") && !Truthy(PostedQuery(env, post)) ==>
      reply == Failure("No query provided.")
    ensures NonceOk(env, Param(post, "nonce"), "crud_form_nonce") && Truthy(PostedQuery(env, post)) ==>
      var rows := answers.getPositional(PostedQuery(env, post));
      && reply.Success? && |reply.payload| == |rows|
      && forall i :: 0 <= i < |rows| ==>
           && reply.payload[i].id == (if |rows[i]| > 0 then rows[i][0] else None)
           && (|rows[i]| > 1 && rows[i][1].Some? ==> reply.payload[i].text == rows[i][1])
           && (!(|rows[i]| > 1 && rows[i][1].Some?) ==> reply.payload[i].text == reply.payload[i].id)
  {
    if !("nonce" in post && Truthy(post["nonce"]) && env.verifyNonce(post["nonce"], "crud_form_nonce")) {
      return Failure("Invalid security token.");
    }
    var query := if "query" in post then env.sanitizeText(post["query"]) else "";
    if !Truthy(query) {
      return Failure("No query provided.");
    }
    var results := answers.getPositional(query);
    if results == [] {
      return Success([]);
    }
    var formatted: seq<Choice> := [];
    var i := 0;
    while i < |results|
      invariant 0 <= i <= |results|
      invariant |formatted| == i
      invariant forall j :: 0 <= j < i ==> formatted[j] == ChoiceOf(results[j])
    {
      var row := results[i];
      var id := if |row| > 0 then row[0] else None;
      var text := if |row| > 1 && row[1].Some? then row[1] else id;
      formatted := formatted + [Choice(id, text)];
      i := i + 1;
    }
    return Success(formatted);
  }

  // -----------------------------------------------------------------------
  // get_table_fields

  /** The field types the generator offers for every column, in the order offered. */
  const InputTypes: seq<string> := ["checkbox", "date", "datetime", "email", "key-value", "number", "password",
                                    "query", "tel", "text", "textarea", "url"]

  /**
    * The input type suggested for a column, by case-sensitive substring
    * tests on its SQL type in this order: int/float/decimal, date, text.
    */
  function SuggestedType(sqlType: string): (t: string)
    ensures t == "number" <==> Contains(sqlType, "int") || Contains(sqlType, "float") || Contains(sqlType, "decimal")
    ensures t == "date" <==> t != "number" && Contains(sqlType, "date")
    ensures t == "textarea" <==> t != "number" && t != "date" && Contains(sqlType, "text")
    ensures t == "number" || t == "date" || t == "textarea" || t == "text"
  {
    if Contains(sqlType, "int") || Contains(sqlType, "float") || Contains(sqlType, "decimal") then "number"
    else if Contains(sqlType, "date") then "date"
    else if Contains(sqlType, "text") || (LongtextIsText(sqlType); Contains(sqlType, "longtext")) then "textarea"
    else "text"
  }

  /** Any type containing "longtext" contains "text": the second test of the textarea branch adds nothing. */
  lemma LongtextIsText(s: string)
    ensures Contains(s, "longtext") ==> Contains(s, "text")
  {
    if Contains(s, "longtext") {
      var i := ContainsWitness(s, "longtext");
      assert s[i + 4..i + 8] == s[i..i + 8][4..8] == "text";
      ContainsAt(s, "text", i + 4);
    }
  }

  /** The type select of one column: every offered type, marked selected when it is the suggestion. */
  function TypeOptions(suggested: string): (opts: seq<(string, bool)>)
    ensures |opts| == |InputTypes|
    ensures forall i :: 0 <= i < |opts| ==> opts[i].0 == InputTypes[i] && (opts[i].1 <==> InputTypes[i] == suggested)
  {
    seq(|InputTypes|, i requires 0 <= i < |InputTypes| => (InputTypes[i], InputTypes[i] == suggested))
  }

  /** The number of options marked selected. */
  function SelectedCount(opts: seq<(string, bool)>): nat
  {
    if opts == [] then 0 else SelectedCount(opts[..|opts| - 1]) + (if opts[|opts| - 1].1 then 1 else 0)
  }

  /** Exactly one option is selected for every column, and it is the suggested type. */
  lemma OneTypeSelected(sqlType: string)
    ensures var opts := TypeOptions(SuggestedType(sqlType));
      && SelectedCount(opts) == 1
      && forall i :: 0 <= i < |opts| && opts[i].1 ==> opts[i].0 == SuggestedType(sqlType)
  {
    var t := SuggestedType(sqlType);
    var opts := TypeOptions(t);
    if t == "number" {
      SelectedAt(opts, 5);
    } else if t == "date" {
      SelectedAt(opts, 1);
    } else if t == "textarea" {
      SelectedAt(opts, 10);
    } else {
      SelectedAt(opts, 9);
    }
  }

  /** A sequence with exactly one selected position counts one. */
  lemma {:induction false} SelectedAt(opts: seq<(string, bool)>, k: int)
    requires 0 <= k < |opts| && opts[k].1
    requires forall i :: 0 <= i < |opts| && i != k ==> !opts[i].1
    ensures SelectedCount(opts) == 1
    decreases |opts|
  {
    var init := opts[..|opts| - 1];
    if k < |opts| - 1 {
      SelectedAt(init, k);
    } else {
      NoneSelected(init);
    }
  }

  lemma {:induction false} NoneSelected(opts: seq<(string, bool)>)
    requires forall i :: 0 <= i < |opts| ==> !opts[i].1
    ensures SelectedCount(opts) == 0
    decreases |opts|
  {
    if opts != [] {
      NoneSelected(opts[..|opts| - 1]);
    }
  }

  /** One column of the generator's field list: its name (checked, and the display-name default) and its type select. */
  datatype FieldChoice = FieldChoice(name: string, options: seq<(string, bool)>)

  /** get_table_fields: one entry per column of the posted table, in column order. */
  method GetTableFields(env: Env, post: map<string, string>, showColumns: string -> seq<ColumnInfo>)
    returns (reply: Reply<seq<FieldChoice>>)
    ensures "nonce" !in post ==> reply == Failure("Security check failed: Missing nonce")
    ensures "nonce" in post && !NonceOk(env, Some(post["nonce"]), "custom_crud_admin_nonce") ==>
      reply == Failure("Security check failed: Invalid nonce")
    ensures NonceOk(env, Param(post, "nonce"), "custom_crud_admin_nonce") ==>
      var table := env.sanitizeText(if "table" in post then post["table"] else "");
      && (!Truthy(table) ==> reply == Failure("No table specified"))
      && (Truthy(table) && showColumns(table) == [] ==> reply == Failure("No columns found or table does not exist"))
      && (Truthy(table) && showColumns(table) != [] ==>
            var cols := showColumns(table);
            && reply.Success? && |reply.payload| == |cols|
            && forall i :: 0 <= i < |cols| ==>
                 reply.payload[i] == FieldChoice(cols[i].field, TypeOptions(SuggestedType(cols[i].sqlType))))
  {
    if "nonce" !in post {
      return Failure("Security check failed: Missing nonce");
    }
    if !(Truthy(post["nonce"]) && env.verifyNonce(post["nonce"], "custom_crud_admin_nonce")) {
      return Failure("Security check failed: Invalid nonce");
    }
    var table := env.sanitizeText(if "table" in post then post["table"] else "");
    if !Truthy(table) {
      return Failure("No table specified");
    }
    var columns := showColumns(table);
    if columns == [] {
      return Failure("No columns found or table does not exist");
    }
    var fields := FieldChoices(columns);
    return Success(fields);
  }

  /** The loop of get_table_fields: the type select of each column, in order. */
  method FieldChoices(columns: seq<ColumnInfo>) returns (fields: seq<FieldChoice>)
    ensures |fields| == |columns|
    ensures forall i :: 0 <= i < |columns| ==> fields[i] == FieldChoice(columns[i].field, TypeOptions(SuggestedType(columns[i].sqlType)))
  {
    fields := [];
    var i := 0;
    while i < |columns|
      invariant 0 <= i <= |columns|
      invariant |fields| == i
      invariant forall j :: 0 <= j < i ==> fields[j] == FieldChoice(columns[j].field, TypeOptions(SuggestedType(columns[j].sqlType)))
    {
      var col := columns[i];
      var suggested := "text";
      if Contains(col.sqlType, "int") || Contains(col.sqlType, "float") || Contains(col.sqlType, "decimal") {
        suggested := "number";
      } else if Contains(col.sqlType, "date") {
        suggested := "date";
      } else if Contains(col.sqlType, "text") || Contains(col.sqlType, "longtext") {
        suggested := "textarea";
      }
      assert suggested == SuggestedType(col.sqlType) by { LongtextIsText(col.sqlType); }
      var choice := FieldChoice(col.field, TypeOptions(suggested));
      fields := fields + [choice];
      i := i + 1;
    }
  }

  // -----------------------------------------------------------------------
  // delete_record

  /** The key column delete_record uses: the posted one, sanitised, else "id". */
  function PostedKey(env: Env, post: map<string, string>): string
  {
    env.sanitizeText(if "primary_key" in post then post["primary_key"] else "id")
  }

  /** The record id delete_record uses: intval of the posted id, 0 when none is posted. */
  function PostedRecordId(post: map<string, string>): int
  {
    if "record_id" in post then IntVal(post["record_id"]) else 0
  }

  /**
    * delete_record: with the delete nonce, a non-empty table and a
    * non-zero record id, sends the DELETE keyed on the posted key column
    * and reports whether the database accepted it.
    */
  method DeleteRecord(env: Env, db: Database, post: map<string, string>) returns (reply: Reply<string>)
    modifies db
    ensures !NonceOk(env, Param(post, "nonce"), "delete_record_nonce") ==>
      reply == Failure("Security check failed") && db.log == old(db.log) && db.state == old(db.state)
    ensures NonceOk(env, Param(post, "nonce"), "delete_record_nonce") ==>
      var table := env.sanitizeText(if "table" in post then post["table"] else "");
      && (!Truthy(table) || PostedRecordId(post) == 0 ==>
            reply == Failure("Missing required parameters") && db.log == old(db.log) && db.state == old(db.state))
      && (Truthy(table) && PostedRecordId(post) != 0 ==>
            var s := Delete(table, PostedKey(env, post), PostedRecordId(post));
            && db.log == old(db.log) + [s]
            && db.state == (if db.accepts(s) then Apply(old(db.state), db.table, db.key, s) else old(db.state))
            && reply == (if db.accepts(s) then Success("Record deleted successfully") else Failure("Error deleting record")))
  {
    if !("nonce" in post && Truthy(post["nonce"]) && env.verifyNonce(post["nonce"], "delete_record_nonce")) {
      return Failure("Security check failed");
    }
    var table := env.sanitizeText(if "table" in post then post["table"] else "");
    var primaryKey := env.sanitizeText(if "primary_key" in post then post["primary_key"] else "id");
    var recordId := if "record_id" in post then IntVal(post["record_id"]) else 0;
    if !Truthy(table) || recordId == 0 {
      return Failure("Missing required parameters");
    }
    var ok, err := db.Run(Delete(table, primaryKey, recordId));
    if !ok {
      return Failure("Error deleting record");
    }
    return Success("Record deleted successfully");
  }

  // -----------------------------------------------------------------------
  // create_table, delete_table, modify_table

  /** The table name an admin call posts, sanitised; "" when none is posted. */
  function PostedTableName(env: Env, post: map<string, string>): string
  {
    if "table_name" in post then env.sanitizeText(post["table_name"]) else ""
  }

  /** The success payload of create_table: its message and the prefixed name. */
  datatype Created = Created(message: string, tableName: string)

  /**
    * create_table: with the admin nonce, a name and at least one field,
    * prefixes the name, rejects an existing table itself, and otherwise
    * hands over to the table manager's create_table.
    */
  method CreateTableCall(env: Env, db: Database, post: map<string, string>, fields: seq<FieldDef>, charsetCollate: string)
    returns (reply: Reply<Created>)
    modifies db
    ensures !NonceOk(env, Param(post, "nonce"), "custom_crud_admin_nonce") ==>
      reply == Failure("Security check failed") && db.log == old(db.log) && db.state == old(db.state)
    ensures NonceOk(env, Param(post, "nonce"), "custom_crud_admin_nonce") ==>
      var name := WithPrefix(env, PostedTableName(env, post));
      && (!Truthy(PostedTableName(env, post)) || fields == [] ==>
            reply == Failure("Missing required parameters") && db.log == old(db.log) && db.state == old(db.state))
      && (Truthy(PostedTableName(env, post)) && fields != [] && name in old(db.state.tables) ==>
            reply == Failure("A table with this name already exists") && db.log == old(db.log) && db.state == old(db.state))
      && (Truthy(PostedTableName(env, post)) && fields != [] && name !in old(db.state.tables) ==>
            var s := Store.CreateTable(name, CreateTableSql(env, name, fields, charsetCollate));
            && db.log == old(db.log) + [s]
            && (reply.Success? <==> db.accepts(s))
            && (reply.Success? ==> reply.payload == Created("Table created successfully", name) && name in db.state.tables)
            && (reply.Failure? ==> reply.message == CreationFailed.message))
  {
    if !("nonce" in post && Truthy(post["nonce"]) && env.verifyNonce(post["nonce"], "custom_crud_admin_nonce")) {
      return Failure("Security check failed");
    }
    var tableName := if "table_name" in post then env.sanitizeText(post["table_name"]) else "";
    if !Truthy(tableName) || fields == [] {
      return Failure("Missing required parameters");
    }
    if !StartsWith(tableName, env.prefix) {
      tableName := env.prefix + tableName;
    }
    if db.TableExists(tableName) {
      return Failure("A table with this name already exists");
    }
    var result := TableDdl.CreateTable(env, db, tableName, fields, charsetCollate);
    if result.Some? {
      return Failure(result.value.message);
    }
    return Success(Created("Table created successfully", tableName));
  }

  /** delete_table: with the admin nonce and a name, hands over to the table manager's delete_table. */
  method DeleteTableCall(env: Env, db: Database, post: map<string, string>) returns (reply: Reply<string>)
    modifies db
    ensures !NonceOk(env, Param(post, "nonce"), "custom_crud_admin_nonce") ==>
      reply == Failure("Security check failed") && db.log == old(db.log) && db.state == old(db.state)
    ensures NonceOk(env, Param(post, "nonce"), "custom_crud_admin_nonce") ==>
      var name := PostedTableName(env, post);
      && (!Truthy(name) ==> reply == Failure("No table specified") && db.log == old(db.log) && db.state == old(db.state))
      && (Truthy(name) && name !in old(db.state.tables) ==>
            reply == Failure(TableNotExists.message) && db.log == old(db.log) && db.state == old(db.state))
      && (Truthy(name) && name in old(db.state.tables) ==>
            && db.log == old(db.log) + [DropTable(name)]
            && (reply.Success? <==> db.accepts(DropTable(name)))
            && (reply.Success? ==> name !in db.state.tables))
  {
    if !("nonce" in post && Truthy(post["nonce"]) && env.verifyNonce(post["nonce"], "custom_crud_admin_nonce")) {
      return Failure("Security check failed");
    }
    var tableName := if "table_name" in post then env.sanitizeText(post["table_name"]) else "";
    if !Truthy(tableName) {
      return Failure("No table specified");
    }
    var result := TableDdl.DeleteTable(env, db, tableName);
    if result.Some? {
      return Failure(result.value.message);
    }
    return Success("Table deleted successfully");
  }

  /** modify_table: with the admin nonce, a name, and fields or operations, hands over to the table manager. */
  method ModifyTableCall(env: Env, db: Database, post: map<string, string>, fields: seq<FieldDef>, ops: seq<Operation>)
    returns (reply: Reply<string>)
    modifies db
    ensures !NonceOk(env, Param(post, "nonce"), "custom_crud_admin_nonce") ==>
      reply == Failure("Security check failed") && db.log == old(db.log) && db.state == old(db.state)
    ensures NonceOk(env, Param(post, "nonce"), "custom_crud_admin_nonce") ==>
      var name := PostedTableName(env, post);
      && (!Truthy(name) || (fields == [] && ops == []) ==>
            reply == Failure("Missing required parameters") && db.log == old(db.log) && db.state == old(db.state))
      && (Truthy(name) && (fields != [] || ops != []) && name !in old(db.state.tables) ==>
            reply == Failure(TableNotExists.message) && db.log == old(db.log) && db.state == old(db.state))
      && (Truthy(name) && (fields != [] || ops != []) && name in old(db.state.tables) ==>
            var stmts := Statements(env, name, fields, ops);
            && db.log == old(db.log) + Alters(name, stmts)
            && db.state == old(db.state)
            && (reply.Success? <==> forall i :: 0 <= i < |stmts| ==> db.accepts(Alter(name, stmts[i])))
            && (reply.Success? ==> reply == Success("Table modified successfully"))
            && (reply.Failure? ==> reply.message == ModificationFailed(Rejections(db.accepts, db.errorOf, name, stmts)).message))
  {
    if !("nonce" in post && Truthy(post["nonce"]) && env.verifyNonce(post["nonce"], "custom_crud_admin_nonce")) {
      return Failure("Security check failed");
    }
    var tableName := if "table_name" in post then env.sanitizeText(post["table_name"]) else "";
    if !Truthy(tableName) || (fields == [] && ops == []) {
      return Failure("Missing required parameters");
    }
    var result := TableDdl.ModifyTable(env, db, tableName, fields, ops);
    if result.Some? {
      return Failure(result.value.message);
    }
    return Success("Table modified successfully");
  }

  // -----------------------------------------------------------------------
  // get_table_structure and this file's get_field_type_from_sql

  /**
    * get_field_type_from_sql as this file writes it: "date" is tested
    * before "datetime", so the datetime branch is never taken.
    */
  function TypeFromSqlAsWritten(sqlType: string): string
  {
    var t := Lower(sqlType);
    if Contains(t, "int") then "int"
    else if Contains(t, "varchar") then "varchar"
    else if Contains(t, "text") then "text"
    else if Contains(t, "date") then "date"
    else if Contains(t, "datetime") then "datetime"
    else if Contains(t, "decimal") || Contains(t, "float") || Contains(t, "double") then "decimal"
    else "text"
  }

  /** The datetime branch is dead: nothing classifies as "datetime". */
  lemma AsWrittenNeverDatetime(sqlType: string)
    ensures TypeFromSqlAsWritten(sqlType) != "datetime"
  {
    var t := Lower(sqlType);
    if Contains(t, "datetime") {
      ContainsNeedlePrefix(t, "datetime", 4);
      assert "datetime"[..4] == "date";
    }
  }

  /**
    * This file's classification agrees with the table manager's on every
    * type except the ones the table manager reads as "datetime", which
    * come out "date" here.
    */
  lemma AsWrittenAgrees(sqlType: string)
    ensures TypeFromSqlAsWritten(sqlType) ==
      (if TypeFromSql(sqlType) == "datetime" then "date" else TypeFromSql(sqlType))
  {
    var t := Lower(sqlType);
    if Contains(t, "datetime") {
      ContainsNeedlePrefix(t, "datetime", 4);
      assert "datetime"[..4] == "date";
    }
  }

  /**
    * So a DATETIME column created by the table manager reads back as
    * "date" from get_table_structure; the table manager's own
    * classification reads it back as "datetime".
    */
  lemma AsWrittenMisreadsDatetime()
    ensures TypeFromSqlAsWritten(SqlType("datetime", "")) == "date"
    ensures TypeFromSql(SqlType("datetime", "")) == "datetime"
  {
    DatetimeTyped();
    ReadBackWords();
  }

  /** One field of the editor's structure, as get_table_structure reports it. */
  datatype FieldStructure = FieldStructure(name: string, ftype: string, length: string, nullable: bool,
                                           default: Option<string>, extra: string, key: string)

  /** A column's structure, classified by this file's get_field_type_from_sql. */
  function StructureOf(c: ColumnInfo): FieldStructure
  {
    FieldStructure(c.field, TypeFromSqlAsWritten(c.sqlType), LengthFromSql(c.sqlType), c.nullable == "YES", c.default, c.extra, c.key)
  }

  /** get_table_structure: one entry per column of the posted table, in column order. */
  method GetTableStructure(env: Env, post: map<string, string>, showColumns: string -> seq<ColumnInfo>)
    returns (reply: Reply<seq<FieldStructure>>)
    ensures !NonceOk(env, Param(post, "nonce"), "custom_crud_admin_nonce") ==> reply == Failure("Security check failed")
    ensures NonceOk(env, Param(post, "nonce"), "custom_crud_admin_nonce") ==>
      var name := PostedTableName(env, post);
      && (!Truthy(name) ==> reply == Failure("No table specified"))
      && (Truthy(name) && showColumns(name) == [] ==> reply == Failure("No columns found or table does not exist"))
      && (Truthy(name) && showColumns(name) != [] ==>
            && reply.Success? && |reply.payload| == |showColumns(name)|
            && forall i :: 0 <= i < |showColumns(name)| ==> reply.payload[i] == StructureOf(showColumns(name)[i]))
  {
    if !("nonce" in post && Truthy(post["nonce"]) && env.verifyNonce(post["nonce"], "custom_crud_admin_nonce")) {
      return Failure("Security check failed");
    }
    var tableName := if "table_name" in post then env.sanitizeText(post["table_name"]) else "";
    if !Truthy(tableName) {
      return Failure("No table specified");
    }
    var columns := showColumns(tableName);
    if columns == [] {
      return Failure("No columns found or table does not exist");
    }
    var fields := Structures(columns);
    return Success(fields);
  }

  /** The loop of get_table_structure: each column's structure, in order. */
  method Structures(columns: seq<ColumnInfo>) returns (fields: seq<FieldStructure>)
    ensures |fields| == |columns|
    ensures forall i :: 0 <= i < |columns| ==> fields[i] == StructureOf(columns[i])
  {
    fields := [];
    var i := 0;
    while i < |columns|
      invariant 0 <= i <= |columns|
      invariant fields == seq(i, j requires 0 <= j < i => StructureOf(columns[j]))
    {
      fields := fields + [StructureOf(columns[i])];
      i := i + 1;
    }
  }

  /**
    * The AJAX structure of a column agrees with the edit tab's entry for
    * it in every field, except that a column the edit tab reads as
    * "datetime" is "date" here (and the edit tab adds is_primary).
    */
  lemma StructureAgreesWithEditTab(c: ColumnInfo)
    ensures var f, e := StructureOf(c), ColumnStructureOf(c);
      && f.name == e.name && f.length == e.length && f.nullable == e.nullable
      && f.default == e.default && f.extra == e.extra && f.key == e.key
      && f.ftype == (if e.ftype == "datetime" then "date" else e.ftype)
  {
    AsWrittenAgrees(c.sqlType);
  }

  /**
    * A column the table manager created with a listed type and a length
    * of digits and commas, whose type SHOW COLUMNS reports as written up
    * to case, comes back from get_table_structure with that type and
    * length (the type's default length when none was given), except that
    * a DATETIME column comes back as "date".
    */
  lemma StructureReadsBack(c: ColumnInfo, ftype: string, length: string)
    requires ftype in StoredTypes && LengthText(length)
    requires Lower(c.sqlType) == Lower(SqlType(ftype, length))
    ensures StructureOf(c).ftype == (if ftype == "datetime" then "date" else ftype)
    ensures StructureOf(c).length == (if HasLength(ftype) then LengthOr(length, DefaultLength(ftype)) else "")
  {
    ReportedTypeReadBack(c.sqlType, ftype, length);
    AsWrittenAgrees(c.sqlType);
  }
}

=== FILE: autoloader.dfy ===
/**
  * The plugin's class autoloader: a class of the plugin's namespace is
  * looked up as `includes/class-<name>.php` under the plugin directory,
  * the name lower-cased and its underscores turned into hyphens; any other
  * class is left to other autoloaders. Whether the file exists is the
  * file system's answer, passed in.
  */
module Autoloader {
  import opened Php

  /** The namespace prefix, backslash included. */
  const Prefix := "CustomTableCRUD\\"

  /** strtolower, then `_` to `-`: the file-name part for a class name. */
  function Slug(name: string): (slug: string)
    ensures |slug| == |name|
    ensures forall i :: 0 <= i < |name| ==> slug[i] == SlugChar(name[i])
  {
    ReplaceChar(Lower(name), '_', '-')
  }

  /** What one character of a class name becomes in its file name. */
  function SlugChar(c: char): char
  {
    if LowerChar(c) == '_' then '-' else LowerChar(c)
  }

  /**
    * The path the autoloader computes for a class: none when the name does
    * not start with the namespace prefix; otherwise the prefix removed
    * (every occurrence, as str_replace does), the rest lower-cased and
    * hyphenated, inside `includes/class-….php` under the plugin path.
    */
  function ClassFile(pluginPath: string, cls: string): (file: Option<string>)
    ensures file.None? <==> !StartsWith(cls, Prefix)
  {
    if !StartsWith(cls, Prefix) then None
    else Some(pluginPath + IncludesFile(Slug(ReplaceAll(cls, Prefix, ""))))
  }

  /** The class file for a slug, relative to the plugin directory. */
  function IncludesFile(slug: string): string
  {
    "includes/class-" + slug + ".php"
  }

  /** The autoloader: the file it requires, if any; a missing file is skipped silently. */
  function Autoload(pluginPath: string, fileExists: string -> bool, cls: string): (required: Option<string>)
    ensures required.Some? <==> ClassFile(pluginPath, cls).Some? && fileExists(ClassFile(pluginPath, cls).value)
    ensures required.Some? ==> required == ClassFile(pluginPath, cls)
  {
    var file := ClassFile(pluginPath, cls);
    if file.Some? && fileExists(file.value) then file else None
  }

  /** A class outside the namespace never loads a file, whatever exists. */
  lemma ForeignClassIgnored(pluginPath: string, fileExists: string -> bool, cls: string)
    requires !StartsWith(cls, Prefix)
    ensures Autoload(pluginPath, fileExists, cls) == None
  {
  }

  /**
    * A class of the namespace whose own name does not repeat the prefix is
    * looked up under exactly its name: the prefix is removed once.
    */
  lemma {:induction false} NamespacedClassFile(pluginPath: string, name: string)
    requires !Contains(name, Prefix)
    ensures ClassFile(pluginPath, Prefix + name) == Some(pluginPath + IncludesFile(Slug(name)))
  {
    var cls := Prefix + name;
    assert cls[..|Prefix|] == Prefix;
    assert cls[|Prefix|..] == name;
    ReplaceAllAbsent(name, Prefix, "");
    assert ReplaceAll(cls, Prefix, "") == "" + ReplaceAll(name, Prefix, "");
    assert "" + name == name;
    assert StartsWith(cls, Prefix);
  }

  /** The file-name part holds no capital letter and no underscore. */
  lemma SlugLowerHyphenated(name: string)
    ensures forall i :: 0 <= i < |Slug(name)| ==> !('A' <= Slug(name)[i] <= 'Z') && Slug(name)[i] != '_'
  {
    forall i | 0 <= i < |name|
      ensures !('A' <= Slug(name)[i] <= 'Z') && Slug(name)[i] != '_'
    {
      var c := name[i];
      if 'A' <= c <= 'Z' {
        assert LowerChar(c) as int == c as int + 32;
      }
    }
  }

  /** Class names that differ only in case or in `_` against `-` share one file. */
  lemma SlugMerges(a: string, b: string)
    requires |a| == |b|
    requires forall i :: 0 <= i < |a| ==> SlugChar(a[i]) == SlugChar(b[i])
    ensures Slug(a) == Slug(b)
  {
  }

  /** A slug is the given string when it matches character by character. */
  lemma SlugIs(name: string, slug: string)
    requires |slug| == |name|
    requires forall i :: 0 <= i < |name| ==> SlugChar(name[i]) == slug[i]
    ensures Slug(name) == slug
  {
  }

  /** A short name cannot contain the (longer) prefix. */
  lemma ShortNameLacksPrefix(name: string)
    requires |name| < |Prefix|
    ensures !Contains(name, Prefix)
  {
  }

  lemma SlugTableManager()
    ensures Slug("Table_Manager") == "table-manager"
  {
    SlugIs("Table_Manager", "table-manager");
  }

  /** `CustomTableCRUD\Table_Manager` is loaded from `includes/class-table-manager.php`. */
  lemma TableManagerFile(pluginPath: string)
    ensures ClassFile(pluginPath, Prefix + "Table_Manager") == Some(pluginPath + IncludesFile("table-manager"))
  {
    ShortNameLacksPrefix("Table_Manager");
    NamespacedClassFile(pluginPath, "Table_Manager");
    SlugTableManager();
  }

  lemma SlugAjaxHandler()
    ensures Slug("Ajax_Handler") == "ajax-handler"
  {
    SlugIs("Ajax_Handler", "ajax-handler");
  }

  /** `CustomTableCRUD\Ajax_Handler` is loaded from `includes/class-ajax-handler.php`. */
  lemma AjaxHandlerFile(pluginPath: string)
    ensures ClassFile(pluginPath, Prefix + "Ajax_Handler") == Some(pluginPath + IncludesFile("ajax-handler"))
  {
    ShortNameLacksPrefix("Ajax_Handler");
    NamespacedClassFile(pluginPath, "Ajax_Handler");
    SlugAjaxHandler();
  }

  lemma SlugPluginCore()
    ensures Slug("Plugin_Core") == "plugin-core"
  {
    SlugIs("Plugin_Core", "plugin-core");
  }

  /** `CustomTableCRUD\Plugin_Core`, the class the plugin starts, is loaded from `includes/class-plugin-core.php`. */
  lemma PluginCoreFile(pluginPath: string)
    ensures ClassFile(pluginPath, Prefix + "Plugin_Core") == Some(pluginPath + IncludesFile("plugin-core"))
  {
    ShortNameLacksPrefix("Plugin_Core");
    NamespacedClassFile(pluginPath, "Plugin_Core");
    SlugPluginCore();
  }
}

=== FILE: legacy_script.dfy ===
/**
  * The older front-end script's shortcode generator. It writes only the
  * pagination and table_view attributes and, for each checked field, a
  * descriptor with fieldname, displayname and displaytype: no read-only
  * flag, no query and no display flags, and no check that a table or a
  * field was chosen.
  */
module LegacyScript {
  import opened Php
  import opened Shortcode
  import AdminScript

  /** What the generator reads from one `.field-wrapper`: whether its checkbox is there and checked, its value, display name and type. */
  datatype Wrapper = Wrapper(checked: bool, fieldname: string, displayname: string, displaytype: string)

  /** `displayname || fieldname`: an empty display name gives the field name. */
  function DisplayNameOf(w: Wrapper): string
  {
    if w.displayname != "" then w.displayname else w.fieldname
  }

  function FieldSegments(w: Wrapper): seq<string>
  {
    [AdminScript.Segment("fieldname", w.fieldname), AdminScript.Segment("displayname", DisplayNameOf(w)),
     AdminScript.Segment("displaytype", w.displaytype)]
  }

  /** The descriptor written for one checked wrapper. */
  function FieldSpec(w: Wrapper): string
  {
    Implode(";", FieldSegments(w))
  }

  /** The checked wrappers, in document order. */
  function Checked(ws: seq<Wrapper>): (cs: seq<Wrapper>)
    ensures |cs| <= |ws|
  {
    if ws == [] then []
    else Checked(ws[..|ws| - 1]) + (if ws[|ws| - 1].checked then [ws[|ws| - 1]] else [])
  }

  /** Exactly the checked wrappers are emitted. */
  lemma {:induction false} CheckedSound(ws: seq<Wrapper>)
    ensures forall w :: w in Checked(ws) <==> w in ws && w.checked
  {
    if ws != [] {
      var init := ws[..|ws| - 1];
      CheckedSound(init);
      assert ws == init + [ws[|ws| - 1]];
    }
  }

  /** The field attributes, one per checked wrapper, numbered from 1. */
  function FieldAttributes(cs: seq<Wrapper>): (r: seq<(string, string)>)
    ensures |r| == |cs|
  {
    if cs == [] then []
    else FieldAttributes(cs[..|cs| - 1]) + [(AdminScript.FieldKey(|cs|), FieldSpec(cs[|cs| - 1]))]
  }

  /** The i-th checked wrapper is written as `field<i+1>`, a key the shortcode handler admits. */
  lemma {:induction false} FieldAttributesAt(cs: seq<Wrapper>, i: int)
    requires 0 <= i < |cs|
    ensures FieldAttributes(cs)[i] == (AdminScript.FieldKey(i + 1), FieldSpec(cs[i]))
    ensures IsFieldKey(FieldAttributes(cs)[i].0)
  {
    if i < |cs| - 1 {
      FieldAttributesAt(cs[..|cs| - 1], i);
    }
    AdminScript.FieldKeyAdmitted(i + 1);
  }

  /** The shortcode: pagination as typed (even empty), the table as selected (even none), then the fields. */
  function Generate(pagination: string, table: string, ws: seq<Wrapper>): string
  {
    "[wp_table_manager" + AdminScript.AttributeText(HeadAttributes(pagination, table) + FieldAttributes(Checked(ws))) + "]"
  }

  /** The only attributes before the fields. */
  function HeadAttributes(pagination: string, table: string): seq<(string, string)>
  {
    [("pagination", pagination), ("table_view", table)]
  }

  /** The text and count of the field attributes, wrapper by wrapper, as the loop accumulates them. */
  function FieldsSoFar(ws: seq<Wrapper>): (string, nat)
  {
    if ws == [] then ("", 0)
    else
      var before := FieldsSoFar(ws[..|ws| - 1]);
      var w := ws[|ws| - 1];
      if w.checked then (before.0 + AdminScript.Attribute((AdminScript.FieldKey(before.1 + 1), FieldSpec(w))), before.1 + 1)
      else before
  }

  /** One more checked wrapper adds its attribute, numbered after the ones before it. */
  lemma FieldsTextExtend(cs: seq<Wrapper>, w: Wrapper)
    ensures AdminScript.AttributeText(FieldAttributes(cs + [w])) ==
      AdminScript.AttributeText(FieldAttributes(cs)) + AdminScript.Attribute((AdminScript.FieldKey(|cs| + 1), FieldSpec(w)))
  {
    assert (cs + [w])[..|cs|] == cs;
  }

  /** The loop's accumulation is the text of the checked wrappers' attributes, numbered from 1. */
  lemma {:induction false} FieldsSoFarChecked(ws: seq<Wrapper>)
    ensures FieldsSoFar(ws) == (AdminScript.AttributeText(FieldAttributes(Checked(ws))), |Checked(ws)|)
  {
    if ws != [] {
      var init, w := ws[..|ws| - 1], ws[|ws| - 1];
      FieldsSoFarChecked(init);
      var cs := Checked(init);
      if w.checked {
        assert Checked(ws) == cs + [w];
        FieldsTextExtend(cs, w);
      } else {
        assert Checked(ws) == cs;
      }
    }
  }

  /** The loop over the field wrappers: the text of the checked wrappers' attributes. */
  method FieldsText(ws: seq<Wrapper>) returns (fieldsText: string)
    ensures fieldsText == AdminScript.AttributeText(FieldAttributes(Checked(ws)))
  {
    var fieldIndex := 1;
    fieldsText := "";
    var i := 0;
    while i < |ws|
      invariant 0 <= i <= |ws|
      invariant (fieldsText, fieldIndex - 1) == FieldsSoFar(ws[..i])
    {
      assert ws[..i + 1][..i] == ws[..i];
      var w := ws[i];
      if w.checked {
        fieldsText := fieldsText + AdminScript.Attribute((AdminScript.FieldKey(fieldIndex), FieldSpec(w)));
        fieldIndex := fieldIndex + 1;
      }
      i := i + 1;
    }
    assert ws[..i] == ws;
    FieldsSoFarChecked(ws);
  }

  /** generateShortcode: the shortcode, whatever the table, pagination and checked fields are. */
  method GenerateShortcode(pagination: string, table: string, ws: seq<Wrapper>) returns (shortcode: string)
    ensures shortcode == Generate(pagination, table, ws)
  {
    var fieldsText := FieldsText(ws);
    var head := AdminScript.AttributeText(HeadAttributes(pagination, table));
    AdminScript.AttributeTextAppend(HeadAttributes(pagination, table), FieldAttributes(Checked(ws)));
    shortcode := "[wp_table_manager" + head + fieldsText + "]";
    AppendRegroup("[wp_table_manager", head, fieldsText, "]");
  }

  // -----------------------------------------------------------------------
  // Round trip

  /** A wrapper whose field name, label and type survive the descriptor format. */
  predicate Readable(w: Wrapper)
  {
    AdminScript.CleanValue(w.fieldname) && AdminScript.CleanValue(DisplayNameOf(w)) && AdminScript.CleanValue(w.displaytype)
  }

  /** The `$col` array of the three pairs holds just those three keys. */
  lemma AssignThree(f: string, d: string, t: string)
    ensures Assign([Some(("fieldname", f)), Some(("displayname", d)), Some(("displaytype", t))]).vals ==
      map["fieldname" := f]["displayname" := d]["displaytype" := t]
  {
    var a, b, c := Some(("fieldname", f)), Some(("displayname", d)), Some(("displaytype", t));
    AdminScript.AssignValsSnoc([], a);
    AdminScript.AssignValsSnoc([a], b);
    AdminScript.AssignValsSnoc([a, b], c);
    assert [] + [a] == [a] && [a] + [b] == [a, b] && [a, b] + [c] == [a, b, c];
  }

  /** The three keys hold their values, and neither `readonly` nor `query` is set. */
  lemma ThreeLookup(f: string, d: string, t: string)
    ensures var m := map["fieldname" := f]["displayname" := d]["displaytype" := t];
      && "fieldname" in m && m["fieldname"] == f && "displayname" in m && m["displayname"] == d
      && "displaytype" in m && m["displaytype"] == t && "readonly" !in m && "query" !in m
  {
    AdminScript.DescriptorKeysDistinct();
  }

  /** The segments of a readable wrapper hold no `;`, so exploding its descriptor gives them back. */
  lemma SegmentsExplode(w: Wrapper)
    requires Readable(w)
    ensures Explode(';', FieldSpec(w)) == FieldSegments(w)
  {
    AdminScript.DescriptorKeysKept();
    AdminScript.SegmentHasNoSeparator("fieldname", w.fieldname);
    AdminScript.SegmentHasNoSeparator("displayname", DisplayNameOf(w));
    AdminScript.SegmentHasNoSeparator("displaytype", w.displaytype);
    ExplodeImplode(';', FieldSegments(w));
  }

  /** Each segment of a readable wrapper is read back as its pair. */
  lemma SegmentPairsOf(w: Wrapper)
    requires Readable(w)
    ensures SegmentPairs(FieldSegments(w)) ==
      [Some(("fieldname", w.fieldname)), Some(("displayname", DisplayNameOf(w))), Some(("displaytype", w.displaytype))]
  {
    AdminScript.DescriptorKeysKept();
    AdminScript.KeptSegment("fieldname", w.fieldname);
    AdminScript.KeptSegment("displayname", DisplayNameOf(w));
    AdminScript.KeptSegment("displaytype", w.displaytype);
    SegmentPairsOfThree(AdminScript.Segment("fieldname", w.fieldname), AdminScript.Segment("displayname", DisplayNameOf(w)),
      AdminScript.Segment("displaytype", w.displaytype));
  }

  lemma SegmentPairsOfThree(a: string, b: string, c: string)
    ensures SegmentPairs([a, b, c]) == [SegmentPair(a), SegmentPair(b), SegmentPair(c)]
  {
  }

  /** The three pairs describe the field, with the read-only flag defaulted and no query. */
  lemma DescriptorOfThree(f: string, d: string, t: string)
    requires Truthy(f) && Truthy(d) && Truthy(t)
    ensures Descriptor(Assign([Some(("fieldname", f)), Some(("displayname", d)), Some(("displaytype", t))])) ==
      Some((f, Column(d, t, "false", None)))
  {
    AssignThree(f, d, t);
    ThreeLookup(f, d, t);
  }

  /**
    * Round trip: a readable wrapper's descriptor is read back as that field
    * with its label and type; with no readonly segment written the handler
    * defaults the flag to "false", and no query is kept even for a `query`
    * column.
    */
  lemma SpecRoundTrip(w: Wrapper)
    requires Readable(w)
    ensures SpecOf(FieldSpec(w)) == Some((w.fieldname, Column(DisplayNameOf(w), w.displaytype, "false", None)))
  {
    SegmentsExplode(w);
    SegmentPairsOf(w);
    DescriptorOfThree(w.fieldname, DisplayNameOf(w), w.displaytype);
  }
}

=== FILE: php.dfy ===
/**
  * The slice of PHP semantics the plugin relies on: string truthiness,
  * the string functions it calls (strtolower, trim, explode, implode,
  * str_replace, strpos), intval/is_numeric as simple parsers, and the
  * ordered array whose assignment to an existing key keeps that key's
  * position.
  */
module Php {

  datatype Option<T> = None | Some(value: T)

  /** `if ($s)` and `!empty($s)` on a string: false exactly for "" and "0". */
  predicate Truthy(s: string)
  {
    s != "" && s != "0"
  }

  // ---------------------------------------------------------------------
  // Characters and case

  predicate IsDigit(c: char)
  {
    '0' <= c <= '9'
  }

  predicate AllDigits(s: string)
  {
    forall i :: 0 <= i < |s| ==> IsDigit(s[i])
  }

  function LowerChar(c: char): char
  {
    if 'A' <= c <= 'Z' then (c as int + 32) as char else c
  }

  /** strtolower: ASCII letters only, every other character kept. */
  function Lower(s: string): (r: string)
    ensures |r| == |s|
    ensures forall i :: 0 <= i < |s| ==> r[i] == LowerChar(s[i])
  {
    seq(|s|, i requires 0 <= i < |s| => LowerChar(s[i]))
  }

  /** strtolower leaves a string without capital letters unchanged. */
  lemma LowerUnchanged(s: string)
    requires forall i :: 0 <= i < |s| ==> !('A' <= s[i] <= 'Z')
    ensures Lower(s) == s
  {
    assert forall i :: 0 <= i < |s| ==> Lower(s)[i] == s[i];
  }

  /** str_replace of one character by another, everywhere. */
  function ReplaceChar(s: string, a: char, b: char): (r: string)
    ensures |r| == |s|
    ensures forall i :: 0 <= i < |s| ==> r[i] == (if s[i] == a then b else s[i])
  {
    if s == [] then [] else [if s[0] == a then b else s[0]] + ReplaceChar(s[1..], a, b)
  }

  /** Text written piece by piece is the same text with its middle pieces written first. */
  lemma AppendRegroup(a: string, b: string, c: string, d: string)
    ensures a + b + c + d == a + (b + c) + d
  {
  }

  // ---------------------------------------------------------------------
  // Prefixes and substrings

  predicate StartsWith(s: string, p: string)
  {
    |p| <= |s| && s[..|p|] == p
  }

  /** `strpos($s, $sub) !== false` (an empty needle is found at 0). */
  predicate Contains(s: string, sub: string)
  {
    exists i :: 0 <= i <= |s| - |sub| && OccursAt(s, sub, i)
  }

  /** `sub` occurs in `s` starting at index `i`. */
  predicate OccursAt(s: string, sub: string, i: int)
  {
    0 <= i && i + |sub| <= |s| && s[i..i + |sub|] == sub
  }

  lemma ContainsAt(s: string, sub: string, i: nat)
    requires i + |sub| <= |s| && s[i..i + |sub|] == sub
    ensures Contains(s, sub)
  {
    assert OccursAt(s, sub, i);
  }

  lemma ContainsWitness(s: string, sub: string) returns (i: nat)
    requires Contains(s, sub)
    ensures i + |sub| <= |s| && s[i..i + |sub|] == sub
  {
    i :| 0 <= i <= |s| - |sub| && OccursAt(s, sub, i);
  }

  /** A needle found after the first character is found. */
  lemma ContainsTail(s: string, sub: string)
    requires |s| > 0
    ensures Contains(s[1..], sub) ==> Contains(s, sub)
  {
    if Contains(s[1..], sub) {
      var j := ContainsWitness(s[1..], sub);
      assert s[1..][j..j + |sub|] == s[j + 1..j + 1 + |sub|];
      ContainsAt(s, sub, j + 1);
    }
  }

  /** A string containing a needle contains every prefix of it. */
  lemma ContainsNeedlePrefix(s: string, sub: string, n: nat)
    requires n <= |sub|
    ensures Contains(s, sub) ==> Contains(s, sub[..n])
  {
    if Contains(s, sub) {
      var i := ContainsWitness(s, sub);
      assert s[i..i + n] == sub[..n];
      ContainsAt(s, sub[..n], i);
    }
  }

  /** A needle whose first character never occurs is not found. */
  lemma {:induction false} NotContainsFirstChar(s: string, sub: string)
    requires |sub| > 0 && sub[0] !in s
    ensures !Contains(s, sub)
  {
    if Contains(s, sub) {
      var i := ContainsWitness(s, sub);
      assert false;
    }
  }

  /** A needle that occurs at no index is not found. */
  lemma NotContainsAt(s: string, sub: string)
    requires forall i :: 0 <= i <= |s| - |sub| ==> !OccursAt(s, sub, i)
    ensures !Contains(s, sub)
  {
  }

  // ---------------------------------------------------------------------
  // trim / rtrim

  /** The characters PHP's trim() strips by default: " \t\n\r\0\x0B". */
  const PhpWhitespace: set<char> := {' ', '\t', '\n', '\r', '\0', '\U{B}'}

  function TrimLeft(s: string, cs: set<char>): (r: string)
    ensures |r| <= |s| && r == s[|s| - |r|..]
    ensures r == [] || r[0] !in cs
    ensures forall i :: 0 <= i < |s| - |r| ==> s[i] in cs
  {
    if s == [] || s[0] !in cs then s else TrimLeft(s[1..], cs)
  }

  /** rtrim($s, $chars). */
  function TrimRight(s: string, cs: set<char>): (r: string)
    ensures |r| <= |s| && r == s[..|r|]
    ensures r == [] || r[|r| - 1] !in cs
    ensures forall i :: |r| <= i < |s| ==> s[i] in cs
  {
    if s == [] || s[|s| - 1] !in cs then s else TrimRight(s[..|s| - 1], cs)
  }

  /** trim($s, $chars). */
  function Trim(s: string, cs: set<char>): string
  {
    TrimRight(TrimLeft(s, cs), cs)
  }

  /** Every character of `s` is one that trim() strips. */
  predicate TrimsAway(s: string, cs: set<char>)
  {
    forall i :: 0 <= i < |s| ==> s[i] in cs
  }

  /** `trim($s, $chars) === ''` exactly when every character of `s` is stripped. */
  lemma TrimEmpty(s: string, cs: set<char>)
    ensures Trim(s, cs) == [] <==> TrimsAway(s, cs)
  {
  }

  /** A string that neither starts nor ends with a trimmed character is kept as it is. */
  lemma TrimKeeps(s: string, cs: set<char>)
    requires s == [] || (s[0] !in cs && s[|s| - 1] !in cs)
    ensures Trim(s, cs) == s
  {
    assert TrimLeft(s, cs) == s;
  }

  /** rtrim removes a trailing run of trimmed characters and stops at the first character it keeps. */
  lemma TrimRightSuffix(p: string, suffix: string, cs: set<char>)
    requires p == [] || p[|p| - 1] !in cs
    requires forall i :: 0 <= i < |suffix| ==> suffix[i] in cs
    ensures TrimRight(p + suffix, cs) == p
  {
    var s := p + suffix;
    var r := TrimRight(s, cs);
    assert forall i :: 0 <= i < |p| ==> s[i] == p[i];
    assert forall i :: |p| <= i < |s| ==> s[i] == suffix[i - |p|];
    assert |r| == |p|;
    assert p == s[..|p|];
  }

  // ---------------------------------------------------------------------
  // explode / implode

  /** implode($glue, $parts). */
  function Implode(glue: string, parts: seq<string>): string
  {
    if |parts| == 0 then ""
    else if |parts| == 1 then parts[0]
    else parts[0] + glue + Implode(glue, parts[1..])
  }

  /** explode($sep, $s) for a one-character separator: never empty, pieces free of sep. */
  function Explode(sep: char, s: string): (parts: seq<string>)
    ensures |parts| >= 1
    ensures forall i :: 0 <= i < |parts| ==> sep !in parts[i]
    ensures Implode([sep], parts) == s
  {
    if s == [] then [""]
    else
      var rest := Explode(sep, s[1..]);
      if s[0] == sep then
        [""] + rest
      else
        assert Implode([sep], [[s[0]] + rest[0]] + rest[1..]) == [s[0]] + Implode([sep], rest);
        [[s[0]] + rest[0]] + rest[1..]
  }

  lemma {:induction false} ExplodeSingle(sep: char, s: string)
    requires sep !in s
    ensures Explode(sep, s) == [s]
  {
    if s != [] {
      ExplodeSingle(sep, s[1..]);
    }
  }

  lemma {:induction false} ExplodeCons(sep: char, a: string, b: string)
    requires sep !in a
    ensures Explode(sep, a + [sep] + b) == [a] + Explode(sep, b)
    decreases |a|
  {
    if a == [] {
      assert a + [sep] + b == [sep] + b;
      assert ([sep] + b)[1..] == b;
    } else {
      assert (a + [sep] + b)[1..] == a[1..] + [sep] + b;
      ExplodeCons(sep, a[1..], b);
      assert [a[0]] + a[1..] == a;
    }
  }

  /** Exploding an implosion gives back the pieces, when no piece holds the separator. */
  lemma {:induction false} ExplodeImplode(sep: char, parts: seq<string>)
    requires |parts| >= 1
    requires forall i :: 0 <= i < |parts| ==> sep !in parts[i]
    ensures Explode(sep, Implode([sep], parts)) == parts
    decreases |parts|
  {
    if |parts| == 1 {
      ExplodeSingle(sep, parts[0]);
    } else {
      ExplodeImplode(sep, parts[1..]);
      ExplodeCons(sep, parts[0], Implode([sep], parts[1..]));
      assert [parts[0]] + parts[1..] == parts;
    }
  }

  /** explode($sep, $s, 2): the split at the first separator, or None when there is none. */
  function SplitFirst(sep: char, s: string): (r: Option<(string, string)>)
    ensures r.None? <==> sep !in s
    ensures r.Some? ==> sep !in r.value.0 && r.value.0 + [sep] + r.value.1 == s
  {
    if s == [] then None
    else if s[0] == sep then Some(([], s[1..]))
    else match SplitFirst(sep, s[1..])
      case None => None
      case Some(p) => Some(([s[0]] + p.0, p.1))
  }

  /** The split happens at the first separator, so the second piece may hold more separators. */
  lemma {:induction false} SplitFirstOf(sep: char, a: string, b: string)
    requires sep !in a
    ensures SplitFirst(sep, a + [sep] + b) == Some((a, b))
    decreases |a|
  {
    if a == [] {
      assert a + [sep] + b == [sep] + b;
    } else {
      assert (a + [sep] + b)[1..] == a[1..] + [sep] + b;
      SplitFirstOf(sep, a[1..], b);
      assert [a[0]] + a[1..] == a;
    }
  }

  /** str_replace($from, $to, $s): every non-overlapping occurrence, left to right. */
  function ReplaceAll(s: string, from: string, to: string): string
    decreases |s|
  {
    if |from| == 0 || |s| < |from| then s
    else if s[..|from|] == from then to + ReplaceAll(s[|from|..], from, to)
    else [s[0]] + ReplaceAll(s[1..], from, to)
  }

  /** A string without the needle is left unchanged by str_replace. */
  lemma {:induction false} ReplaceAllAbsent(s: string, from: string, to: string)
    requires !Contains(s, from)
    ensures ReplaceAll(s, from, to) == s
    decreases |s|
  {
    if |from| > 0 && |s| >= |from| {
      assert !OccursAt(s, from, 0);
      assert s[0..|from|] == s[..|from|];
      ContainsTail(s, from);
      assert [s[0]] + s[1..] == s;
      ReplaceAllAbsent(s[1..], from, to);
    }
  }

  /** str_replace never shortens a string when the replacement is at least as long as the needle. */
  lemma {:induction false} ReplaceAllNotShorter(s: string, from: string, to: string)
    requires |to| >= |from|
    ensures |ReplaceAll(s, from, to)| >= |s|
    decreases |s|
  {
    if |from| > 0 && |s| >= |from| {
      if s[..|from|] == from {
        ReplaceAllNotShorter(s[|from|..], from, to);
      } else {
        ReplaceAllNotShorter(s[1..], from, to);
      }
    }
  }

  /** ... and lengthens it when the needle occurs and the replacement is longer. */
  lemma {:induction false} ReplaceAllLonger(s: string, from: string, to: string)
    requires |to| > |from| > 0 && Contains(s, from)
    ensures |ReplaceAll(s, from, to)| > |s|
    decreases |s|
  {
    var i := ContainsWitness(s, from);
    if s[..|from|] == from {
      ReplaceAllNotShorter(s[|from|..], from, to);
    } else {
      assert s[0..|from|] == s[..|from|];
      assert i > 0;
      assert s[1..][i - 1..i - 1 + |from|] == s[i..i + |from|];
      ContainsAt(s[1..], from, i - 1);
      ReplaceAllLonger(s[1..], from, to);
    }
  }

  /** strpos finds a needle inside any string that has it in its middle part. */
  lemma ContainsInfix(a: string, m: string, c: string, sub: string)
    requires Contains(m, sub)
    ensures Contains(a + m + c, sub)
  {
    var i := ContainsWitness(m, sub);
    assert (a + m + c)[|a| + i..|a| + i + |sub|] == m[i..i + |sub|];
    ContainsAt(a + m + c, sub, |a| + i);
  }

  /** strpos of a one-character needle is membership. */
  lemma ContainsChar(s: string, c: char)
    ensures Contains(s, [c]) <==> c in s
  {
    if c in s {
      var i :| 0 <= i < |s| && s[i] == c;
      assert s[i..i + 1] == [c];
      ContainsAt(s, [c], i);
    }
    if Contains(s, [c]) {
      var i := ContainsWitness(s, [c]);
      assert s[i] == s[i..i + 1][0];
    }
  }

  // ---------------------------------------------------------------------
  // intval / is_numeric / integer formatting

  /** The whitespace intval() skips before the number: " \t\n\r\v\f". */
  const IntWhitespace: set<char> := {' ', '\t', '\n', '\r', '\U{B}', '\U{C}'}

  function DigitValue(c: char): nat
    requires IsDigit(c)
  {
    c as int - '0' as int
  }

  /** The longest prefix of digits. */
  function LeadingDigits(s: string): (r: string)
    ensures AllDigits(r) && StartsWith(s, r)
    ensures |r| < |s| ==> !IsDigit(s[|r|])
  {
    if s == [] || !IsDigit(s[0]) then [] else [s[0]] + LeadingDigits(s[1..])
  }

  function DigitsValue(ds: string): nat
    requires AllDigits(ds)
  {
    if ds == [] then 0 else 10 * DigitsValue(ds[..|ds| - 1]) + DigitValue(ds[|ds| - 1])
  }

  /**
    * intval() on a string, as a simple parser: leading whitespace, an
    * optional sign, then the longest run of digits; 0 when there are none.
    */
  function IntVal(s: string): int
  {
    var t := TrimLeft(s, IntWhitespace);
    if |t| > 0 && t[0] == '-' then -(DigitsValue(LeadingDigits(t[1..])) as int)
    else if |t| > 0 && t[0] == '+' then DigitsValue(LeadingDigits(t[1..]))
    else DigitsValue(LeadingDigits(t))
  }

  function DigitChar(d: nat): (c: char)
    requires d < 10
    ensures IsDigit(c) && DigitValue(c) == d
  {
    ('0' as int + d) as char
  }

  /** The decimal digits of a natural number, without leading zeros. */
  function NatToString(n: nat): (r: string)
    ensures |r| >= 1 && AllDigits(r) && DigitsValue(r) == n
    ensures |r| > 1 ==> r[0] != '0'
  {
    if n < 10 then [DigitChar(n)]
    else
      var r := NatToString(n / 10) + [DigitChar(n % 10)];
      assert r[..|r| - 1] == NatToString(n / 10);
      r
  }

  /** PHP's string conversion of an integer (as in `'delete_record_' . $id`). */
  function IntToString(n: int): string
  {
    if n < 0 then "-" + NatToString(-n) else NatToString(n)
  }

  lemma {:induction false} LeadingDigitsAll(s: string)
    requires AllDigits(s)
    ensures LeadingDigits(s) == s
    decreases |s|
  {
    if s != [] {
      LeadingDigitsAll(s[1..]);
    }
  }

  /** intval reads back every integer that PHP prints: a minus sign before a run of digits negates its value. */
  lemma IntValOfIntToString(n: int)
    ensures IntVal(IntToString(n)) == n
  {
    var ds := NatToString(if n < 0 then -n else n);
    LeadingDigitsAll(ds);
    if n < 0 {
      var s := "-" + ds;
      assert s[0] !in IntWhitespace;
      assert TrimLeft(s, IntWhitespace) == s;
      assert s[1..] == ds;
    } else {
      assert ds[0] !in IntWhitespace;
      assert TrimLeft(ds, IntWhitespace) == ds;
    }
  }

  /**
    * is_numeric() as a simple parser: an optional sign, then digits with
    * at most one decimal point and at least one digit.
    */
  predicate IsNumeric(s: string)
  {
    var u := if |s| > 0 && (s[0] == '+' || s[0] == '-') then s[1..] else s;
    match SplitFirst('.', u)
    case None => |u| >= 1 && AllDigits(u)
    case Some(p) => AllDigits(p.0) && AllDigits(p.1) && |p.0| + |p.1| >= 1
  }

  // ---------------------------------------------------------------------
  // Ordered arrays

  /**
    * A PHP array with string keys: the keys in insertion order and the
    * value of each. Assigning to a key that exists keeps its position.
    */
  datatype PArray<V> = PArray(keys: seq<string>, vals: map<string, V>)
  {
    ghost predicate Valid()
    {
      && (forall i, j :: 0 <= i < j < |keys| ==> keys[i] != keys[j])
      && (forall k :: k in keys <==> k in vals)
    }

    /** `isset($a[$k])` / `array_key_exists($k, $a)`. */
    predicate Has(k: string)
    {
      k in vals
    }

    function Get(k: string): Option<V>
    {
      if k in vals then Some(vals[k]) else None
    }

    /** `$a[$k] ?? $default`. */
    function GetOr(k: string, default: V): V
    {
      if k in vals then vals[k] else default
    }

    function Count(): nat
    {
      |keys|
    }

    /** `foreach ($a as $k => $v)`: the pairs in key order. */
    function Entries(): (r: seq<(string, V)>)
      requires Valid()
      ensures |r| == |keys|
      ensures forall i :: 0 <= i < |r| ==> r[i] == (keys[i], vals[keys[i]])
    {
      seq(|keys|, i requires 0 <= i < |keys| => (keys[i], vals[keys[i]]))
    }

    /** `$a[$k] = $v`. */
    function Put(k: string, v: V): (r: PArray<V>)
      requires Valid()
      ensures r.Valid()
      ensures r.vals == vals[k := v]
      ensures k in vals ==> r.keys == keys
      ensures k !in vals ==> r.keys == keys + [k]
    {
      if k in vals then PArray(keys, vals[k := v]) else PArray(keys + [k], vals[k := v])
    }
  }

  /** Assigning a key twice is assigning it the second value. */
  lemma PutTwice<V>(a: PArray<V>, k: string, v1: V, v2: V)
    requires a.Valid()
    ensures a.Put(k, v1).Put(k, v2) == a.Put(k, v2)
  {
  }

  /** A prefix of an array's keys names entries of the array, each once. */
  lemma KeyPrefixValid<V>(a: PArray<V>, n: nat)
    requires a.Valid() && n <= |a.keys|
    ensures forall f :: f in a.keys[..n] ==> f in a.vals
    ensures forall i, j :: 0 <= i < j < |a.keys[..n]| ==> a.keys[..n][i] != a.keys[..n][j]
  {
  }

  function EmptyArray<V>(): (r: PArray<V>)
    ensures r.Valid() && r.keys == [] && r.vals == map[]
  {
    PArray([], map[])
  }

  /** The array built by assigning the pairs in order (later keys overwrite, first position stays). */
  function FromPairs<V>(pairs: seq<(string, V)>): (r: PArray<V>)
    ensures r.Valid()
  {
    if pairs == [] then EmptyArray()
    else FromPairs(pairs[..|pairs| - 1]).Put(pairs[|pairs| - 1].0, pairs[|pairs| - 1].1)
  }
}

=== FILE: shortcode.dfy ===
/**
  * The `[wp_table_manager]` shortcode: its attributes, the column
  * descriptors packed into the `fieldN` attributes, and the configuration
  * handed to the table renderer.
  *
  * A descriptor is a `;`-separated list of `key=value` segments. Each
  * segment is split at its first `=`, the key is trimmed of whitespace and
  * the value of spaces and quotes, and the pair is kept only when both are
  * truthy; a later segment with the same key overwrites an earlier one.
  */
module Shortcode {
  import opened Php

  /** A parsed column: its display name, display type, readonly flag text and, for the `query` type only, its query. */
  datatype Column = Column(displayName: string, displayType: string, readonly: string, query: Option<string>)

  /**
    * `preg_match('/^field\d+$/', $key)`. Without the D modifier `$` also
    * matches just before a final newline, so "field3\n" is a field key too.
    */
  predicate IsFieldKey(k: string)
  {
    && StartsWith(k, "field")
    && var rest := k[5..];
       var digits := if |rest| > 0 && rest[|rest| - 1] == '\n' then rest[..|rest| - 1] else rest;
       |digits| >= 1 && AllDigits(digits)
  }

  /** The characters a segment's value is trimmed of: `trim($v, " '\"")`. */
  const ValueTrim: set<char> := {' ', '\'', '"'}

  /** The pair one segment contributes, if any. */
  function SegmentPair(seg: string): (r: Option<(string, string)>)
    ensures r.Some? ==> Truthy(r.value.0) && Truthy(r.value.1)
  {
    match SplitFirst('=', seg)
    case None => None
    case Some(p) =>
      var k := Trim(p.0, PhpWhitespace);
      var v := Trim(p.1, ValueTrim);
      if Truthy(k) && Truthy(v) then Some((k, v)) else None
  }

  /** The pair each segment contributes, in order. */
  function SegmentPairs(segs: seq<string>): (ps: seq<Option<(string, string)>>)
    ensures |ps| == |segs|
    ensures forall j :: 0 <= j < |segs| ==> ps[j] == SegmentPair(segs[j])
  {
    if segs == [] then [] else SegmentPairs(segs[..|segs| - 1]) + [SegmentPair(segs[|segs| - 1])]
  }

  /** The `$col` array built by assigning the kept pairs in order. */
  function Assign(ps: seq<Option<(string, string)>>): (col: PArray<string>)
    ensures col.Valid()
  {
    if ps == [] then EmptyArray()
    else
      var col := Assign(ps[..|ps| - 1]);
      match ps[|ps| - 1]
      case None => col
      case Some(kv) => col.Put(kv.0, kv.1)
  }

  /** `!empty($col[$k])`. */
  predicate Filled(col: PArray<string>, k: string)
  {
    col.Has(k) && Truthy(col.vals[k])
  }

  /** A column parse_columns can produce: it names a field and a label, and only a `query` column carries a query. */
  predicate WellFormed(d: (string, Column))
  {
    && Truthy(d.0) && Truthy(d.1.displayName) && Truthy(d.1.displayType)
    && (d.1.query.Some? ==> d.1.displayType == "query")
  }

  /** The column (and its field name) a `$col` array describes, when it names a field, a label and a type. */
  function Descriptor(col: PArray<string>): (r: Option<(string, Column)>)
    ensures r.Some? <==> Filled(col, "fieldname") && Filled(col, "displayname") && Filled(col, "displaytype")
    ensures r.Some? ==> WellFormed(r.value)
  {
    if Filled(col, "fieldname") && Filled(col, "displayname") && Filled(col, "displaytype") then
      var ty := col.vals["displaytype"];
      Some((col.vals["fieldname"],
            Column(col.vals["displayname"], ty,
                   if col.Has("readonly") then col.vals["readonly"] else "false",
                   if ty == "query" && col.Has("query") then Some(col.vals["query"]) else None)))
    else None
  }

  /** What one `fieldN` attribute value describes. */
  function SpecOf(val: string): (r: Option<(string, Column)>)
    ensures r.Some? ==> WellFormed(r.value)
  {
    Descriptor(Assign(SegmentPairs(Explode(';', val))))
  }

  /** What the attribute `k` contributes: only `fieldN` attributes describe columns. */
  function DescriptorAt(k: string, vals: map<string, string>): (r: Option<(string, Column)>)
    requires k in vals
    ensures r.Some? ==> WellFormed(r.value)
  {
    if IsFieldKey(k) then SpecOf(vals[k]) else None
  }

  /** What each attribute contributes, in order. */
  function Descriptors(ks: seq<string>, vals: map<string, string>): (ds: seq<Option<(string, Column)>>)
    requires forall k :: k in ks ==> k in vals
    ensures |ds| == |ks|
    ensures forall j :: 0 <= j < |ks| ==> ds[j] == DescriptorAt(ks[j], vals)
  {
    seq(|ks|, j requires 0 <= j < |ks| => DescriptorAt(ks[j], vals))
  }

  /** The `$columns` array built from the descriptors in order. */
  function ColumnsFrom(ds: seq<Option<(string, Column)>>): (cols: PArray<Column>)
    ensures cols.Valid()
  {
    if ds == [] then EmptyArray()
    else
      var cols := ColumnsFrom(ds[..|ds| - 1]);
      match ds[|ds| - 1]
      case None => cols
      case Some(d) => cols.Put(d.0, d.1)
  }

  /** The columns parse_columns builds from the attributes `ks` (in order) with values `vals`. */
  function ColumnsOver(ks: seq<string>, vals: map<string, string>): PArray<Column>
    requires forall k :: k in ks ==> k in vals
  {
    ColumnsFrom(Descriptors(ks, vals))
  }

  /** One more attribute: the columns so far, with its descriptor (if any) assigned. */
  lemma ColumnsOverStep(ks: seq<string>, vals: map<string, string>)
    requires ks != [] && forall k :: k in ks ==> k in vals
    ensures ColumnsOver(ks, vals) == match DescriptorAt(ks[|ks| - 1], vals)
      case None => ColumnsOver(ks[..|ks| - 1], vals)
      case Some(d) => ColumnsOver(ks[..|ks| - 1], vals).Put(d.0, d.1)
  {
    var ds := Descriptors(ks, vals);
    assert ds[..|ds| - 1] == Descriptors(ks[..|ks| - 1], vals);
  }

  /** The inner loop of parse_columns: the `$col` array one attribute value's segments build. */
  method ParseSegments(segments: seq<string>) returns (col: PArray<string>)
    ensures col == Assign(SegmentPairs(segments))
  {
    ghost var ps := SegmentPairs(segments);
    col := EmptyArray();
    var j := 0;
    while j < |segments|
      invariant 0 <= j <= |segments|
      invariant col == Assign(ps[..j])
    {
      assert ps[..j + 1][..j] == ps[..j];
      var parts := SplitFirst('=', segments[j]);
      if parts.Some? {
        var k := Trim(parts.value.0, PhpWhitespace);
        var v := Trim(parts.value.1, ValueTrim);
        if Truthy(k) && Truthy(v) {
          col := col.Put(k, v);
        }
      }
      j := j + 1;
    }
    assert ps[..j] == ps;
  }

  /**
    * One attribute of parse_columns: a `fieldN` attribute whose segments fill
    * the three required keys adds (or replaces) its column; anything else
    * leaves the columns as they are.
    */
  method AddColumn(columns: PArray<Column>, key: string, vals: map<string, string>) returns (columns': PArray<Column>)
    requires columns.Valid() && key in vals
    ensures columns' == match DescriptorAt(key, vals)
      case None => columns
      case Some(d) => columns.Put(d.0, d.1)
  {
    columns' := columns;
    if IsFieldKey(key) {
      var col := ParseSegments(Explode(';', vals[key]));
      if Filled(col, "fieldname") && Filled(col, "displayname") && Filled(col, "displaytype") {
        var fieldname := col.vals["fieldname"];
        var entry := Column(col.vals["displayname"], col.vals["displaytype"],
                            if col.Has("readonly") then col.vals["readonly"] else "false", None);
        columns' := columns'.Put(fieldname, entry);
        if col.vals["displaytype"] == "query" && col.Has("query") {
          columns' := columns'.Put(fieldname, columns'.vals[fieldname].(query := Some(col.vals["query"])));
          PutTwice(columns, fieldname, entry, entry.(query := Some(col.vals["query"])));
        }
      }
    }
  }

  /** The columns built from the first n attributes of the array, attribute by attribute. */
  function ColumnsUpTo(atts: PArray<string>, n: nat): (cols: PArray<Column>)
    requires atts.Valid() && n <= |atts.keys|
    ensures cols.Valid()
  {
    if n == 0 then EmptyArray()
    else
      assert atts.keys[n - 1] in atts.keys;
      var cols := ColumnsUpTo(atts, n - 1);
      match DescriptorAt(atts.keys[n - 1], atts.vals)
      case None => cols
      case Some(d) => cols.Put(d.0, d.1)
  }

  /** Taking the attributes one by one builds the columns of that prefix of the attribute names. */
  lemma {:induction false} ColumnsUpToOver(atts: PArray<string>, n: nat)
    requires atts.Valid() && n <= |atts.keys|
    ensures forall k :: k in atts.keys[..n] ==> k in atts.vals
    ensures ColumnsUpTo(atts, n) == ColumnsOver(atts.keys[..n], atts.vals)
  {
    KeyPrefixValid(atts, n);
    if n > 0 {
      ColumnsUpToOver(atts, n - 1);
      var done := atts.keys[..n];
      assert done[..n - 1] == atts.keys[..n - 1] && done[n - 1] == atts.keys[n - 1];
      ColumnsOverStep(done, atts.vals);
    }
  }

  /** parse_columns: every `fieldN` attribute, in order, through its segments. */
  method ParseColumns(atts: PArray<string>) returns (columns: PArray<Column>)
    requires atts.Valid()
    ensures columns == ColumnsOver(atts.keys, atts.vals)
  {
    columns := EmptyArray();
    var i := 0;
    while i < |atts.keys|
      invariant 0 <= i <= |atts.keys|
      invariant columns == ColumnsUpTo(atts, i)
    {
      assert atts.keys[i] in atts.keys;
      columns := AddColumn(columns, atts.keys[i], atts.vals);
      i := i + 1;
    }
    ColumnsUpToOver(atts, i);
    assert atts.keys[..i] == atts.keys;
  }

  // -----------------------------------------------------------------------
  // Properties of descriptor parsing

  /** A segment is split at its first `=`: the value keeps any later `=`. */
  lemma SegmentSplitsAtFirstEquals(k: string, v: string)
    requires '=' !in k
    ensures SegmentPair(k + "=" + v) ==
      var k' := Trim(k, PhpWhitespace);
      var v' := Trim(v, ValueTrim);
      if Truthy(k') && Truthy(v') then Some((k', v')) else None
  {
    SplitFirstOf('=', k, v);
  }

  /** The value of a key is the one its last kept pair gave. */
  lemma {:induction false} AssignLastWins(ps: seq<Option<(string, string)>>, i: int, k: string, v: string)
    requires 0 <= i < |ps| && ps[i] == Some((k, v))
    requires forall j :: i < j < |ps| ==> ps[j].None? || ps[j].value.0 != k
    ensures Assign(ps).Get(k) == Some(v)
    decreases |ps|
  {
    if i < |ps| - 1 {
      AssignLastWins(ps[..|ps| - 1], i, k, v);
    }
  }

  /** A key no segment names is absent. */
  lemma {:induction false} AssignAbsent(ps: seq<Option<(string, string)>>, k: string)
    requires forall j :: 0 <= j < |ps| ==> ps[j].None? || ps[j].value.0 != k
    ensures !Assign(ps).Has(k)
    decreases |ps|
  {
    if ps != [] {
      AssignAbsent(ps[..|ps| - 1], k);
    }
  }

  // -----------------------------------------------------------------------
  // Properties of column parsing

  /** Every column parse_columns produces is well formed. */
  lemma {:induction false} ColumnsWellFormed(ds: seq<Option<(string, Column)>>)
    requires forall j :: 0 <= j < |ds| && ds[j].Some? ==> WellFormed(ds[j].value)
    ensures forall f :: f in ColumnsFrom(ds).vals ==> WellFormed((f, ColumnsFrom(ds).vals[f]))
    decreases |ds|
  {
    if ds != [] {
      ColumnsWellFormed(ds[..|ds| - 1]);
    }
  }

  /** A field's column is the one its last descriptor gave. */
  lemma {:induction false} ColumnsLastWins(ds: seq<Option<(string, Column)>>, i: int, f: string, c: Column)
    requires 0 <= i < |ds| && ds[i] == Some((f, c))
    requires forall j :: i < j < |ds| ==> ds[j].None? || ds[j].value.0 != f
    ensures ColumnsFrom(ds).Get(f) == Some(c)
    decreases |ds|
  {
    if i < |ds| - 1 {
      ColumnsLastWins(ds[..|ds| - 1], i, f, c);
    }
  }

  /** A field no descriptor names has no column. */
  lemma {:induction false} ColumnsAbsent(ds: seq<Option<(string, Column)>>, f: string)
    requires forall j :: 0 <= j < |ds| ==> ds[j].None? || ds[j].value.0 != f
    ensures !ColumnsFrom(ds).Has(f)
    decreases |ds|
  {
    if ds != [] {
      ColumnsAbsent(ds[..|ds| - 1], f);
    }
  }

  /** Columns keep the position of their first descriptor: later attributes only append. */
  lemma {:induction false} ColumnsKeepPosition(ds: seq<Option<(string, Column)>>, n: int)
    requires 0 <= n <= |ds|
    ensures
      var before := ColumnsFrom(ds[..n]).keys;
      |before| <= |ColumnsFrom(ds).keys| && ColumnsFrom(ds).keys[..|before|] == before
    decreases |ds|
  {
    if n < |ds| {
      var init := ds[..|ds| - 1];
      assert init[..n] == ds[..n];
      ColumnsKeepPosition(init, n);
    } else {
      assert ds[..n] == ds;
    }
  }

  /** An attribute that describes no column (not a field key, or no field name, label or type) is skipped without effect. */
  lemma {:induction false} ColumnsSkipInvalid(ds1: seq<Option<(string, Column)>>, ds2: seq<Option<(string, Column)>>)
    ensures ColumnsFrom(ds1 + [None] + ds2) == ColumnsFrom(ds1 + ds2)
    decreases |ds2|
  {
    if ds2 == [] {
      assert (ds1 + [None] + ds2)[..|ds1|] == ds1;
      assert ds1 + ds2 == ds1;
    } else {
      var init := ds2[..|ds2| - 1];
      ColumnsSkipInvalid(ds1, init);
      assert (ds1 + [None] + ds2)[..|ds1 + [None] + ds2| - 1] == ds1 + [None] + init;
      assert (ds1 + ds2)[..|ds1 + ds2| - 1] == ds1 + init;
    }
  }

  /** The attributes that are field keys, in order. */
  function FieldKeys(ks: seq<string>): (r: seq<string>)
    ensures forall k :: k in r <==> k in ks && IsFieldKey(k)
  {
    if ks == [] then []
    else FieldKeys(ks[..|ks| - 1]) + (if IsFieldKey(ks[|ks| - 1]) then [ks[|ks| - 1]] else [])
  }

  /** Only field attributes matter, and only their values. */
  lemma {:induction false} ColumnsOnlyFieldAttributes(ks: seq<string>, vals: map<string, string>, vals': map<string, string>)
    requires forall k :: k in ks ==> k in vals
    requires forall k :: k in ks && IsFieldKey(k) ==> k in vals' && vals'[k] == vals[k]
    ensures ColumnsOver(ks, vals) == ColumnsOver(FieldKeys(ks), vals')
    decreases |ks|
  {
    if ks != [] {
      var init := ks[..|ks| - 1];
      var k := ks[|ks| - 1];
      ColumnsOnlyFieldAttributes(init, vals, vals');
      ColumnsOverStep(ks, vals);
      if IsFieldKey(k) {
        var fk := FieldKeys(ks);
        assert fk[..|fk| - 1] == FieldKeys(init);
        assert DescriptorAt(k, vals) == DescriptorAt(k, vals');
        ColumnsOverStep(fk, vals');
      } else {
        assert FieldKeys(ks) == FieldKeys(init);
      }
    }
  }

  // -----------------------------------------------------------------------
  // handle_shortcode

  /** The display flags, lower-cased. A section is hidden only by "false". */
  datatype Flags = Flags(recordsCount: string, form: string, table: string, search: string,
                         pagination: string, edit: string, delete: string, actions: string)

  datatype Config = Config(tableName: string, primaryKey: string, columns: PArray<Column>,
                           pagination: int, flags: Flags)

  datatype Outcome = NoValidFields | NoTableSpecified | Render(config: Config)

  /** The declared attributes and their defaults, in order. */
  const DefaultKeys: seq<string> := ["pagination", "table_view", "showrecordscount", "showform", "showtable",
                                     "showsearch", "showpagination", "showedit", "showdelete", "showactions"]

  function DefaultValue(k: string): string
  {
    if k == "pagination" then "5" else if k == "table_view" then "" else "true"
  }

  /** get_primary_key: the first column of the table's PRIMARY key, or "id" when none is reported. */
  function PrimaryKeyOf(keyColumns: seq<string>): string
  {
    if keyColumns == [] then "id" else keyColumns[0]
  }

  /**
    * shortcode_atts($pairs, $atts): exactly the declared keys, in declared
    * order, each with the given attribute when there is one.
    */
  function ShortcodeAtts(pairs: PArray<string>, atts: PArray<string>): (r: PArray<string>)
    requires pairs.Valid()
    ensures r.Valid() && r.keys == pairs.keys
    ensures forall k :: k in r.vals ==> r.vals[k] == atts.GetOr(k, pairs.vals[k])
  {
    PArray(pairs.keys, map k | k in pairs.vals :: atts.GetOr(k, pairs.vals[k]))
  }

  lemma DefaultsValid()
    ensures PArray(DefaultKeys, map k | k in DefaultKeys :: DefaultValue(k)).Valid()
  {
    forall i, j | 0 <= i < j < |DefaultKeys|
      ensures DefaultKeys[i] != DefaultKeys[j]
    {
      assert DefaultKeys[i][..5] != DefaultKeys[j][..5] || DefaultKeys[i][5..] != DefaultKeys[j][5..];
    }
  }

  lemma DefaultKeysNotFieldKeys()
    ensures forall k :: k in DefaultKeys ==> !IsFieldKey(k)
  {
    forall k | k in DefaultKeys
      ensures !IsFieldKey(k)
    {
      assert k[0] != 'f' && "field"[0] == 'f';
    }
  }

  /** The initial defaults of handle_shortcode. */
  function Defaults(): (d: PArray<string>)
    ensures d.Valid() && d.keys == DefaultKeys
  {
    DefaultsValid();
    PArray(DefaultKeys, map k | k in DefaultKeys :: DefaultValue(k))
  }

  /** The declared attributes after the attributes `ks`: every `fieldN` among them is declared empty. */
  function Declaration(ks: seq<string>): (d: PArray<string>)
    ensures d.Valid()
  {
    if ks == [] then Defaults()
    else
      var d := Declaration(ks[..|ks| - 1]);
      if IsFieldKey(ks[|ks| - 1]) then d.Put(ks[|ks| - 1], "") else d
  }

  /** The first loop of handle_shortcode. */
  method DeclareAttributes(atts: PArray<string>) returns (defaults: PArray<string>)
    requires atts.Valid()
    ensures defaults == Declaration(atts.keys)
  {
    defaults := Defaults();
    var i := 0;
    while i < |atts.keys|
      invariant 0 <= i <= |atts.keys|
      invariant defaults == Declaration(atts.keys[..i])
    {
      assert atts.keys[..i + 1][..i] == atts.keys[..i];
      var key := atts.keys[i];
      if IsFieldKey(key) {
        defaults := defaults.Put(key, "");
      }
      i := i + 1;
    }
    assert atts.keys[..i] == atts.keys;
  }

  /**
    * Declaring distinct attributes keeps the ten defaults first, with their
    * default values, and appends the `fieldN` attributes in order.
    */
  lemma {:induction false} DeclarationShape(ks: seq<string>)
    requires forall i, j :: 0 <= i < j < |ks| ==> ks[i] != ks[j]
    ensures Declaration(ks).keys == DefaultKeys + FieldKeys(ks)
    ensures forall i :: 0 <= i < |DefaultKeys| ==>
      Declaration(ks).vals[DefaultKeys[i]] == DefaultValue(DefaultKeys[i])
    decreases |ks|
  {
    if ks != [] {
      var init := ks[..|ks| - 1];
      var k := ks[|ks| - 1];
      DeclarationShape(init);
      if IsFieldKey(k) {
        DefaultKeysNotFieldKeys();
        assert k !in DefaultKeys;
        assert k !in FieldKeys(init);
      }
    }
  }

  /** The i-th declared attribute is in the merged array, with the given value or its default. */
  lemma DeclaredKey(atts: PArray<string>, m: PArray<string>, rest: seq<string>, i: nat)
    requires m.Valid() && m.keys == DefaultKeys + rest
    requires forall i :: 0 <= i < |DefaultKeys| ==>
      m.vals[DefaultKeys[i]] == atts.GetOr(DefaultKeys[i], DefaultValue(DefaultKeys[i]))
    requires i < |DefaultKeys|
    ensures DefaultKeys[i] in m.vals && m.vals[DefaultKeys[i]] == atts.GetOr(DefaultKeys[i], DefaultValue(DefaultKeys[i]))
  {
    assert m.keys[i] == DefaultKeys[i];
  }

  /** The declared attributes are all present in the merged array, with the given value or their default. */
  lemma DeclaredTable(atts: PArray<string>, m: PArray<string>, rest: seq<string>)
    requires m.Valid() && m.keys == DefaultKeys + rest
    requires forall i :: 0 <= i < |DefaultKeys| ==>
      m.vals[DefaultKeys[i]] == atts.GetOr(DefaultKeys[i], DefaultValue(DefaultKeys[i]))
    ensures "pagination" in m.vals && m.vals["pagination"] == atts.GetOr("pagination", "5")
    ensures "table_view" in m.vals && m.vals["table_view"] == atts.GetOr("table_view", "")
    ensures "showrecordscount" in m.vals && m.vals["showrecordscount"] == atts.GetOr("showrecordscount", "true")
  {
    assert DefaultKeys[0] == "pagination" && DefaultValue("pagination") == "5";
    assert DefaultKeys[1] == "table_view" && DefaultValue("table_view") == "";
    assert DefaultKeys[2] == "showrecordscount" && DefaultValue("showrecordscount") == "true";
    DeclaredKey(atts, m, rest, 0);
    DeclaredKey(atts, m, rest, 1);
    DeclaredKey(atts, m, rest, 2);
  }

  lemma DeclaredSections(atts: PArray<string>, m: PArray<string>, rest: seq<string>)
    requires m.Valid() && m.keys == DefaultKeys + rest
    requires forall i :: 0 <= i < |DefaultKeys| ==>
      m.vals[DefaultKeys[i]] == atts.GetOr(DefaultKeys[i], DefaultValue(DefaultKeys[i]))
    ensures "showform" in m.vals && m.vals["showform"] == atts.GetOr("showform", "true")
    ensures "showtable" in m.vals && m.vals["showtable"] == atts.GetOr("showtable", "true")
    ensures "showsearch" in m.vals && m.vals["showsearch"] == atts.GetOr("showsearch", "true")
  {
    DeclaredKey(atts, m, rest, 3);
    DeclaredKey(atts, m, rest, 4);
    DeclaredKey(atts, m, rest, 5);
  }

  lemma DeclaredActions(atts: PArray<string>, m: PArray<string>, rest: seq<string>)
    requires m.Valid() && m.keys == DefaultKeys + rest
    requires forall i :: 0 <= i < |DefaultKeys| ==>
      m.vals[DefaultKeys[i]] == atts.GetOr(DefaultKeys[i], DefaultValue(DefaultKeys[i]))
    ensures "showpagination" in m.vals && m.vals["showpagination"] == atts.GetOr("showpagination", "true")
    ensures "showedit" in m.vals && m.vals["showedit"] == atts.GetOr("showedit", "true")
    ensures "showdelete" in m.vals && m.vals["showdelete"] == atts.GetOr("showdelete", "true")
    ensures "showactions" in m.vals && m.vals["showactions"] == atts.GetOr("showactions", "true")
  {
    DeclaredKey(atts, m, rest, 6);
    DeclaredKey(atts, m, rest, 7);
    DeclaredKey(atts, m, rest, 8);
    DeclaredKey(atts, m, rest, 9);
  }

  /**
    * handle_shortcode: declares every `fieldN` attribute, merges the
    * attributes with the defaults, parses the columns and, when there are
    * columns and a table, builds the renderer configuration.
    * `keyColumns` is what `SHOW KEYS ... WHERE Key_name = 'PRIMARY'` reports for a table.
    */
  method HandleShortcode(atts: PArray<string>, keyColumns: string -> seq<string>) returns (out: Outcome)
    requires atts.Valid()
    ensures out.NoValidFields? <==> ColumnsOver(atts.keys, atts.vals).keys == []
    ensures out.NoTableSpecified? <==>
      ColumnsOver(atts.keys, atts.vals).keys != [] && !Truthy(atts.GetOr("table_view", ""))
    ensures out.Render? ==>
      var table := atts.GetOr("table_view", "");
      && out.config.tableName == table
      && out.config.primaryKey == PrimaryKeyOf(keyColumns(table))
      && out.config.columns == ColumnsOver(atts.keys, atts.vals)
      && out.config.pagination == IntVal(atts.GetOr("pagination", "5"))
      && out.config.flags == Flags(Lower(atts.GetOr("showrecordscount", "true")), Lower(atts.GetOr("showform", "true")),
                                   Lower(atts.GetOr("showtable", "true")), Lower(atts.GetOr("showsearch", "true")),
                                   Lower(atts.GetOr("showpagination", "true")), Lower(atts.GetOr("showedit", "true")),
                                   Lower(atts.GetOr("showdelete", "true")), Lower(atts.GetOr("showactions", "true")))
  {
    var defaults := DeclareAttributes(atts);
    DeclarationShape(atts.keys);
    var merged := ShortcodeAtts(defaults, atts);
    MergedKeepsFields(atts, defaults, merged);
    DeclaredTable(atts, merged, FieldKeys(atts.keys));
    DeclaredSections(atts, merged, FieldKeys(atts.keys));
    DeclaredActions(atts, merged, FieldKeys(atts.keys));
    var columns := ParseColumns(merged);
    if columns.keys == [] {
      out := NoValidFields;
    } else if !Truthy(merged.vals["table_view"]) {
      out := NoTableSpecified;
    } else {
      var table := merged.vals["table_view"];
      out := Render(Config(table, PrimaryKeyOf(keyColumns(table)), columns, IntVal(merged.vals["pagination"]),
                           Flags(Lower(merged.vals["showrecordscount"]), Lower(merged.vals["showform"]),
                                 Lower(merged.vals["showtable"]), Lower(merged.vals["showsearch"]),
                                 Lower(merged.vals["showpagination"]), Lower(merged.vals["showedit"]),
                                 Lower(merged.vals["showdelete"]), Lower(merged.vals["showactions"]))));
    }
  }

  /**
    * Declaring the `fieldN` attributes before shortcode_atts means every
    * one of them reaches parse_columns unchanged: the merged attributes
    * describe the same columns as the attributes given, and every
    * declared attribute takes the given value or its default.
    */
  lemma MergedKeepsFields(atts: PArray<string>, defaults: PArray<string>, merged: PArray<string>)
    requires atts.Valid() && defaults.Valid()
    requires defaults.keys == DefaultKeys + FieldKeys(atts.keys)
    requires forall i :: 0 <= i < |DefaultKeys| ==> defaults.vals[DefaultKeys[i]] == DefaultValue(DefaultKeys[i])
    requires merged == ShortcodeAtts(defaults, atts)
    ensures ColumnsOver(merged.keys, merged.vals) == ColumnsOver(atts.keys, atts.vals)
    ensures forall i :: 0 <= i < |DefaultKeys| ==>
      merged.vals[DefaultKeys[i]] == atts.GetOr(DefaultKeys[i], DefaultValue(DefaultKeys[i]))
  {
    DefaultKeysNotFieldKeys();
    forall k | k in merged.keys && IsFieldKey(k)
      ensures k in atts.vals && atts.vals[k] == merged.vals[k]
    {
      assert k !in DefaultKeys;
    }
    ColumnsOnlyFieldAttributes(merged.keys, merged.vals, atts.vals);
    ColumnsOnlyFieldAttributes(atts.keys, atts.vals, atts.vals);
    FieldKeysAfterNonField(DefaultKeys, FieldKeys(atts.keys));
  }

  lemma {:induction false} FieldKeysAfterNonField(pre: seq<string>, fks: seq<string>)
    requires forall k :: k in pre ==> !IsFieldKey(k)
    requires forall k :: k in fks ==> IsFieldKey(k)
    ensures FieldKeys(pre + fks) == fks
    decreases |fks|
  {
    if fks == [] {
      FieldKeysNone(pre);
      assert pre + fks == pre;
    } else {
      var init, last := fks[..|fks| - 1], fks[|fks| - 1];
      assert fks == init + [last];
      var ks := pre + fks;
      assert ks[..|ks| - 1] == pre + init;
      assert ks[|ks| - 1] == last;
      FieldKeysAfterNonField(pre, init);
      FieldKeysSnoc(ks);
    }
  }

  lemma FieldKeysSnoc(ks: seq<string>)
    requires ks != []
    ensures FieldKeys(ks) == FieldKeys(ks[..|ks| - 1]) + (if IsFieldKey(ks[|ks| - 1]) then [ks[|ks| - 1]] else [])
  {
  }

  lemma {:induction false} FieldKeysNone(ks: seq<string>)
    requires forall k :: k in ks ==> !IsFieldKey(k)
    ensures FieldKeys(ks) == []
    decreases |ks|
  {
    if ks != [] {
      FieldKeysNone(ks[..|ks| - 1]);
    }
  }
}

=== FILE: store.dfy ===
/**
  * The database as the plugin sees it through $wpdb: the tables that
  * exist, the rows of the table a request works on, and every statement
  * the plugin has sent. Whether the database accepts a statement, and the
  * error it reports when it does not, are left to the database and are
  * given as functions.
  */
module Store {
  import opened Php

  /** A row as `$wpdb` returns it: column name to value (a NULL column is absent). */
  type Row = map<string, string>

  /** The placeholder $wpdb->insert/update binds a value with. */
  datatype Format = FloatFormat | IntFormat | StringFormat // %f, %d, %s

  datatype Statement =
    | Insert(table: string, data: PArray<string>, formats: seq<Format>)
    | Update(table: string, data: PArray<string>, formats: seq<Format>, keyColumn: string, id: int)
    | Delete(table: string, keyColumn: string, id: int)
    | CreateTable(table: string, sql: string)   // the CREATE TABLE text handed to dbDelta
    | Alter(table: string, sql: string)         // an ALTER TABLE text run by $wpdb->query
    | DropTable(table: string)

  /** One answer row of `SHOW COLUMNS`: Field, Type, Null ("YES"/"NO"), Key ("PRI", ...), Default, Extra. */
  datatype ColumnInfo = ColumnInfo(field: string, sqlType: string, nullable: string, key: string,
                                   default: Option<string>, extra: string)

  datatype DbState = DbState(tables: set<string>, records: map<int, Row>, nextId: int)

  /** Query results, as functions of the query text (reads never change the state). */
  datatype Reads = Reads(
    getVar: string -> nat,                            // $wpdb->get_var of a COUNT(*) query
    getResults: string -> seq<Row>,                   // $wpdb->get_results(..., ARRAY_A)
    getRow: string -> Option<Row>,                    // $wpdb->get_row(..., ARRAY_A)
    getPositional: string -> seq<seq<Option<string>>>) // get_results(..., ARRAY_A) read by position

  /**
    * The effect of a statement the database accepted, on the tables that
    * exist and on the rows of the tracked table (whose key column is `key`).
    */
  function Apply(st: DbState, table: string, key: string, s: Statement): (r: DbState)
    ensures s.Insert? && s.table == table ==> r.records == st.records[st.nextId := s.data.vals]
    ensures s.Delete? && s.table == table && s.keyColumn == key ==> s.id !in r.records
    ensures (s.Insert? || s.Update? || s.Delete?) ==> r.tables == st.tables
    ensures s.CreateTable? ==> r.tables == st.tables + {s.table}
    ensures s.DropTable? ==> s.table !in r.tables
    ensures s.Alter? ==> r == st
  {
    match s
    case Insert(t, data, _) =>
      if t == table then DbState(st.tables, st.records[st.nextId := data.vals], st.nextId + 1) else st
    case Update(t, data, _, k, id) =>
      if t == table && k == key && id in st.records
      then DbState(st.tables, st.records[id := st.records[id] + data.vals], st.nextId)
      else st
    case Delete(t, k, id) =>
      if t == table && k == key then DbState(st.tables, st.records - {id}, st.nextId) else st
    case CreateTable(t, _) => DbState(st.tables + {t}, st.records, st.nextId)
    case Alter(_, _) => st
    case DropTable(t) =>
      DbState(st.tables - {t}, if t == table then map[] else st.records, st.nextId)
  }

  class Database {
    /** The table whose rows the model tracks, and its key column. */
    const table: string
    const key: string
    /** Whether the database accepts a statement, and `$wpdb->last_error` when it does not. */
    const accepts: Statement -> bool
    const errorOf: Statement -> string

    var state: DbState
    /** Every statement sent, accepted or not. */
    ghost var log: seq<Statement>

    constructor (table: string, key: string, accepts: Statement -> bool, errorOf: Statement -> string, init: DbState)
      ensures this.table == table && this.key == key
      ensures this.accepts == accepts && this.errorOf == errorOf
      ensures state == init && log == []
    {
      this.table := table;
      this.key := key;
      this.accepts := accepts;
      this.errorOf := errorOf;
      state := init;
      log := [];
    }

    /** `SHOW TABLES LIKE %s` answered with the name itself. */
    predicate TableExists(name: string)
      reads this
    {
      name in state.tables
    }

    /** Sends one statement; the state changes only when the database accepts it. */
    method Run(s: Statement) returns (ok: bool, err: string)
      modifies this
      ensures log == old(log) + [s]
      ensures ok == accepts(s)
      ensures state == if ok then Apply(old(state), table, key, s) else old(state)
      ensures !ok ==> err == errorOf(s)
    {
      log := log + [s];
      ok := accepts(s);
      if ok {
        state := Apply(state, table, key, s);
        err := "";
      } else {
        err := errorOf(s);
      }
    }
  }
}

=== FILE: table_crud.dfy ===
/**
  * Table_Manager::render_table: the request pipeline of the frontend CRUD
  * table. In order it handles a nonce-checked delete link, a submitted
  * data form (coerced values, one placeholder format per value, the
  * required-field check, then an update or an insert), a nonce-checked
  * edit link, and finally the listing: search, sort, page, the COUNT
  * query and the templates. Every write ends in a redirect; a request
  * that writes nothing renders the page.
  */
module TableCrud {
  import opened Php
  import opened WordPress
  import opened Store
  import opened Shortcode
  import opened TableRows
  import opened Views

  const SelectAll := "SELECT *"
  const SelectCount := "SELECT COUNT(*)"

  /** Rows per page: the configured pagination when positive, else 5. */
  function PerPage(pagination: int): (n: int)
    ensures n > 0
    ensures pagination > 0 ==> n == pagination
    ensures pagination <= 0 ==> n == 5
  {
    if pagination > 0 then pagination else 5
  }

  // -----------------------------------------------------------------------
  // The submitted data form

  /** A submitted value, sanitised by its column's display type; a number that is not numeric becomes "". */
  function Coerce(env: Env, displayType: string, raw: string): (v: string)
    ensures displayType == "number" ==> v == (if IsNumeric(raw) then raw else "")
  {
    if displayType == "textarea" then env.sanitizeTextarea(raw)
    else if displayType == "email" then env.sanitizeEmail(raw)
    else if displayType == "url" then env.escUrlRaw(raw)
    else if displayType == "number" then (if IsNumeric(raw) then raw else "")
    else env.sanitizeText(raw)
  }

  /**
    * The placeholder a value is bound with: %f for a number holding '.', %d
    * for other numbers, %s otherwise (`strpos($value, '.')` with a
    * one-character needle is membership, Php.ContainsChar).
    */
  function FormatOf(displayType: string, value: string): Format
  {
    if displayType == "number" then (if '.' in value then FloatFormat else IntFormat)
    else StringFormat
  }

  /** An optional sign followed by at least one digit. */
  predicate IntegerText(s: string)
  {
    var u := if |s| > 0 && (s[0] == '+' || s[0] == '-') then s[1..] else s;
    |u| >= 1 && AllDigits(u)
  }

  /**
    * Only number columns get a numeric placeholder; %d only ever binds an
    * integer text or "", and %f a numeric text with a decimal point.
    */
  lemma NumericFormats(env: Env, displayType: string, raw: string)
    ensures var v := Coerce(env, displayType, raw);
      var f := FormatOf(displayType, v);
      && (f != StringFormat <==> displayType == "number")
      && (f == IntFormat ==> v == "" || IntegerText(v))
      && (f == FloatFormat ==> IsNumeric(v) && '.' in v)
  {
    var v := Coerce(env, displayType, raw);
    ContainsChar(v, '.');
  }

  /** The fields that were posted, in column order. */
  function PostedFields(fields: seq<string>, post: map<string, string>): (r: seq<string>)
    ensures forall f :: f in r <==> f in fields && f in post
    ensures (forall i, j :: 0 <= i < j < |fields| ==> fields[i] != fields[j]) ==>
              (forall i, j :: 0 <= i < j < |r| ==> r[i] != r[j])
  {
    if fields == [] then []
    else
      var f := fields[|fields| - 1];
      PostedFields(fields[..|fields| - 1], post) + (if f in post then [f] else [])
  }

  /** What the submission loop gathers: $data, $format and $has_error. */
  datatype Submission = Submission(data: PArray<string>, formats: seq<Format>, hasError: bool)

  /**
    * The submission loop over the given columns: an absent field is
    * skipped; a posted one is coerced, gets its placeholder, and flags the
    * error when it is "" in a column that is not read-only.
    */
  function SubmissionOf(env: Env, columns: PArray<Column>, post: map<string, string>, fields: seq<string>): (s: Submission)
    requires forall f :: f in fields ==> f in columns.vals
    requires forall i, j :: 0 <= i < j < |fields| ==> fields[i] != fields[j]
    ensures s.data.Valid() && s.data.keys == PostedFields(fields, post)
    ensures |s.formats| == |s.data.keys|
    decreases |fields|
  {
    if fields == [] then Submission(EmptyArray(), [], false)
    else
      var init := fields[..|fields| - 1];
      var f := fields[|fields| - 1];
      Gather(env, columns, post, SubmissionOf(env, columns, post, init), f)
  }

  lemma SubmissionOfStep(env: Env, columns: PArray<Column>, post: map<string, string>, fields: seq<string>)
    requires fields != []
    requires forall f :: f in fields ==> f in columns.vals
    requires forall i, j :: 0 <= i < j < |fields| ==> fields[i] != fields[j]
    ensures SubmissionOf(env, columns, post, fields) ==
      Gather(env, columns, post, SubmissionOf(env, columns, post, fields[..|fields| - 1]), fields[|fields| - 1])
  {
  }

  /** One column of the submission loop: skipped when not posted, else coerced, given its placeholder, and checked. */
  function Gather(env: Env, columns: PArray<Column>, post: map<string, string>, s: Submission, f: string): Submission
    requires f in columns.vals && s.data.Valid()
  {
    if f !in post then s
    else
      var meta := columns.vals[f];
      var v := Coerce(env, meta.displayType, post[f]);
      Submission(s.data.Put(f, v), s.formats + [FormatOf(meta.displayType, v)],
                 s.hasError || (v == "" && meta.readonly != "true"))
  }

  /** Every gathered value is the coerced posted value of its field. */
  lemma {:induction false} SubmissionValues(env: Env, columns: PArray<Column>, post: map<string, string>, fields: seq<string>)
    requires forall f :: f in fields ==> f in columns.vals
    requires forall i, j :: 0 <= i < j < |fields| ==> fields[i] != fields[j]
    ensures var s := SubmissionOf(env, columns, post, fields);
      forall k :: k in s.data.vals ==> k in post && s.data.vals[k] == Coerce(env, columns.vals[k].displayType, post[k])
    decreases |fields|
  {
    if fields != [] {
      var init, f := fields[..|fields| - 1], fields[|fields| - 1];
      SubmissionValues(env, columns, post, init);
      SubmissionOfStep(env, columns, post, fields);
      var s := SubmissionOf(env, columns, post, init);
      if f in post {
        assert SubmissionOf(env, columns, post, fields).data.vals ==
          s.data.vals[f := Coerce(env, columns.vals[f].displayType, post[f])];
      } else {
        assert SubmissionOf(env, columns, post, fields) == s;
      }
    }
  }

  /** Format i is the placeholder of value i, so $wpdb binds every value with its own column's format. */
  predicate FormatsAlign(columns: PArray<Column>, s: Submission)
  {
    && |s.formats| == |s.data.keys|
    && forall i :: 0 <= i < |s.formats| ==>
         s.data.keys[i] in columns.vals && s.data.keys[i] in s.data.vals &&
         s.formats[i] == FormatOf(columns.vals[s.data.keys[i]].displayType, s.data.vals[s.data.keys[i]])
  }

  lemma FormatsAlignExtend(columns: PArray<Column>, s: Submission, f: string, v: string, err: bool)
    requires s.data.Valid() && FormatsAlign(columns, s) && f !in s.data.vals && f in columns.vals
    ensures FormatsAlign(columns, Submission(s.data.Put(f, v), s.formats + [FormatOf(columns.vals[f].displayType, v)], err))
  {
    var s' := Submission(s.data.Put(f, v), s.formats + [FormatOf(columns.vals[f].displayType, v)], err);
    forall i | 0 <= i < |s.formats|
      ensures s'.data.keys[i] in columns.vals && s'.data.keys[i] in s'.data.vals
      ensures s'.formats[i] == FormatOf(columns.vals[s'.data.keys[i]].displayType, s'.data.vals[s'.data.keys[i]])
    {
      assert s'.data.keys[i] == s.data.keys[i];
    }
  }

  /** The i-th format is the placeholder of the i-th gathered value. */
  lemma {:induction false} SubmissionFormats(env: Env, columns: PArray<Column>, post: map<string, string>, fields: seq<string>)
    requires forall f :: f in fields ==> f in columns.vals
    requires forall i, j :: 0 <= i < j < |fields| ==> fields[i] != fields[j]
    ensures FormatsAlign(columns, SubmissionOf(env, columns, post, fields))
    decreases |fields|
  {
    if fields != [] {
      var init := fields[..|fields| - 1];
      var f := fields[|fields| - 1];
      SubmissionFormats(env, columns, post, init);
      if f in post {
        var s := SubmissionOf(env, columns, post, init);
        var v := Coerce(env, columns.vals[f].displayType, post[f]);
        assert f !in init;
        FormatsAlignExtend(columns, s, f, v, s.hasError || (v == "" && columns.vals[f].readonly != "true"));
      }
    }
  }

  /** The submission is rejected exactly when some gathered value is "" in a column that is not read-only. */
  lemma {:induction false} SubmissionError(env: Env, columns: PArray<Column>, post: map<string, string>, fields: seq<string>)
    requires forall f :: f in fields ==> f in columns.vals
    requires forall i, j :: 0 <= i < j < |fields| ==> fields[i] != fields[j]
    ensures var s := SubmissionOf(env, columns, post, fields);
      s.hasError <==> exists k :: k in s.data.vals && s.data.vals[k] == "" && columns.vals[k].readonly != "true"
    decreases |fields|
  {
    if fields != [] {
      var init := fields[..|fields| - 1];
      var f := fields[|fields| - 1];
      SubmissionError(env, columns, post, init);
      if f in post {
        assert f !in init;
        var s := SubmissionOf(env, columns, post, init);
        var v := Coerce(env, columns.vals[f].displayType, post[f]);
        assert SubmissionOf(env, columns, post, fields).data.vals == s.data.vals[f := v];
      }
    }
  }

  /** The body of render_table's submission loop, for one column. */
  method GatherField(env: Env, columns: PArray<Column>, post: map<string, string>,
                     data: PArray<string>, formats: seq<Format>, hasError: bool, field: string)
    returns (data': PArray<string>, formats': seq<Format>, hasError': bool)
    requires field in columns.vals && data.Valid()
    ensures Submission(data', formats', hasError') == Gather(env, columns, post, Submission(data, formats, hasError), field)
  {
    data', formats', hasError' := data, formats, hasError;
    if field in post {
      var raw := post[field];
      var meta := columns.vals[field];
      var value: string;
      if meta.displayType == "textarea" {
        value := env.sanitizeTextarea(raw);
      } else if meta.displayType == "email" {
        value := env.sanitizeEmail(raw);
      } else if meta.displayType == "url" {
        value := env.escUrlRaw(raw);
      } else if meta.displayType == "number" {
        value := if IsNumeric(raw) then raw else "";
      } else {
        value := env.sanitizeText(raw);
      }
      data' := data'.Put(field, value);
      if meta.displayType == "number" {
        formats' := formats' + [if '.' in value then FloatFormat else IntFormat];
      } else {
        formats' := formats' + [StringFormat];
      }
      if value == "" && meta.readonly != "true" {
        hasError' := true;
      }
    }
  }

  /** The submission gathered from the first n columns of the array, column by column. */
  function SubmissionUpTo(env: Env, columns: PArray<Column>, post: map<string, string>, n: nat): (s: Submission)
    requires columns.Valid() && n <= |columns.keys|
    ensures s.data.Valid()
  {
    if n == 0 then Submission(EmptyArray(), [], false)
    else
      assert columns.keys[n - 1] in columns.keys;
      Gather(env, columns, post, SubmissionUpTo(env, columns, post, n - 1), columns.keys[n - 1])
  }

  /** Gathering the first n columns one by one is the submission of that prefix of the column names. */
  lemma {:induction false} SubmissionUpToPrefix(env: Env, columns: PArray<Column>, post: map<string, string>, n: nat)
    requires columns.Valid() && n <= |columns.keys|
    ensures forall f :: f in columns.keys[..n] ==> f in columns.vals
    ensures forall i, j :: 0 <= i < j < |columns.keys[..n]| ==> columns.keys[..n][i] != columns.keys[..n][j]
    ensures SubmissionUpTo(env, columns, post, n) == SubmissionOf(env, columns, post, columns.keys[..n])
  {
    KeyPrefixValid(columns, n);
    if n > 0 {
      SubmissionUpToPrefix(env, columns, post, n - 1);
      var done := columns.keys[..n];
      assert done[..n - 1] == columns.keys[..n - 1] && done[n - 1] == columns.keys[n - 1];
      SubmissionOfStep(env, columns, post, done);
    }
  }

  /** render_table's submission loop. */
  method CollectSubmission(env: Env, columns: PArray<Column>, post: map<string, string>)
    returns (data: PArray<string>, formats: seq<Format>, hasError: bool)
    requires columns.Valid()
    ensures Submission(data, formats, hasError) == SubmissionOf(env, columns, post, columns.keys)
  {
    data := EmptyArray();
    formats := [];
    hasError := false;
    var i := 0;
    while i < |columns.keys|
      invariant 0 <= i <= |columns.keys|
      invariant Submission(data, formats, hasError) == SubmissionUpTo(env, columns, post, i)
    {
      assert columns.keys[i] in columns.keys;
      data, formats, hasError := GatherField(env, columns, post, data, formats, hasError, columns.keys[i]);
      i := i + 1;
    }
    SubmissionUpToPrefix(env, columns, post, i);
    assert columns.keys[..i] == columns.keys;
  }

  // -----------------------------------------------------------------------
  // What a request does

  /**
    * A nonce-checked link action (`delete_record` or `edit_record`): the
    * record id as intval reads it, when the `_wpnonce` parameter verifies
    * for the action named after that id.
    */
  function RequestedId(env: Env, get: PArray<string>, action: string): (r: Option<int>)
    ensures r.Some? ==> get.Has(action) && r.value == IntVal(get.vals[action])
    ensures r.Some? <==>
      get.Has(action) && get.Has("_wpnonce") && NonceOk(env, Some(get.vals["_wpnonce"]), action + "_" + IntToString(IntVal(get.vals[action])))
  {
    if get.Has(action) && get.Has("_wpnonce") then
      var id := IntVal(get.vals[action]);
      if NonceOk(env, Some(get.vals["_wpnonce"]), action + "_" + IntToString(id)) then Some(id) else None
    else None
  }

  /** A data form was posted with a crud_nonce that verifies. */
  predicate DataFormPosted(env: Env, post: map<string, string>)
  {
    && "form_type" in post && "crud_nonce" in post
    && post["form_type"] == "data_form"
    && NonceOk(env, Some(post["crud_nonce"]), "crud_form_nonce")
  }

  const AfterDelete := Redirect(["delete_record", "edit_record", "_wpnonce"], [])
  const AfterUpdate := Redirect(["edit_record", "_wpnonce"], [("updated", "1")])
  const AfterInsert := Redirect(["_wpnonce"], [("added", "1")])

  /** A request either sends one statement and redirects, or renders the page (flagging a rejected submission). */
  datatype Action = Write(stmt: Statement, next: Redirect) | Show(requiredError: bool)

  function ActionOf(env: Env, config: Config, req: Request): Action
    requires config.columns.Valid()
  {
    match RequestedId(env, req.get, "delete_record")
    case Some(id) => Write(Delete(config.tableName, config.primaryKey, id), AfterDelete)
    case None =>
      if DataFormPosted(env, req.post) then
        var s := SubmissionOf(env, config.columns, req.post, config.columns.keys);
        if s.hasError then Show(true)
        else if "update_record" in req.post then
          var id := IntVal(if "record_id" in req.post then req.post["record_id"] else "");
          Write(Update(config.tableName, s.data, s.formats, config.primaryKey, id), AfterUpdate)
        else Write(Insert(config.tableName, s.data, s.formats), AfterInsert)
      else Show(false)
  }

  /**
    * Nothing is written without a verifying nonce: a delete needs the
    * delete nonce for its id, an insert or update the form nonce; and a
    * submission with a required field left empty writes nothing.
    */
  lemma WritesNeedNonces(env: Env, config: Config, req: Request)
    requires config.columns.Valid()
    ensures var a := ActionOf(env, config, req);
      && (a.Write? && a.stmt.Delete? ==>
            NonceOk(env, req.get.Get("_wpnonce"), "delete_record_" + IntToString(a.stmt.id)))
      && (a.Write? && !a.stmt.Delete? ==>
            DataFormPosted(env, req.post)
            && !SubmissionOf(env, config.columns, req.post, config.columns.keys).hasError)
      && (a.Write? ==> a.stmt.table == config.tableName)
  {
    var a := ActionOf(env, config, req);
    if a.Write? && a.stmt.Delete? {
      assert "delete_record" + "_" + IntToString(a.stmt.id) == "delete_record_" + IntToString(a.stmt.id);
    }
  }

  // -----------------------------------------------------------------------
  // The listing

  /** The sanitised search term, or "". */
  function SearchTerm(env: Env, get: PArray<string>): string
  {
    if get.Has("search") then env.sanitizeText(get.vals["search"]) else ""
  }

  /** The sort column: the requested one only when it names a configured column, else the primary key. */
  function OrderBy(env: Env, columns: PArray<Column>, primaryKey: string, get: PArray<string>): (r: string)
    ensures r == primaryKey || exists c :: columns.Has(c) && r == env.sanitizeKey(c)
  {
    if get.Has("orderby") && columns.Has(get.vals["orderby"]) then env.sanitizeKey(get.vals["orderby"]) else primaryKey
  }

  /** The sort direction: ASC only for a case-insensitive "asc", DESC for anything else or nothing. */
  function OrderDir(get: PArray<string>): (r: string)
    ensures r == "ASC" || r == "DESC"
    ensures r == "ASC" <==> get.Has("order") && Lower(get.vals["order"]) == "asc"
  {
    if get.Has("order") && Lower(get.vals["order"]) == "asc" then "ASC" else "DESC"
  }

  /** The LIKE pattern for a search term, as prepare() quotes it. */
  function LikeLiteral(env: Env, term: string): string
  {
    env.quote("%" + env.escLike(term) + "%")
  }

  function SearchClause(env: Env, column: string, term: string): string
  {
    column + " LIKE " + LikeLiteral(env, term)
  }

  function SearchClauses(env: Env, columns: seq<string>, term: string): (r: seq<string>)
    ensures |r| == |columns|
  {
    seq(|columns|, i requires 0 <= i < |columns| => SearchClause(env, columns[i], term))
  }

  /** The WHERE part: every column matched against the term, OR'd; nothing for a falsy term. */
  function WherePart(env: Env, columns: seq<string>, term: string): string
  {
    if Truthy(term) then " WHERE " + Implode(" OR ", SearchClauses(env, columns, term)) else ""
  }

  function OrderPart(env: Env, orderBy: string, orderDir: string): string
  {
    " ORDER BY " + env.escSql(orderBy) + " " + env.escSql(orderDir)
  }

  /** What follows "SELECT *" in the listing query: the table, the WHERE part and the ORDER BY part. */
  function QueryRest(env: Env, table: string, columns: seq<string>, term: string, orderBy: string, orderDir: string): string
  {
    " FROM " + table + WherePart(env, columns, term) + OrderPart(env, orderBy, orderDir)
  }

  /** The listing query, before its LIMIT. */
  function ListQuery(env: Env, table: string, columns: seq<string>, term: string, orderBy: string, orderDir: string): string
  {
    SelectAll + QueryRest(env, table, columns, term, orderBy, orderDir)
  }

  /** The search loop of render_table: one LIKE clause per column, in column order. */
  method CollectSearchClauses(env: Env, columns: seq<string>, term: string) returns (clauses: seq<string>)
    ensures clauses == SearchClauses(env, columns, term)
  {
    clauses := [];
    var i := 0;
    while i < |columns|
      invariant 0 <= i <= |columns|
      invariant clauses == SearchClauses(env, columns[..i], term)
    {
      clauses := clauses + [columns[i] + " LIKE " + env.quote("%" + env.escLike(term) + "%")];
      i := i + 1;
    }
    assert columns[..i] == columns;
  }

  /** The query building of render_table: the table, the search clauses OR'd when there is a term, then the order. */
  method BuildListQuery(env: Env, table: string, columns: seq<string>, term: string, orderBy: string, orderDir: string)
    returns (query: string)
    ensures query == ListQuery(env, table, columns, term, orderBy, orderDir)
  {
    query := SelectAll + " FROM " + table;
    ghost var head := query;
    if Truthy(term) {
      var clauses := CollectSearchClauses(env, columns, term);
      query := query + " WHERE " + Implode(" OR ", clauses);
    }
    ghost var where := WherePart(env, columns, term);
    assert query == head + where;
    ghost var before := query;
    query := query + " ORDER BY " + env.escSql(orderBy) + " " + env.escSql(orderDir);
    OrderAppended(env, before, orderBy, orderDir);
    ListQueryParts(env, table, columns, term, orderBy, orderDir);
  }

  /** Appending the ORDER BY clause piece by piece appends the order part. */
  lemma OrderAppended(env: Env, q: string, orderBy: string, orderDir: string)
    ensures q + " ORDER BY " + env.escSql(orderBy) + " " + env.escSql(orderDir) == q + OrderPart(env, orderBy, orderDir)
  {
  }

  /** The listing query is its head, its WHERE part and its ORDER BY part, in that order. */
  lemma ListQueryParts(env: Env, table: string, columns: seq<string>, term: string, orderBy: string, orderDir: string)
    ensures ListQuery(env, table, columns, term, orderBy, orderDir)
      == SelectAll + " FROM " + table + WherePart(env, columns, term) + OrderPart(env, orderBy, orderDir)
  {
  }

  lemma {:induction false} ImplodeHasPart(glue: string, parts: seq<string>, i: int, sub: string)
    requires 0 <= i < |parts| && Contains(parts[i], sub)
    ensures Contains(Implode(glue, parts), sub)
    decreases |parts|
  {
    if |parts| > 1 {
      if i == 0 {
        ContainsInfix("", parts[0], glue + Implode(glue, parts[1..]), sub);
        assert "" + parts[0] + (glue + Implode(glue, parts[1..])) == Implode(glue, parts);
      } else {
        ImplodeHasPart(glue, parts[1..], i - 1, sub);
        ContainsInfix(parts[0] + glue, Implode(glue, parts[1..]), "", sub);
        assert parts[0] + glue + Implode(glue, parts[1..]) + "" == Implode(glue, parts);
      }
    }
  }

  /** A truthy search term is looked for in every configured column; a falsy one filters nothing. */
  lemma EveryColumnSearched(env: Env, columns: seq<string>, term: string, i: int)
    requires 0 <= i < |columns|
    ensures Truthy(term) ==> Contains(WherePart(env, columns, term), SearchClause(env, columns[i], term))
    ensures !Truthy(term) ==> WherePart(env, columns, term) == ""
  {
    if Truthy(term) {
      var clauses := SearchClauses(env, columns, term);
      var c := SearchClause(env, columns[i], term);
      assert c[0..|c|] == c;
      ContainsAt(c, c, 0);
      ImplodeHasPart(" OR ", clauses, i, c);
      ContainsInfix(" WHERE ", Implode(" OR ", clauses), "", c);
      assert " WHERE " + Implode(" OR ", clauses) + "" == WherePart(env, columns, term);
    }
  }


  /** The COUNT query as render_table derives it: str_replace of every "SELECT *" in the listing query. */
  function CountQueryAsWritten(query: string): string
  {
    ReplaceAll(query, SelectAll, SelectCount)
  }

  /** The COUNT query with only the leading "SELECT *" replaced: the same FROM, WHERE and ORDER BY as the listing. */
  function CountQuery(query: string): (r: string)
    ensures StartsWith(query, SelectAll) ==> r == SelectCount + query[|SelectAll|..]
  {
    if StartsWith(query, SelectAll) then SelectCount + query[|SelectAll|..] else query
  }

  /** The COUNT query counts exactly the rows the listing filters: same table, same WHERE clause. */
  lemma CountQueryCountsListing(env: Env, table: string, columns: seq<string>, term: string, orderBy: string, orderDir: string)
    ensures CountQuery(ListQuery(env, table, columns, term, orderBy, orderDir))
         == SelectCount + QueryRest(env, table, columns, term, orderBy, orderDir)
  {
    var rest := QueryRest(env, table, columns, term, orderBy, orderDir);
    assert (SelectAll + rest)[..|SelectAll|] == SelectAll;
    assert (SelectAll + rest)[|SelectAll|..] == rest;
  }

  /**
    * The str_replace derivation agrees with the intended COUNT query
    * exactly when "SELECT *" occurs nowhere after the leading one.
    */
  lemma CountQueryAsWrittenAgrees(rest: string)
    ensures CountQueryAsWritten(SelectAll + rest) == CountQuery(SelectAll + rest) <==> !Contains(rest, SelectAll)
  {
    var q := SelectAll + rest;
    assert q[..|SelectAll|] == SelectAll;
    assert q[|SelectAll|..] == rest;
    assert CountQueryAsWritten(q) == SelectCount + ReplaceAll(rest, SelectAll, SelectCount);
    if Contains(rest, SelectAll) {
      ReplaceAllLonger(rest, SelectAll, SelectCount);
    } else {
      ReplaceAllAbsent(rest, SelectAll, SelectCount);
    }
  }

  /** A LIKE pattern holding "SELECT *" puts it into the WHERE part. */
  lemma PatternInWherePart(env: Env, columns: seq<string>, term: string)
    requires Truthy(term) && |columns| > 0
    requires Contains(LikeLiteral(env, term), SelectAll)
    ensures Contains(WherePart(env, columns, term), SelectAll)
  {
    var c := SearchClause(env, columns[0], term);
    ContainsInfix(columns[0] + " LIKE ", LikeLiteral(env, term), "", SelectAll);
    assert columns[0] + " LIKE " + LikeLiteral(env, term) + "" == c;
    var clauses := SearchClauses(env, columns, term);
    ImplodeHasPart(" OR ", clauses, 0, SelectAll);
    ContainsInfix(" WHERE ", Implode(" OR ", clauses), "", SelectAll);
    assert " WHERE " + Implode(" OR ", clauses) + "" == WherePart(env, columns, term);
  }

  /**
    * A search term whose quoted LIKE pattern holds "SELECT *" (for example
    * the term `SELECT *` itself: esc_like leaves it alone) makes the
    * str_replace derivation rewrite the pattern too, so the COUNT query
    * no longer filters like the listing.
    */
  lemma SearchForSelectAllMiscounts(env: Env, table: string, columns: seq<string>, term: string, orderBy: string,
                                    orderDir: string)
    requires Truthy(term) && |columns| > 0
    requires Contains(LikeLiteral(env, term), SelectAll)
    ensures var q := ListQuery(env, table, columns, term, orderBy, orderDir);
      CountQueryAsWritten(q) != CountQuery(q)
  {
    PatternInWherePart(env, columns, term);
    ContainsInfix(" FROM " + table, WherePart(env, columns, term), OrderPart(env, orderBy, orderDir), SelectAll);
    CountQueryAsWrittenAgrees(QueryRest(env, table, columns, term, orderBy, orderDir));
  }

  /** The current page: POSTed `paged`, else GET `paged`, else 1; never below 1. */
  function PageNumber(post: map<string, string>, get: PArray<string>): (p: int)
    ensures p >= 1
  {
    if "paged" in post then Max1(IntVal(post["paged"]))
    else if get.Has("paged") then Max1(IntVal(get.vals["paged"]))
    else 1
  }

  function Max1(n: int): int
  {
    if n > 1 then n else 1
  }

  /** $wpdb->prepare(" LIMIT %d, %d", $offset, $per_page). */
  function LimitClause(page: int, perPage: int): string
  {
    " LIMIT " + IntToString((page - 1) * perPage) + ", " + IntToString(perPage)
  }

  /**
    * Choosing page p in the page-jump select (which POSTs `paged`) lists
    * page p, whose window holds every record number k with
    * (p - 1) * per_page <= k < p * per_page: every record is on some
    * offered page.
    */
  lemma JumpToPage(post: map<string, string>, get: PArray<string>, total: nat, perPage: int, k: nat)
    requires perPage > 0 && k < total
    ensures var p := k / perPage + 1;
      var options := PageOptions(TotalPages(total, perPage), p);
      && 1 <= p <= |options| && options[p - 1].page == p
      && PageNumber(post["paged" := IntToString(p)], get) == p
      && (p - 1) * perPage <= k < p * perPage
  {
    var p := k / perPage + 1;
    PagesCoverRecords(total, perPage, k);
    IntValOfIntToString(p);
  }

  // -----------------------------------------------------------------------
  // The rendered page

  /** The page render_table returns when it does not redirect. */
  datatype PageView = PageView(
    added: bool,                        // the "Record added" notice (GET added)
    updated: bool,                      // the "Record updated" notice (GET updated)
    requiredError: bool,                // "All fields are required."
    form: Option<FormView>,
    search: Option<SearchView>,
    table: Option<TableView>,
    pagination: Option<PaginationView>)

  datatype RenderResult = Redirected(to: Redirect) | Rendered(page: PageView)

  function EditQuery(table: string, primaryKey: string, id: int): string
  {
    "SELECT * FROM " + table + " WHERE " + primaryKey + " = " + IntToString(id)
  }

  /** The edit link: whether it verifies, and the record it selects. */
  function EditRowOf(env: Env, answers: Reads, config: Config, get: PArray<string>): (Option<int>, Option<Row>)
  {
    var editId := RequestedId(env, get, "edit_record");
    (editId, if editId.Some? then answers.getRow(EditQuery(config.tableName, config.primaryKey, editId.value)) else None)
  }

  method FindEditRow(env: Env, answers: Reads, config: Config, get: PArray<string>) returns (editing: bool, editRow: Option<Row>)
    ensures editing == EditRowOf(env, answers, config, get).0.Some?
    ensures editRow == EditRowOf(env, answers, config, get).1
  {
    editing := false;
    editRow := None;
    if get.Has("edit_record") && get.Has("_wpnonce") {
      var recordId := IntVal(get.vals["edit_record"]);
      if NonceOk(env, Some(get.vals["_wpnonce"]), "edit_record" + "_" + IntToString(recordId)) {
        editing := true;
        editRow := answers.getRow(EditQuery(config.tableName, config.primaryKey, recordId));
      }
    }
  }

  /** The templates render_table includes, given what the listing computed. */
  function PageFrom(env: Env, config: Config, req: Request, requiredError: bool, editing: bool, editRow: Option<Row>,
                    term: string, orderBy: string, orderDir: string, total: nat, rows: seq<Row>, page: int): PageView
    requires config.columns.Valid() && req.get.Valid()
  {
    var columns := config.columns;
    var pk := config.primaryKey;
    var perPage := PerPage(config.pagination);
    var flags := config.flags;
    PageView(
      req.get.Has("added"), req.get.Has("updated"), requiredError,
      if flags.form != "false" then Some(FormViewOf(columns, req.post, editing, editRow, pk)) else None,
      if flags.search != "false" then Some(SearchViewOf(req.get, flags.recordsCount, total, term)) else None,
      if flags.table != "false" then Some(TableViewOf(env, columns, orderBy, orderDir, rows, pk)) else None,
      if flags.pagination != "false" && total > perPage then Some(PaginationViewOf(total, perPage, page)) else None)
  }

  /**
    * The page, given whether the submission was rejected. Its total comes
    * from the count query as written; CountQueryAsWrittenAgrees says when
    * that is the query that counts the listing.
    */
  function PageOf(env: Env, answers: Reads, config: Config, req: Request, requiredError: bool): PageView
    requires config.columns.Valid() && req.get.Valid()
  {
    var (editId, editRow) := EditRowOf(env, answers, config, req.get);
    var term := SearchTerm(env, req.get);
    var orderBy := OrderBy(env, config.columns, config.primaryKey, req.get);
    var orderDir := OrderDir(req.get);
    var query := ListQuery(env, config.tableName, config.columns.keys, term, orderBy, orderDir);
    var page := PageNumber(req.post, req.get);
    var total := answers.getVar(CountQueryAsWritten(query));
    var rows := answers.getResults(query + LimitClause(page, PerPage(config.pagination)));
    PageFrom(env, config, req, requiredError, editId.Some?, editRow, term, orderBy, orderDir, total, rows, page)
  }

  /** The listing part of render_table: edit lookup, query, count, rows and templates. */
  method RenderPage(env: Env, answers: Reads, config: Config, req: Request, requiredError: bool) returns (page: PageView)
    requires config.columns.Valid() && req.get.Valid()
    ensures page == PageOf(env, answers, config, req, requiredError)
  {
    var editing, editRow := FindEditRow(env, answers, config, req.get);
    var term := SearchTerm(env, req.get);
    var orderBy := OrderBy(env, config.columns, config.primaryKey, req.get);
    var orderDir := OrderDir(req.get);
    var query := BuildListQuery(env, config.tableName, config.columns.keys, term, orderBy, orderDir);
    var pageNo := PageNumber(req.post, req.get);
    var total := answers.getVar(CountQueryAsWritten(query));
    var rows := answers.getResults(query + LimitClause(pageNo, PerPage(config.pagination)));
    page := PageFrom(env, config, req, requiredError, editing, editRow, term, orderBy, orderDir, total, rows, pageNo);
  }

  /**
    * render_table. A write sends exactly one statement, whether or not the
    * database accepts it, and redirects; otherwise nothing is sent and the
    * page is rendered.
    */
  method RenderTable(env: Env, db: Database, answers: Reads, config: Config, req: Request) returns (result: RenderResult)
    requires config.columns.Valid() && req.get.Valid()
    modifies db
    ensures var a := ActionOf(env, config, req);
      && (a.Write? ==>
            && db.log == old(db.log) + [a.stmt]
            && db.state == (if db.accepts(a.stmt) then Apply(old(db.state), db.table, db.key, a.stmt) else old(db.state))
            && result == Redirected(a.next))
      && (a.Show? ==>
            && db.log == old(db.log) && db.state == old(db.state)
            && result == Rendered(PageOf(env, answers, config, req, a.requiredError)))
  {
    var table := config.tableName;
    var pk := config.primaryKey;
    ghost var deleteId := RequestedId(env, req.get, "delete_record");
    if req.get.Has("delete_record") && req.get.Has("_wpnonce") {
      var recordId := IntVal(req.get.vals["delete_record"]);
      if NonceOk(env, Some(req.get.vals["_wpnonce"]), "delete_record" + "_" + IntToString(recordId)) {
        assert deleteId == Some(recordId);
        var ok, err := db.Run(Delete(table, pk, recordId));
        result := Redirected(AfterDelete);
        return;
      }
    }
    assert deleteId.None?;
    var requiredError := false;
    if "form_type" in req.post && "crud_nonce" in req.post {
      if req.post["form_type"] == "data_form" && NonceOk(env, Some(req.post["crud_nonce"]), "crud_form_nonce") {
        assert DataFormPosted(env, req.post);
        var data, formats, hasError := CollectSubmission(env, config.columns, req.post);
        if hasError {
          requiredError := true;
        } else if "update_record" in req.post {
          var recordId := IntVal(if "record_id" in req.post then req.post["record_id"] else "");
          var ok, err := db.Run(Update(table, data, formats, pk, recordId));
          result := Redirected(AfterUpdate);
          return;
        } else {
          var ok, err := db.Run(Insert(table, data, formats));
          result := Redirected(AfterInsert);
          return;
        }
      }
    }
    var page := RenderPage(env, answers, config, req, requiredError);
    result := Rendered(page);
  }

  // -----------------------------------------------------------------------
  // Links, buttons and redirects taken together

  /**
    * Following the delete link render_table_row emits for a row deletes
    * that row, when its key is an integer as PHP prints it and the nonce
    * created for the link verifies.
    */
  lemma DeleteLinkDeletes(env: Env, config: Config, req: Request, row: Row)
    requires config.columns.Valid() && req.get.Valid()
    requires config.primaryKey in row
    requires IntToString(IntVal(row[config.primaryKey])) == row[config.primaryKey]
    requires var action := "delete_record" + "_" + row[config.primaryKey];
      Truthy(env.createNonce(action)) && env.verifyNonce(env.createNonce(action), action)
    ensures var args := ActionsOf(env, row, config.primaryKey).delete;
      ActionOf(env, config, Request(Follow(req.get, Redirect([], args)), req.post))
        == Write(Delete(config.tableName, config.primaryKey, IntVal(row[config.primaryKey])), AfterDelete)
  {
    var id := row[config.primaryKey];
    var nonce := env.createNonce("delete_record" + "_" + id);
    assert ActionsOf(env, row, config.primaryKey).delete == [("delete_record", id), ("_wpnonce", nonce)];
    FollowLink(req.get, "delete_record", id, "_wpnonce", nonce);
    var get := Follow(req.get, Redirect([], [("delete_record", id), ("_wpnonce", nonce)]));
    assert get.vals == req.get.vals["delete_record" := id]["_wpnonce" := nonce];
    assert get.Has("delete_record") && get.vals["delete_record"] == id && get.Has("_wpnonce") && get.vals["_wpnonce"] == nonce;
    assert RequestedId(env, get, "delete_record") == Some(IntVal(id));
  }

  /**
    * Following a row's edit link (on a page without a delete request)
    * opens the form on that row: the record is looked up by its key.
    */
  lemma EditLinkEdits(env: Env, answers: Reads, config: Config, req: Request, row: Row)
    requires config.columns.Valid() && req.get.Valid()
    requires !req.get.Has("delete_record")
    requires config.primaryKey in row
    requires IntToString(IntVal(row[config.primaryKey])) == row[config.primaryKey]
    requires var action := "edit_record" + "_" + row[config.primaryKey];
      Truthy(env.createNonce(action)) && env.verifyNonce(env.createNonce(action), action)
    ensures var args := ActionsOf(env, row, config.primaryKey).edit;
      var get := Follow(req.get, Redirect([], args));
      var id := IntVal(row[config.primaryKey]);
      && RequestedId(env, get, "delete_record").None?
      && EditRowOf(env, answers, config, get) == (Some(id), answers.getRow(EditQuery(config.tableName, config.primaryKey, id)))
  {
    var id := row[config.primaryKey];
    var nonce := env.createNonce("edit_record" + "_" + id);
    assert ActionsOf(env, row, config.primaryKey).edit == [("edit_record", id), ("_wpnonce", nonce)];
    FollowLink(req.get, "edit_record", id, "_wpnonce", nonce);
    var get := Follow(req.get, Redirect([], [("edit_record", id), ("_wpnonce", nonce)]));
    assert get.vals == req.get.vals["edit_record" := id]["_wpnonce" := nonce];
    assert get.Has("edit_record") && get.vals["edit_record"] == id && get.Has("_wpnonce") && get.vals["_wpnonce"] == nonce;
    assert RequestedId(env, get, "edit_record") == Some(IntVal(id));
  }

  /**
    * The page a write redirects to drops `_wpnonce`, so loading it again
    * (a GET, with nothing posted) repeats no write; it shows the matching
    * notice, and after an update or a delete it is no longer editing.
    */
  lemma RedirectsRepeatNothing(env: Env, config: Config, get: PArray<string>)
    requires config.columns.Valid() && get.Valid()
    ensures forall to :: to in {AfterDelete, AfterUpdate, AfterInsert} ==>
      && !Follow(get, to).Has("_wpnonce")
      && ActionOf(env, config, Request(Follow(get, to), map[])) == Show(false)
      && RequestedId(env, Follow(get, to), "edit_record").None?
    ensures Follow(get, AfterUpdate).Has("updated") && Follow(get, AfterInsert).Has("added")
    ensures !Follow(get, AfterDelete).Has("delete_record") && !Follow(get, AfterDelete).Has("edit_record")
    ensures !Follow(get, AfterUpdate).Has("edit_record")
  {
    assert Names(AfterUpdate.added) == ["updated"];
    assert Names(AfterInsert.added) == ["added"];
    assert Names(AfterDelete.added) == [];
    RedirectRepeatsNothing(env, config, get, AfterDelete);
    RedirectRepeatsNothing(env, config, get, AfterUpdate);
    RedirectRepeatsNothing(env, config, get, AfterInsert);
    FollowKeys(get, AfterDelete);
    FollowKeys(get, AfterUpdate);
    FollowKeys(get, AfterInsert);
  }

  /** Any redirect that drops `_wpnonce` (and does not set it) leads to a page that, loaded again, writes nothing and edits nothing. */
  lemma RedirectRepeatsNothing(env: Env, config: Config, get: PArray<string>, to: Redirect)
    requires config.columns.Valid() && get.Valid()
    requires "_wpnonce" in to.removed && "_wpnonce" !in Names(to.added)
    ensures !Follow(get, to).Has("_wpnonce")
    ensures ActionOf(env, config, Request(Follow(get, to), map[])) == Show(false)
    ensures RequestedId(env, Follow(get, to), "edit_record").None?
  {
    FollowKeys(get, to);
  }

  lemma DirectionWords()
    ensures Lower("asc") == "asc" && Lower("desc") != "asc"
  {
    LowerUnchanged("asc");
    LowerUnchanged("desc");
  }

  /**
    * A header link sorts by its column (when sanitize_key leaves the name
    * alone) and flips the direction: descending exactly when that column
    * was already sorted ascending.
    */
  lemma SortLinkToggles(env: Env, config: Config, get: PArray<string>, column: string)
    requires config.columns.Valid() && get.Valid()
    requires config.columns.Has(column) && env.sanitizeKey(column) == column
    ensures var orderBy := OrderBy(env, config.columns, config.primaryKey, get);
      var orderDir := OrderDir(get);
      var get' := Follow(get, Redirect([], [("orderby", column), ("order", NewOrder(orderBy, orderDir, column))]));
      && OrderBy(env, config.columns, config.primaryKey, get') == column
      && OrderDir(get') == (if orderBy == column && orderDir == "ASC" then "DESC" else "ASC")
  {
    var orderBy := OrderBy(env, config.columns, config.primaryKey, get);
    var orderDir := OrderDir(get);
    var order := NewOrder(orderBy, orderDir, column);
    FollowLink(get, "orderby", column, "order", order);
    var get' := Follow(get, Redirect([], [("orderby", column), ("order", order)]));
    assert get'.vals == get.vals["orderby" := column]["order" := order];
    assert get'.Has("orderby") && get'.vals["orderby"] == column && get'.Has("order") && get'.vals["order"] == order;
    DirectionWords();
  }

  /**
    * Any configured column's header link sorts under `sanitize_key` of its
    * name, so a column whose name that changes is never the sort column
    * its own header compares against.
    */
  lemma SortLinkSortsSanitized(env: Env, config: Config, get: PArray<string>, column: string)
    requires config.columns.Valid() && get.Valid()
    requires config.columns.Has(column)
    ensures var orderBy := OrderBy(env, config.columns, config.primaryKey, get);
      var get' := Follow(get, Redirect([], [("orderby", column), ("order", NewOrder(orderBy, OrderDir(get), column))]));
      && OrderBy(env, config.columns, config.primaryKey, get') == env.sanitizeKey(column)
      && (env.sanitizeKey(column) != column ==> OrderBy(env, config.columns, config.primaryKey, get') != column)
  {
    var order := NewOrder(OrderBy(env, config.columns, config.primaryKey, get), OrderDir(get), column);
    FollowLink(get, "orderby", column, "order", order);
    var get' := Follow(get, Redirect([], [("orderby", column), ("order", order)]));
    assert get'.vals == get.vals["orderby" := column]["order" := order];
    assert get'.Has("orderby") && get'.vals["orderby"] == column;
  }

  /** What the submit button posts: a verified data form, flagged as an update exactly when editing, with the edited record's id. */
  lemma SubmitPost(env: Env, config: Config, req: Request, editing: bool, editRow: Option<Row>, nonce: string, pressed: string)
    requires config.columns.Valid()
    requires Truthy(nonce) && env.verifyNonce(nonce, "crud_form_nonce")
    requires forall k :: k in config.columns.keys ==>
      k != "form_type" && k != "crud_nonce" && k != "record_id" && k != "update_record"
    ensures var v := FormViewOf(config.columns, req.post, editing, editRow, config.primaryKey);
      var post := Submitted(v, nonce)[v.submitName := pressed];
      && DataFormPosted(env, post)
      && ("update_record" in post <==> editing)
      && (editing && editRow.Some? ==> "record_id" in post && post["record_id"] == ValueIn(editRow.value, config.primaryKey))
  {
    var v := FormViewOf(config.columns, req.post, editing, editRow, config.primaryKey);
    forall i | 0 <= i < |v.fields|
      ensures v.fields[i].name != "form_type" && v.fields[i].name != "crud_nonce"
      ensures v.fields[i].name != "record_id" && v.fields[i].name != "update_record"
    {
      assert v.fields[i].name == config.columns.keys[i];
      assert config.columns.keys[i] in config.columns.keys;
    }
    SubmittedCarries(v, nonce);
  }

  /**
    * A verified data form, once no delete link is being followed, updates
    * when it carries `update_record`, on the record id intval reads from
    * `record_id`, and inserts otherwise; or it is rejected with "All
    * fields are required.". It never deletes and never writes elsewhere.
    */
  lemma PostedFormRoutes(env: Env, config: Config, req: Request)
    requires config.columns.Valid()
    requires RequestedId(env, req.get, "delete_record").None?
    requires DataFormPosted(env, req.post)
    ensures var a := ActionOf(env, config, req);
      && (a.Write? ==> !a.stmt.Delete? && a.stmt.table == config.tableName && (a.stmt.Update? <==> "update_record" in req.post))
      && (a.Write? && a.stmt.Update? ==>
            a.stmt.id == IntVal(if "record_id" in req.post then req.post["record_id"] else "") && a.next == AfterUpdate)
      && (a.Write? && a.stmt.Insert? ==> a.next == AfterInsert)
      && (a.Show? ==> a.requiredError)
      && (a.Show? <==> SubmissionOf(env, config.columns, req.post, config.columns.keys).hasError)
  {
  }
}

=== FILE: table_ddl.dfy ===
/**
  * The table manager's DDL side: the CREATE TABLE text, the ALTER TABLE
  * statements of a modification, dropping a table, and reading a column's
  * type and length back from its SQL type.
  */
module TableDdl {
  import opened Php
  import opened WordPress
  import opened Store

  /**
    * A field definition as callers pass it: `name` and `type` are always
    * read, the other entries only when they are set.
    */
  datatype FieldDef = FieldDef(name: string, ftype: string, length: Option<string>, nullable: Option<string>,
                               default: Option<string>, extra: Option<string>, primary: Option<string>)

  /** `isset($field[$k]) && $field[$k]`. */
  predicate Flag(o: Option<string>)
  {
    o.Some? && Truthy(o.value)
  }

  /** `isset($field[$k]) ? sanitize_text_field($field[$k]) : ''`. */
  function OptText(env: Env, o: Option<string>): string
  {
    if o.Some? then env.sanitizeText(o.value) else ""
  }

  /** `!empty($field_length) ? $field_length : $default`. */
  function LengthOr(length: string, default: string): string
  {
    if Truthy(length) then length else default
  }

  /** The stored types written with a length. */
  predicate HasLength(ftype: string)
  {
    ftype == "int" || ftype == "varchar" || ftype == "decimal"
  }

  /** The length a type with a length is given when none is set. */
  function DefaultLength(ftype: string): string
  {
    if ftype == "int" then "11"
    else if ftype == "decimal" then "10,2"
    else "255"
  }

  /** The SQL type written for a lower-cased field type: any type not listed becomes VARCHAR. */
  function SqlType(ftype: string, length: string): string
  {
    if ftype == "int" then "INT(" + LengthOr(length, "11") + ")"
    else if ftype == "varchar" then "VARCHAR(" + LengthOr(length, "255") + ")"
    else if ftype == "text" then "TEXT"
    else if ftype == "date" then "DATE"
    else if ftype == "datetime" then "DATETIME"
    else if ftype == "decimal" then "DECIMAL(" + LengthOr(length, "10,2") + ")"
    else "VARCHAR(" + LengthOr(length, "255") + ")"
  }

  /** Whether a default is written bare (numeric types) rather than quoted. */
  predicate BareDefault(ftype: string)
  {
    ftype == "int" || ftype == "decimal"
  }

  /**
    * The part of a column definition after its name, as create, add and
    * modify all write it: the SQL type, NULL or NOT NULL, a DEFAULT unless
    * the default is empty, and AUTO_INCREMENT when `extra` asks for it.
    */
  function ColumnDefinition(env: Env, f: FieldDef): string
  {
    var ftype := Lower(env.sanitizeText(f.ftype));
    var default := OptText(env, f.default);
    var typed := SqlType(ftype, OptText(env, f.length)) + " " + (if Flag(f.nullable) then "NULL" else "NOT NULL");
    var withDefault :=
      if default == "" then typed
      else if BareDefault(ftype) then typed + " DEFAULT " + default
      else typed + " DEFAULT '" + default + "'";
    if OptText(env, f.extra) == "auto_increment" then withDefault + " AUTO_INCREMENT" else withDefault
  }

  /** The switch and suffixes shared by create_table and the ADD/MODIFY COLUMN builders, appended to `sql`. */
  method AppendColumnDefinition(env: Env, f: FieldDef, sql: string) returns (out: string)
    ensures out == sql + ColumnDefinition(env, f)
  {
    var fieldType := Lower(env.sanitizeText(f.ftype));
    var fieldLength := OptText(env, f.length);
    var fieldNull := if Flag(f.nullable) then "NULL" else "NOT NULL";
    var fieldDefault := OptText(env, f.default);
    var fieldExtra := OptText(env, f.extra);
    var def: string;
    if fieldType == "int" {
      def := "INT(" + LengthOr(fieldLength, "11") + ")";
    } else if fieldType == "varchar" {
      def := "VARCHAR(" + LengthOr(fieldLength, "255") + ")";
    } else if fieldType == "text" {
      def := "TEXT";
    } else if fieldType == "date" {
      def := "DATE";
    } else if fieldType == "datetime" {
      def := "DATETIME";
    } else if fieldType == "decimal" {
      def := "DECIMAL(" + LengthOr(fieldLength, "10,2") + ")";
    } else {
      def := "VARCHAR(" + LengthOr(fieldLength, "255") + ")";
    }
    def := def + " " + fieldNull;
    if fieldDefault != "" {
      if fieldType == "int" || fieldType == "decimal" {
        def := def + " DEFAULT " + fieldDefault;
      } else {
        def := def + " DEFAULT '" + fieldDefault + "'";
      }
    }
    if fieldExtra == "auto_increment" {
      def := def + " AUTO_INCREMENT";
    }
    out := sql + def;
  }

  /** A column definition ends with a character rtrim keeps unless it ends with a bare default that itself ends in ',' or ' '. */
  lemma ColumnDefinitionEnd(env: Env, f: FieldDef)
    requires var d := OptText(env, f.default);
      d == [] || !BareDefault(Lower(env.sanitizeText(f.ftype))) || d[|d| - 1] !in ListSeparator
      || OptText(env, f.extra) == "auto_increment"
    ensures var c := ColumnDefinition(env, f); |c| >= 1 && c[|c| - 1] !in ListSeparator
  {
  }

  function AddColumnText(env: Env, table: string, f: FieldDef): string
  {
    "ALTER TABLE " + table + " ADD COLUMN " + env.sanitizeKey(f.name) + " " + ColumnDefinition(env, f)
  }

  function ModifyColumnText(env: Env, table: string, f: FieldDef): string
  {
    "ALTER TABLE " + table + " MODIFY COLUMN " + env.sanitizeKey(f.name) + " " + ColumnDefinition(env, f)
  }

  /** generate_add_column_sql. */
  method AddColumnSql(env: Env, table: string, f: FieldDef) returns (sql: string)
    ensures sql == AddColumnText(env, table, f)
  {
    sql := "ALTER TABLE " + table + " ADD COLUMN " + env.sanitizeKey(f.name) + " ";
    sql := AppendColumnDefinition(env, f, sql);
  }

  /** generate_modify_column_sql. */
  method ModifyColumnSql(env: Env, table: string, f: FieldDef) returns (sql: string)
    ensures sql == ModifyColumnText(env, table, f)
  {
    sql := "ALTER TABLE " + table + " MODIFY COLUMN " + env.sanitizeKey(f.name) + " ";
    sql := AppendColumnDefinition(env, f, sql);
  }

  /** generate_drop_column_sql. */
  function DropColumnSql(env: Env, table: string, fieldName: string): string
  {
    "ALTER TABLE " + table + " DROP COLUMN " + env.sanitizeKey(fieldName)
  }

  // -----------------------------------------------------------------------
  // Reading a type back

  /** get_field_type_from_sql: the first of these substrings the lower-cased SQL type contains. */
  function TypeFromSql(sqlType: string): (r: string)
    ensures r in StoredTypes
  {
    TypeFromLower(Lower(sqlType))
  }

  /** The substring tests of get_field_type_from_sql, in order, on the lower-cased type. */
  function TypeFromLower(t: string): (r: string)
    ensures r in StoredTypes
  {
    if Contains(t, "int") then "int"
    else if Contains(t, "varchar") then "varchar"
    else if Contains(t, "text") then "text"
    else if Contains(t, "date") && !Contains(t, "datetime") then "date"
    else if Contains(t, "datetime") then "datetime"
    else if Contains(t, "decimal") || Contains(t, "float") || Contains(t, "double") then "decimal"
    else "text"
  }

  const StoredTypes := ["int", "varchar", "text", "date", "datetime", "decimal"]

  /** The group `[^)]+` followed by `)`, at the start of `t`. */
  function GroupAfter(t: string): (r: Option<string>)
    ensures r.Some? ==> ')' !in r.value && |r.value| >= 1 && StartsWith(t, r.value + ")")
    ensures r.None? ==> ')' !in t || (|t| >= 1 && t[0] == ')')
  {
    match SplitFirst(')', t)
    case None => None
    case Some(p) =>
      assert t[..|p.0| + 1] == p.0 + ")";
      if |p.0| >= 1 then Some(p.0) else None
  }

  /**
    * get_field_length_from_sql, `/\(([^)]+)\)/`: the text between the
    * first "(" that is followed by a non-empty run without ")" and that
    * ")", or "" when there is none.
    */
  function LengthFromSql(s: string): (r: string)
    ensures ')' !in r
  {
    if s == [] then ""
    else if s[0] == '(' && GroupAfter(s[1..]).Some? then GroupAfter(s[1..]).value
    else LengthFromSql(s[1..])
  }

  /** A length as the admin forms give it: digits and commas. */
  predicate LengthText(s: string)
  {
    forall i :: 0 <= i < |s| ==> IsDigit(s[i]) || s[i] == ','
  }

  /** The type a field type is stored as: one of the listed types, else varchar. */
  function StoredType(ftype: string): string
  {
    if ftype in StoredTypes then ftype else "varchar"
  }

  lemma {:induction false} LowerConcat(a: string, b: string)
    ensures Lower(a + b) == Lower(a) + Lower(b)
  {
    assert |Lower(a + b)| == |Lower(a) + Lower(b)|;
    forall i | 0 <= i < |a + b|
      ensures Lower(a + b)[i] == (Lower(a) + Lower(b))[i]
    {
      if i < |a| {
        assert (a + b)[i] == a[i];
      } else {
        assert (a + b)[i] == b[i - |a|];
      }
    }
  }

  /** Lower-casing `W(L)` for an upper-case opening `W(` and a length of digits and commas. */
  lemma LowerTyped(open: string, lopen: string, len: string)
    requires Lower(open) == lopen && LengthText(len)
    ensures Lower(open + len + ")") == lopen + len + ")"
  {
    LowerConcat(open + len, ")");
    LowerConcat(open, len);
    assert Lower(len) == len;
  }

  /** The length group of `W(L)`, for an opening `W(` with no other "(". */
  lemma {:induction false} LengthAfterOpen(open: string, len: string)
    requires |open| >= 1 && open[|open| - 1] == '(' && '(' !in open[..|open| - 1]
    requires ')' !in len && |len| >= 1
    ensures LengthFromSql(open + len + ")") == len
    decreases |open|
  {
    var s := open + len + ")";
    if |open| == 1 {
      assert s[0] == '(';
      assert s[1..] == len + [')'] + "";
      SplitFirstOf(')', len, "");
    } else {
      assert s[0] == open[0] != '(';
      assert open[1..][..|open| - 2] == open[1..|open| - 1];
      assert s[1..] == open[1..] + len + ")";
      LengthAfterOpen(open[1..], len);
    }
  }

  lemma {:induction false} LengthWithoutParen(s: string)
    requires '(' !in s
    ensures LengthFromSql(s) == ""
    decreases |s|
  {
    if s != [] {
      LengthWithoutParen(s[1..]);
    }
  }

  lemma IntTyped(len: string)
    requires LengthText(len)
    ensures Lower("INT(" + len + ")") == "int(" + len + ")"
    ensures Contains("int(" + len + ")", "int")
  {
    assert Lower("INT(") == "int(";
    LowerTyped("INT(", "int(", len);
    var t := "int(" + len + ")";
    assert t[0..3] == "int";
    ContainsAt(t, "int", 0);
  }

  lemma ReadBackInt(len: string)
    requires LengthText(len)
    ensures TypeFromSql("INT(" + len + ")") == "int"
  {
    IntTyped(len);
    assert TypeFromLower("int(" + len + ")") == "int";
  }

  lemma VarcharTyped(len: string)
    requires LengthText(len)
    ensures Lower("VARCHAR(" + len + ")") == "varchar(" + len + ")"
    ensures !Contains("varchar(" + len + ")", "int") && Contains("varchar(" + len + ")", "varchar")
  {
    assert Lower("VARCHAR(") == "varchar(";
    LowerTyped("VARCHAR(", "varchar(", len);
    var t := "varchar(" + len + ")";
    assert 'i' !in t;
    NotContainsFirstChar(t, "int");
    assert t[0..7] == "varchar";
    ContainsAt(t, "varchar", 0);
  }

  lemma ReadBackVarchar(len: string)
    requires LengthText(len)
    ensures TypeFromSql("VARCHAR(" + len + ")") == "varchar"
  {
    VarcharTyped(len);
    assert TypeFromLower("varchar(" + len + ")") == "varchar";
  }

  lemma DecimalLacksInt(len: string)
    requires LengthText(len)
    ensures !Contains("decimal(" + len + ")", "int")
  {
    var t := "decimal(" + len + ")";
    assert forall k :: 8 <= k < |t| - 1 ==> t[k] == len[k - 8];
    forall i | 0 <= i <= |t| - 3
      ensures !OccursAt(t, "int", i)
    {
      assert t[i..i + 3][0] == t[i] && t[i..i + 3][1] == t[i + 1];
    }
    NotContainsAt(t, "int");
  }

  lemma DecimalLacksDate(len: string)
    requires LengthText(len)
    ensures !Contains("decimal(" + len + ")", "date")
  {
    var t := "decimal(" + len + ")";
    assert forall k :: 8 <= k < |t| - 1 ==> t[k] == len[k - 8];
    forall i | 0 <= i <= |t| - 4
      ensures !OccursAt(t, "date", i)
    {
      assert t[i..i + 4][0] == t[i] && t[i..i + 4][1] == t[i + 1];
    }
    NotContainsAt(t, "date");
  }

  lemma DecimalTyped(len: string)
    requires LengthText(len)
    ensures Lower("DECIMAL(" + len + ")") == "decimal(" + len + ")"
    ensures var t := "decimal(" + len + ")";
      !Contains(t, "int") && !Contains(t, "varchar") && !Contains(t, "text") && !Contains(t, "date")
      && !Contains(t, "datetime") && Contains(t, "decimal")
  {
    assert Lower("DECIMAL(") == "decimal(";
    LowerTyped("DECIMAL(", "decimal(", len);
    var t := "decimal(" + len + ")";
    DecimalLacksInt(len);
    DecimalLacksDate(len);
    assert "datetime"[..4] == "date";
    ContainsNeedlePrefix(t, "datetime", 4);
    assert 'v' !in t && 't' !in t;
    NotContainsFirstChar(t, "varchar");
    NotContainsFirstChar(t, "text");
    assert t[0..7] == "decimal";
    ContainsAt(t, "decimal", 0);
  }

  lemma ReadBackDecimal(len: string)
    requires LengthText(len)
    ensures TypeFromSql("DECIMAL(" + len + ")") == "decimal"
  {
    DecimalTyped(len);
    assert TypeFromLower("decimal(" + len + ")") == "decimal";
  }

  lemma TextTyped()
    ensures Lower("TEXT") == "text"
    ensures !Contains("text", "int") && !Contains("text", "varchar") && Contains("text", "text")
  {
    assert Lower("TEXT") == "text";
    NotContainsFirstChar("text", "int");
    NotContainsFirstChar("text", "varchar");
    ContainsAt("text", "text", 0);
  }

  lemma DateTyped()
    ensures Lower("DATE") == "date"
    ensures !Contains("date", "int") && !Contains("date", "varchar") && !Contains("date", "text")
    ensures Contains("date", "date") && !Contains("date", "datetime")
  {
    assert Lower("DATE") == "date";
    NotContainsFirstChar("date", "int");
    NotContainsFirstChar("date", "varchar");
    assert !OccursAt("date", "text", 0) by { assert "date"[0..4][0] == 'd'; }
    NotContainsAt("date", "text");
    ContainsAt("date", "date", 0);
    NotContainsAt("date", "datetime");
  }

  lemma DatetimeTyped()
    ensures Lower("DATETIME") == "datetime"
    ensures !Contains("datetime", "int") && !Contains("datetime", "varchar") && !Contains("datetime", "text")
    ensures Contains("datetime", "date") && Contains("datetime", "datetime")
  {
    assert Lower("DATETIME") == "datetime";
    var t := "datetime";
    forall i | 0 <= i <= |t| - 3
      ensures !OccursAt(t, "int", i)
    {
      assert t[i..i + 3][0] == t[i] && t[i..i + 3][1] == t[i + 1];
    }
    NotContainsAt(t, "int");
    NotContainsFirstChar(t, "varchar");
    forall i | 0 <= i <= |t| - 4
      ensures !OccursAt(t, "text", i)
    {
      assert t[i..i + 4][0] == t[i] && t[i..i + 4][1] == t[i + 1] && t[i..i + 4][2] == t[i + 2];
    }
    NotContainsAt(t, "text");
    assert t[0..4] == "date";
    ContainsAt(t, "date", 0);
    ContainsAt(t, "datetime", 0);
  }

  lemma ReadBackWords()
    ensures TypeFromSql("TEXT") == "text"
    ensures TypeFromSql("DATE") == "date"
    ensures TypeFromSql("DATETIME") == "datetime"
  {
    assert TypeFromSql("TEXT") == "text" by { TextTyped(); }
    assert TypeFromSql("DATE") == "date" by { DateTyped(); }
    assert TypeFromSql("DATETIME") == "datetime" by { DatetimeTyped(); }
  }

  /** A column created with a listed type reads back as that type, and any other type reads back as varchar. */
  lemma SqlTypeReadBack(ftype: string, length: string)
    requires LengthText(length)
    ensures TypeFromSql(SqlType(ftype, length)) == StoredType(ftype)
  {
    var stored := StoredType(ftype);
    var len := LengthOr(length, DefaultLength(stored));
    assert LengthText("11") && LengthText("255") && LengthText("10,2");
    if stored == "int" {
      ReadBackInt(len);
    } else if stored == "varchar" {
      ReadBackVarchar(len);
    } else if stored == "decimal" {
      ReadBackDecimal(len);
    } else {
      ReadBackWords();
    }
  }

  /**
    * A column of a type with a length reads back the length it was given,
    * or that type's default when none was; the other types read back none.
    */
  lemma SqlLengthReadBack(ftype: string, length: string)
    requires ')' !in length
    ensures HasLength(StoredType(ftype)) ==> LengthFromSql(SqlType(ftype, length)) == LengthOr(length, DefaultLength(StoredType(ftype)))
    ensures !HasLength(StoredType(ftype)) ==> LengthFromSql(SqlType(ftype, length)) == ""
  {
    var stored := StoredType(ftype);
    var len := LengthOr(length, DefaultLength(stored));
    if stored == "int" {
      LengthAfterOpen("INT(", len);
    } else if stored == "varchar" {
      LengthAfterOpen("VARCHAR(", len);
    } else if stored == "decimal" {
      LengthAfterOpen("DECIMAL(", len);
    } else if stored == "text" {
      LengthWithoutParen("TEXT");
    } else if stored == "date" {
      LengthWithoutParen("DATE");
    } else {
      LengthWithoutParen("DATETIME");
    }
  }

  /**
    * The length group survives a change of case: a type reported as
    * `open + len + ")"` up to case reads back `len`, since strtolower
    * moves neither parenthesis nor any digit or comma.
    */
  lemma {:induction false} LengthUpToCase(s: string, open: string, len: string)
    requires Lower(s) == Lower(open + len + ")")
    requires |open| >= 1 && open[|open| - 1] == '(' && '(' !in open[..|open| - 1]
    requires LengthText(len) && |len| >= 1
    ensures LengthFromSql(s) == len
  {
    var t := open + len + ")";
    assert |s| == |t|;
    forall i | 0 <= i < |s|
      ensures s[i] == '(' <==> t[i] == '('
      ensures IsDigit(t[i]) || t[i] == ',' || t[i] == ')' ==> s[i] == t[i]
    {
      assert Lower(s)[i] == Lower(t)[i];
    }
    forall k | 0 <= k < |len|
      ensures s[|open| + k] == len[k]
    {
      assert t[|open| + k] == len[k];
    }
    var o := s[..|open|];
    assert s[|open|..|open| + |len|] == len;
    assert s[|s| - 1] == t[|t| - 1] == ')';
    assert s == o + len + ")";
    assert o[|o| - 1] == '(' by { assert t[|open| - 1] == '('; }
    forall i | 0 <= i < |o| - 1
      ensures o[i] != '('
    {
      assert t[i] == open[i] && open[i] == open[..|open| - 1][i];
    }
    assert ')' !in len by { assert forall k :: 0 <= k < |len| ==> IsDigit(len[k]) || len[k] == ','; }
    LengthAfterOpen(o, len);
  }

  /** A type without "(" has none in any change of case either, so it reads back no length. */
  lemma NoLengthUpToCase(s: string, t: string)
    requires Lower(s) == Lower(t) && '(' !in t
    ensures LengthFromSql(s) == ""
  {
    forall i | 0 <= i < |s|
      ensures s[i] != '('
    {
      assert Lower(s)[i] == Lower(t)[i];
    }
    LengthWithoutParen(s);
  }

  /**
    * The round trip as SHOW COLUMNS reports it: a type that equals the
    * written one up to case (MySQL reports "int(11)" for "INT(11)") reads
    * back as the stored type and the typed or default length.
    */
  lemma ReportedTypeReadBack(reported: string, ftype: string, length: string)
    requires LengthText(length)
    requires Lower(reported) == Lower(SqlType(ftype, length))
    ensures TypeFromSql(reported) == StoredType(ftype)
    ensures LengthFromSql(reported) ==
      (if HasLength(StoredType(ftype)) then LengthOr(length, DefaultLength(StoredType(ftype))) else "")
  {
    SqlTypeReadBack(ftype, length);
    TypeUpToCase(reported, SqlType(ftype, length));
    ReportedLengthReadBack(reported, ftype, length);
  }

  /** get_field_type_from_sql lower-cases first, so it cannot tell two types apart that differ only in case. */
  lemma TypeUpToCase(s: string, t: string)
    requires Lower(s) == Lower(t)
    ensures TypeFromSql(s) == TypeFromSql(t)
  {
  }

  lemma ReportedLengthReadBack(reported: string, ftype: string, length: string)
    requires LengthText(length)
    requires Lower(reported) == Lower(SqlType(ftype, length))
    ensures LengthFromSql(reported) ==
      (if HasLength(StoredType(ftype)) then LengthOr(length, DefaultLength(StoredType(ftype))) else "")
  {
    var stored := StoredType(ftype);
    if HasLength(stored) {
      var len := LengthOr(length, DefaultLength(stored));
      assert LengthText(len) && |len| >= 1 by {
        assert LengthText("11") && LengthText("255") && LengthText("10,2");
      }
      var open := if stored == "int" then "INT(" else if stored == "varchar" then "VARCHAR(" else "DECIMAL(";
      assert SqlType(ftype, length) == open + len + ")";
      OpeningShape(open);
      LengthUpToCase(reported, open, len);
    } else {
      assert '(' !in SqlType(ftype, length);
      NoLengthUpToCase(reported, SqlType(ftype, length));
    }
  }

  /** The openings of the sized types end in their only "(". */
  lemma OpeningShape(open: string)
    requires open in ["INT(", "VARCHAR(", "DECIMAL("]
    ensures |open| >= 1 && open[|open| - 1] == '(' && '(' !in open[..|open| - 1]
  {
    if open == "INT(" {
      assert open[..|open| - 1] == "INT";
    } else if open == "VARCHAR(" {
      assert open[..|open| - 1] == "VARCHAR";
    } else {
      assert open[..|open| - 1] == "DECIMAL";
    }
  }

  // -----------------------------------------------------------------------
  // get_table_structure (the edit tab's reader)

  /** One column as Table_Manager::get_table_structure reports it. */
  datatype ColumnStructure = ColumnStructure(name: string, ftype: string, length: string, nullable: bool,
                                             default: Option<string>, extra: string, key: string,
                                             isPrimary: bool)

  /** A column's entry, classified by this file's get_field_type_from_sql. */
  function ColumnStructureOf(c: ColumnInfo): ColumnStructure
  {
    ColumnStructure(c.field, TypeFromSql(c.sqlType), LengthFromSql(c.sqlType), c.nullable == "YES",
                    c.default, c.extra, c.key, c.key == "PRI")
  }

  /**
    * get_table_structure: no entries when SHOW COLUMNS gives none,
    * otherwise one entry per column, in column order.
    */
  method GetTableStructure(tableName: string, showColumns: string -> seq<ColumnInfo>)
    returns (structure: seq<ColumnStructure>)
    ensures |structure| == |showColumns(tableName)|
    ensures forall i :: 0 <= i < |structure| ==> structure[i] == ColumnStructureOf(showColumns(tableName)[i])
  {
    var columns := showColumns(tableName);
    if columns == [] {
      return [];
    }
    structure := [];
    var i := 0;
    while i < |columns|
      invariant 0 <= i <= |columns|
      invariant |structure| == i
      invariant forall j :: 0 <= j < i ==> structure[j] == ColumnStructureOf(columns[j])
    {
      structure := structure + [ColumnStructureOf(columns[i])];
      i := i + 1;
    }
  }

  /**
    * An integer column that SHOW COLUMNS reports without a display width
    * ("int", as MySQL 8.0.19 and later do) reads back as int with no length.
    */
  lemma UnsizedIntReadBack(reported: string)
    requires Lower(reported) == "int"
    ensures TypeFromSql(reported) == "int" && LengthFromSql(reported) == ""
  {
    ContainsAt("int", "int", 0);
    NoLengthUpToCase(reported, "int");
  }

  /**
    * A column created with a listed type and a length of digits and
    * commas, whose type SHOW COLUMNS reports as written up to case, comes
    * back on the edit tab with that type (DATETIME
    * included) and that length, or the type's default length; it is
    * marked primary exactly when its key is PRI.
    */
  lemma ColumnStructureReadsBack(c: ColumnInfo, ftype: string, length: string)
    requires ftype in StoredTypes && LengthText(length)
    requires Lower(c.sqlType) == Lower(SqlType(ftype, length))
    ensures ColumnStructureOf(c).ftype == ftype
    ensures ColumnStructureOf(c).length == (if HasLength(ftype) then LengthOr(length, DefaultLength(ftype)) else "")
    ensures ColumnStructureOf(c).isPrimary <==> c.key == "PRI"
  {
    ReportedTypeReadBack(c.sqlType, ftype, length);
  }

  // -----------------------------------------------------------------------
  // create_table

  /** One column's entry in the CREATE TABLE list. */
  function Fragment(env: Env, f: FieldDef): string
  {
    env.sanitizeKey(f.name) + " " + ColumnDefinition(env, f)
  }

  /** The column entries, each followed by ", ". */
  function Fragments(env: Env, fields: seq<FieldDef>): string
  {
    if fields == [] then "" else Fragments(env, fields[..|fields| - 1]) + Fragment(env, fields[|fields| - 1]) + ", "
  }

  /** The first field flagged primary. */
  function FirstPrimary(fields: seq<FieldDef>): (r: Option<nat>)
    ensures r.Some? ==> r.value < |fields| && Flag(fields[r.value].primary)
    ensures r.Some? ==> forall j :: 0 <= j < r.value ==> !Flag(fields[j].primary)
    ensures r.None? ==> forall j :: 0 <= j < |fields| ==> !Flag(fields[j].primary)
  {
    if fields == [] then None
    else if Flag(fields[0].primary) then Some(0)
    else match FirstPrimary(fields[1..])
      case None => None
      case Some(j) => Some(j + 1)
  }

  /** The characters rtrim removes when there is no primary key. */
  const ListSeparator: set<char> := {',', ' '}

  function Head(table: string): string
  {
    "CREATE TABLE " + table + " ("
  }

  /** The PRIMARY KEY entry naming a field. */
  function PrimaryKeyEntry(env: Env, f: FieldDef): string
  {
    "PRIMARY KEY  (" + env.sanitizeKey(f.name) + ")"
  }

  /** The PRIMARY KEY entry of the first field flagged primary, if any. */
  function PrimaryKeyClause(env: Env, fields: seq<FieldDef>): string
  {
    match FirstPrimary(fields)
    case Some(i) => PrimaryKeyEntry(env, fields[i])
    case None => ""
  }

  /** The statement create_table hands to dbDelta. */
  function CreateTableSql(env: Env, table: string, fields: seq<FieldDef>, charsetCollate: string): string
  {
    OpenStatement(env, table, fields) + ") " + charsetCollate + ";"
  }

  /** The statement up to its closing parenthesis: the trailing ", " stays before a PRIMARY KEY entry and is trimmed otherwise. */
  function OpenStatement(env: Env, table: string, fields: seq<FieldDef>): string
  {
    var open := Head(table) + Fragments(env, fields);
    if FirstPrimary(fields).Some? then open + PrimaryKeyClause(env, fields) else TrimRight(open, ListSeparator)
  }

  /**
    * Without a primary key, rtrim removes exactly the ", " after the last
    * column when that column's definition ends with a kept character.
    */
  lemma CreateTableWithoutPrimary(env: Env, table: string, fields: seq<FieldDef>, charsetCollate: string)
    requires fields != [] && FirstPrimary(fields).None?
    requires var c := ColumnDefinition(env, fields[|fields| - 1]); c[|c| - 1] !in ListSeparator
    ensures CreateTableSql(env, table, fields, charsetCollate)
         == Head(table) + Fragments(env, fields[..|fields| - 1]) + Fragment(env, fields[|fields| - 1]) + ") " + charsetCollate + ";"
  {
    var h, a, last := Head(table), Fragments(env, fields[..|fields| - 1]), fields[|fields| - 1];
    var fr := Fragment(env, last);
    FragmentEnd(env, last);
    var p := h + a + fr;
    ConcatEnd(h + a, fr);
    ConcatRegroup(h, a, fr, ", ");
    TrimRightSuffix(p, ", ", ListSeparator);
  }

  /** A column entry ends as its definition does. */
  lemma FragmentEnd(env: Env, f: FieldDef)
    requires var c := ColumnDefinition(env, f); c != [] && c[|c| - 1] !in ListSeparator
    ensures var fr := Fragment(env, f); fr != [] && fr[|fr| - 1] !in ListSeparator
  {
    var c := ColumnDefinition(env, f);
    var fr := Fragment(env, f);
    assert fr == (env.sanitizeKey(f.name) + " ") + c;
    assert fr[|fr| - 1] == c[|c| - 1];
  }

  lemma ConcatEnd(x: string, y: string)
    requires y != []
    ensures (x + y)[|x + y| - 1] == y[|y| - 1]
  {
  }

  lemma ConcatRegroup(h: string, a: string, b: string, t: string)
    ensures h + (a + b + t) == (h + a + b) + t
  {
  }

  /** With a primary key, the list ends with the first primary field's PRIMARY KEY entry. */
  lemma CreateTableWithPrimary(env: Env, table: string, fields: seq<FieldDef>, charsetCollate: string, i: nat)
    requires i < |fields| && Flag(fields[i].primary)
    requires forall j :: 0 <= j < i ==> !Flag(fields[j].primary)
    ensures CreateTableSql(env, table, fields, charsetCollate)
         == Head(table) + Fragments(env, fields) + PrimaryKeyEntry(env, fields[i]) + ") " + charsetCollate + ";"
  {
    FirstPrimaryAt(fields, i);
  }

  const InvalidCreateParams := WpError("invalid_params", "Invalid parameters for table creation")
  const TableAlreadyExists := WpError("table_exists", "Table already exists")
  const CreationFailed := WpError("creation_failed", "Table creation failed")
  const InvalidTableName := WpError("invalid_params", "Invalid table name")
  const TableNotExists := WpError("table_not_exists", "Table does not exist")
  const DeletionFailed := WpError("deletion_failed", "Table deletion failed")

  lemma FirstPrimaryExtend(fields: seq<FieldDef>)
    requires |fields| >= 1
    ensures FirstPrimary(fields).Some? <==> FirstPrimary(fields[..|fields| - 1]).Some? || Flag(fields[|fields| - 1].primary)
  {
    if FirstPrimary(fields).Some? {
      var i := FirstPrimary(fields).value;
      if i < |fields| - 1 {
        assert fields[..|fields| - 1][i] == fields[i];
      }
    }
  }

  lemma FirstPrimaryAt(fields: seq<FieldDef>, j: nat)
    requires j < |fields| && Flag(fields[j].primary)
    requires forall k :: 0 <= k < j ==> !Flag(fields[k].primary)
    ensures FirstPrimary(fields) == Some(j)
  {
  }

  /** The first loop of create_table: every column's entry followed by ", ", and whether any field is flagged primary. */
  method ColumnEntries(env: Env, fields: seq<FieldDef>) returns (list: string, hasPrimaryKey: bool)
    ensures list == Fragments(env, fields)
    ensures hasPrimaryKey <==> FirstPrimary(fields).Some?
  {
    list := "";
    hasPrimaryKey := false;
    var i := 0;
    while i < |fields|
      invariant 0 <= i <= |fields|
      invariant list == Fragments(env, fields[..i])
      invariant hasPrimaryKey <==> FirstPrimary(fields[..i]).Some?
    {
      var f := fields[i];
      var column := AppendColumnDefinition(env, f, env.sanitizeKey(f.name) + " ");
      if Flag(f.primary) {
        hasPrimaryKey := true;
      }
      list := list + column + ", ";
      assert fields[..i + 1][..i] == fields[..i];
      FirstPrimaryExtend(fields[..i + 1]);
      i := i + 1;
    }
    assert fields[..i] == fields;
  }

  /** The second loop of create_table: the PRIMARY KEY entry of the first field flagged primary, if any. */
  method PrimaryKeyEntries(env: Env, fields: seq<FieldDef>) returns (entry: string)
    ensures entry == PrimaryKeyClause(env, fields)
  {
    ghost var first := FirstPrimary(fields);
    entry := "";
    var j := 0;
    var added := false;
    while j < |fields| && !added
      invariant 0 <= j <= |fields|
      invariant !added ==> entry == "" && (first.None? || j <= first.value)
      invariant added ==> first.Some? && entry == PrimaryKeyEntry(env, fields[first.value])
    {
      if Flag(fields[j].primary) {
        entry := PrimaryKeyEntry(env, fields[j]);
        added := true;
      }
      j := j + 1;
    }
  }

  /** The statement create_table builds: the column list, then the primary key or, without one, the list rtrimmed. */
  method BuildCreateTableSql(env: Env, table: string, fields: seq<FieldDef>, charsetCollate: string) returns (sql: string)
    ensures sql == CreateTableSql(env, table, fields, charsetCollate)
  {
    var list, hasPrimaryKey := ColumnEntries(env, fields);
    var open := "CREATE TABLE " + table + " (" + list;
    var entry := PrimaryKeyEntries(env, fields);
    sql := open + entry;
    if !hasPrimaryKey {
      assert sql == open;
      sql := TrimRight(sql, ListSeparator);
    }
    assert sql == OpenStatement(env, table, fields);
    sql := sql + ") " + charsetCollate + ";";
  }

  /**
    * create_table: rejects an empty name or no fields before any SQL,
    * rejects an existing table, then sends the CREATE TABLE statement and
    * reports failure when the table does not exist afterwards.
    */
  method CreateTable(env: Env, db: Database, table: string, fields: seq<FieldDef>, charsetCollate: string)
    returns (r: Option<WpError>)
    modifies db
    ensures !Truthy(table) || fields == [] ==>
      r == Some(InvalidCreateParams) && db.log == old(db.log) && db.state == old(db.state)
    ensures Truthy(table) && fields != [] && table in old(db.state.tables) ==>
      r == Some(TableAlreadyExists) && db.log == old(db.log) && db.state == old(db.state)
    ensures Truthy(table) && fields != [] && table !in old(db.state.tables) ==>
      var s := Store.CreateTable(table, CreateTableSql(env, table, fields, charsetCollate));
      && db.log == old(db.log) + [s]
      && (r.None? <==> db.accepts(s))
      && (r.Some? ==> r.value == CreationFailed)
      && (r.None? ==> table in db.state.tables)
  {
    if !Truthy(table) || fields == [] {
      return Some(InvalidCreateParams);
    }
    if db.TableExists(table) {
      return Some(TableAlreadyExists);
    }
    var sql := BuildCreateTableSql(env, table, fields, charsetCollate);
    var ok, err := db.Run(Store.CreateTable(table, sql));
    if !db.TableExists(table) {
      return Some(CreationFailed);
    }
    return None;
  }

  /** delete_table. */
  method DeleteTable(env: Env, db: Database, table: string) returns (r: Option<WpError>)
    modifies db
    ensures !Truthy(table) ==> r == Some(InvalidTableName) && db.log == old(db.log) && db.state == old(db.state)
    ensures Truthy(table) && table !in old(db.state.tables) ==>
      r == Some(TableNotExists) && db.log == old(db.log) && db.state == old(db.state)
    ensures Truthy(table) && table in old(db.state.tables) ==>
      && db.log == old(db.log) + [DropTable(table)]
      && (r.None? <==> db.accepts(DropTable(table)))
      && (r.Some? ==> r.value == DeletionFailed)
      && (r.None? ==> table !in db.state.tables)
  {
    if !Truthy(table) {
      return Some(InvalidTableName);
    }
    if !db.TableExists(table) {
      return Some(TableNotExists);
    }
    var ok, err := db.Run(DropTable(table));
    if !ok {
      return Some(DeletionFailed);
    }
    return None;
  }

  // -----------------------------------------------------------------------
  // modify_table

  /** One requested change: its `type` and the `field` it names. */
  datatype Operation = Operation(kind: string, field: string)

  /** get_field_by_name's answer: the first definition with exactly that name. */
  function FirstByName(fields: seq<FieldDef>, name: string): (r: Option<nat>)
    ensures r.Some? ==> r.value < |fields| && fields[r.value].name == name
    ensures r.Some? ==> forall j :: 0 <= j < r.value ==> fields[j].name != name
    ensures r.None? ==> forall j :: 0 <= j < |fields| ==> fields[j].name != name
  {
    if fields == [] then None
    else if fields[0].name == name then Some(0)
    else match FirstByName(fields[1..], name)
      case None => None
      case Some(j) => Some(j + 1)
  }

  /** get_field_by_name. */
  method GetFieldByName(fields: seq<FieldDef>, name: string) returns (r: Option<FieldDef>)
    ensures r.None? <==> FirstByName(fields, name).None?
    ensures r.Some? ==> r.value == fields[FirstByName(fields, name).value]
  {
    var i := 0;
    while i < |fields|
      invariant 0 <= i <= |fields|
      invariant forall j :: 0 <= j < i ==> fields[j].name != name
    {
      if fields[i].name == name {
        FirstByNameAt(fields, name, i);
        return Some(fields[i]);
      }
      i := i + 1;
    }
    return None;
  }

  lemma FirstByNameAt(fields: seq<FieldDef>, name: string, i: int)
    requires 0 <= i < |fields| && fields[i].name == name
    requires forall j :: 0 <= j < i ==> fields[j].name != name
    ensures FirstByName(fields, name) == Some(i)
  {
    var r := FirstByName(fields, name);
    assert r.Some?;
    if r.value < i {
    } else if r.value > i {
    }
  }

  /** The statement one operation contributes: add/modify need a definition, drop always emits, other types nothing. */
  function OperationSql(env: Env, table: string, fields: seq<FieldDef>, op: Operation): Option<string>
  {
    if op.kind == "add" then
      match FirstByName(fields, op.field)
      case Some(i) => Some(AddColumnText(env, table, fields[i]))
      case None => None
    else if op.kind == "modify" then
      match FirstByName(fields, op.field)
      case Some(i) => Some(ModifyColumnText(env, table, fields[i]))
      case None => None
    else if op.kind == "drop" then Some(DropColumnSql(env, table, op.field))
    else None
  }

  /** The statements of the operations, in operation order. */
  function Statements(env: Env, table: string, fields: seq<FieldDef>, ops: seq<Operation>): seq<string>
  {
    if ops == [] then []
    else
      var init := Statements(env, table, fields, ops[..|ops| - 1]);
      match OperationSql(env, table, fields, ops[|ops| - 1])
      case None => init
      case Some(s) => init + [s]
  }

  function Alters(table: string, stmts: seq<string>): (r: seq<Statement>)
    ensures |r| == |stmts| && forall i :: 0 <= i < |stmts| ==> r[i] == Alter(table, stmts[i])
  {
    if stmts == [] then [] else Alters(table, stmts[..|stmts| - 1]) + [Alter(table, stmts[|stmts| - 1])]
  }

  /** The database errors of the rejected statements, in order. */
  function Rejections(accepts: Statement -> bool, errorOf: Statement -> string, table: string, stmts: seq<string>): seq<string>
  {
    if stmts == [] then []
    else
      var init := Rejections(accepts, errorOf, table, stmts[..|stmts| - 1]);
      var s := Alter(table, stmts[|stmts| - 1]);
      if accepts(s) then init else init + [errorOf(s)]
  }

  lemma {:induction false} RejectionsEmpty(accepts: Statement -> bool, errorOf: Statement -> string, table: string, stmts: seq<string>)
    ensures Rejections(accepts, errorOf, table, stmts) == [] <==> forall i :: 0 <= i < |stmts| ==> accepts(Alter(table, stmts[i]))
    decreases |stmts|
  {
    if stmts != [] {
      RejectionsEmpty(accepts, errorOf, table, stmts[..|stmts| - 1]);
    }
  }

  /** The modification error: every database error, joined by ", ". */
  function ModificationFailed(errors: seq<string>): WpError
  {
    WpError("modification_failed", "Table modification failed: " + Implode(", ", errors))
  }

  /** The first loop of modify_table: the statements of the operations, in order. */
  method CollectStatements(env: Env, table: string, fields: seq<FieldDef>, ops: seq<Operation>) returns (stmts: seq<string>)
    ensures stmts == Statements(env, table, fields, ops)
  {
    stmts := [];
    var i := 0;
    while i < |ops|
      invariant 0 <= i <= |ops|
      invariant stmts == Statements(env, table, fields, ops[..i])
    {
      var op := ops[i];
      assert ops[..i + 1][..i] == ops[..i];
      if op.kind == "add" {
        var field := GetFieldByName(fields, op.field);
        if field.Some? {
          var s := AddColumnSql(env, table, field.value);
          stmts := stmts + [s];
        }
      } else if op.kind == "modify" {
        var field := GetFieldByName(fields, op.field);
        if field.Some? {
          var s := ModifyColumnSql(env, table, field.value);
          stmts := stmts + [s];
        }
      } else if op.kind == "drop" {
        stmts := stmts + [DropColumnSql(env, table, op.field)];
      }
      i := i + 1;
    }
    assert ops[..i] == ops;
  }

  /**
    * modify_table: checks the name and the table, then runs every
    * statement even after one fails, and fails with all the errors joined.
    */
  method ModifyTable(env: Env, db: Database, table: string, fields: seq<FieldDef>, ops: seq<Operation>)
    returns (r: Option<WpError>)
    modifies db
    ensures !Truthy(table) ==> r == Some(InvalidTableName) && db.log == old(db.log) && db.state == old(db.state)
    ensures Truthy(table) && table !in old(db.state.tables) ==>
      r == Some(TableNotExists) && db.log == old(db.log) && db.state == old(db.state)
    ensures Truthy(table) && table in old(db.state.tables) ==>
      var stmts := Statements(env, table, fields, ops);
      && db.log == old(db.log) + Alters(table, stmts)
      && db.state == old(db.state)
      && (r.None? <==> forall i :: 0 <= i < |stmts| ==> db.accepts(Alter(table, stmts[i])))
      && (r.Some? ==> r.value == ModificationFailed(Rejections(db.accepts, db.errorOf, table, stmts)))
  {
    if !Truthy(table) {
      return Some(InvalidTableName);
    }
    if !db.TableExists(table) {
      return Some(TableNotExists);
    }
    var stmts := CollectStatements(env, table, fields, ops);
    var errors := RunStatements(db, table, stmts);
    RejectionsEmpty(db.accepts, db.errorOf, table, stmts);
    if errors != [] {
      return Some(ModificationFailed(errors));
    }
    return None;
  }

  /** The second loop of modify_table: every ALTER runs, and each failure adds its error. */
  method RunStatements(db: Database, table: string, stmts: seq<string>) returns (errors: seq<string>)
    modifies db
    ensures db.log == old(db.log) + Alters(table, stmts)
    ensures db.state == old(db.state)
    ensures errors == Rejections(db.accepts, db.errorOf, table, stmts)
  {
    errors := [];
    var i := 0;
    while i < |stmts|
      invariant 0 <= i <= |stmts|
      invariant db.log == old(db.log) + Alters(table, stmts[..i])
      invariant db.state == old(db.state)
      invariant errors == Rejections(db.accepts, db.errorOf, table, stmts[..i])
    {
      assert stmts[..i + 1][..i] == stmts[..i];
      var ok, err := db.Run(Alter(table, stmts[i]));
      if !ok {
        errors := errors + [err];
      }
      i := i + 1;
    }
    assert stmts[..i] == stmts;
  }
}

=== FILE: table_rows.dfy ===
/**
  * render_table_row: one listing row as a view-model. Each configured
  * column gives one cell, in column order, formatted by the column's
  * display type; the row then carries edit and delete links whose nonces
  * are scoped to the row's primary-key value, or a "No Primary Key" cell.
  */
module TableRows {
  import opened Php
  import opened WordPress
  import opened Store
  import opened Shortcode

  /** A cell's content before escaping: a link for a non-empty url, line breaks kept for a textarea, plain text otherwise. */
  datatype Cell = Link(url: string) | Multiline(text: string) | Plain(text: string)

  /** The query arguments of the edit and delete links, or the "No Primary Key" cell. */
  datatype RowActions = Actions(edit: seq<(string, string)>, delete: seq<(string, string)>) | NoPrimaryKey

  datatype RowView = RowView(cells: seq<Cell>, actions: RowActions)

  /** A value as a cell of the given display type. */
  function CellOf(value: string, displayType: string): (c: Cell)
    ensures c.Link? <==> displayType == "url" && Truthy(value)
    ensures c.Multiline? <==> displayType == "textarea"
    ensures c == Link(value) || c == Multiline(value) || c == Plain(value)
  {
    if displayType == "url" && Truthy(value) then Link(value)
    else if displayType == "textarea" then Multiline(value)
    else Plain(value)
  }

  /** The value a row shows for a column: an absent (NULL) column shows as "". */
  function ValueIn(row: Row, field: string): string
  {
    if field in row then row[field] else ""
  }

  /** The cell for the i-th column. */
  function CellAt(row: Row, columns: PArray<Column>, i: nat): (c: Cell)
    requires columns.Valid() && i < |columns.keys|
  {
    var field := columns.keys[i];
    CellOf(ValueIn(row, field), columns.vals[field].displayType)
  }

  /** The cells of the first n columns, in order. */
  function CellsOf(row: Row, columns: PArray<Column>, n: nat): (r: seq<Cell>)
    requires columns.Valid() && n <= |columns.keys|
    ensures |r| == n
  {
    if n == 0 then [] else CellsOf(row, columns, n - 1) + [CellAt(row, columns, n - 1)]
  }

  /** The i-th cell shows the i-th column's value (or "") formatted by that column's display type. */
  lemma {:induction false} CellsOfAt(row: Row, columns: PArray<Column>, n: nat)
    requires columns.Valid() && n <= |columns.keys|
    ensures forall i :: 0 <= i < n ==>
      CellsOf(row, columns, n)[i] == CellOf(ValueIn(row, columns.keys[i]), columns.vals[columns.keys[i]].displayType)
  {
    if n > 0 {
      CellsOfAt(row, columns, n - 1);
    }
  }

  function ActionArgs(env: Env, action: string, id: string): seq<(string, string)>
  {
    [(action, id), ("_wpnonce", env.createNonce(action + "_" + id))]
  }

  function ActionsOf(env: Env, row: Row, primaryKey: string): (r: RowActions)
    ensures r.Actions? <==> primaryKey in row
    ensures r.Actions? ==>
      (r.edit == ActionArgs(env, "edit_record", row[primaryKey]) &&
       r.delete == ActionArgs(env, "delete_record", row[primaryKey]))
  {
    if primaryKey in row then
      Actions(ActionArgs(env, "edit_record", row[primaryKey]), ActionArgs(env, "delete_record", row[primaryKey]))
    else NoPrimaryKey
  }

  /** The row as render_table_row writes it. */
  function RowViewOf(env: Env, row: Row, columns: PArray<Column>, primaryKey: string): RowView
    requires columns.Valid()
  {
    RowView(CellsOf(row, columns, |columns.keys|), ActionsOf(env, row, primaryKey))
  }

  /** The cell loop of render_table_row: one cell per column, in column order. */
  method RenderCells(row: Row, columns: PArray<Column>) returns (cells: seq<Cell>)
    requires columns.Valid()
    ensures cells == CellsOf(row, columns, |columns.keys|)
  {
    var fields := columns.keys;
    cells := [];
    var i := 0;
    while i < |fields|
      invariant 0 <= i <= |fields|
      invariant cells == CellsOf(row, columns, i)
    {
      var field := fields[i];
      var value := if field in row then row[field] else "";
      var displayType := columns.vals[field].displayType;
      var cell: Cell;
      if displayType == "url" && Truthy(value) {
        cell := Link(value);
      } else if displayType == "textarea" {
        cell := Multiline(value);
      } else {
        cell := Plain(value);
      }
      assert cell == CellAt(row, columns, i);
      cells := cells + [cell];
      i := i + 1;
    }
  }

  /** render_table_row: the cells, then the edit and delete links or the "No Primary Key" cell. */
  method RenderTableRow(env: Env, row: Row, columns: PArray<Column>, primaryKey: string) returns (view: RowView)
    requires columns.Valid()
    ensures view == RowViewOf(env, row, columns, primaryKey)
    ensures |view.cells| == |columns.keys|
    ensures forall i :: 0 <= i < |columns.keys| ==>
      view.cells[i] == CellOf(ValueIn(row, columns.keys[i]), columns.vals[columns.keys[i]].displayType)
  {
    var cells := RenderCells(row, columns);
    CellsOfAt(row, columns, |columns.keys|);
    var actions: RowActions;
    if primaryKey in row {
      var id := row[primaryKey];
      actions := Actions([("edit_record", id), ("_wpnonce", env.createNonce("edit_record" + "_" + id))],
                         [("delete_record", id), ("_wpnonce", env.createNonce("delete_record" + "_" + id))]);
    } else {
      actions := NoPrimaryKey;
    }
    view := RowView(cells, actions);
  }
}

=== FILE: views.dfy ===
/**
  * The frontend templates as view-models: what each template decides
  * (which inputs, which values, which links and markers), not the HTML
  * it prints. Each template is a function of the variables render_table
  * hands it.
  */
module Views {
  import opened Php
  import opened WordPress
  import opened Store
  import opened Shortcode
  import opened TableRows

  // -----------------------------------------------------------------------
  // form-view.php

  /** The control a field renders as. */
  datatype Widget =
    | ReadonlyPair                    // a disabled input plus a hidden input carrying the same name and value
    | TextArea
    | Checkbox(checked: bool)         // posts "1" when checked
    | KeyValueSelect
    | Input(step: bool, pattern: bool) // step="any" for number, the http(s) pattern for url

  datatype FieldView = FieldView(name: string, caption: string, inputType: string, readonly: bool,
                                 value: string, error: bool, widget: Widget)

  datatype FormView = FormView(
    formType: string,           // the hidden form_type
    nonceAction: string,        // wp_nonce_field's action, posted as crud_nonce
    recordId: Option<string>,   // the hidden record_id carrier
    fields: seq<FieldView>,
    submitName: string,
    cancel: Option<Redirect>)

  /** A field's value: what was posted, else the edited row's value, else "". */
  function FieldValue(post: map<string, string>, editing: bool, editRow: Option<Row>, field: string): string
  {
    if field in post then post[field]
    else if editing && editRow.Some? && field in editRow.value then editRow.value[field]
    else ""
  }

  /**
    * The required-field marker: the form was posted and the field's value
    * trims to empty, that is, consists of trim()'s whitespace only (see
    * TrimEmpty).
    */
  predicate FieldError(post: map<string, string>, field: string)
  {
    "form_type" in post && field in post && TrimsAway(post[field], PhpWhitespace)
  }

  function WidgetOf(readonly: bool, inputType: string, value: string): (w: Widget)
    ensures w.ReadonlyPair? <==> readonly
    ensures w.Checkbox? ==> (w.checked <==> value == "1")
  {
    if readonly then ReadonlyPair
    else if inputType == "textarea" then TextArea
    else if inputType == "checkbox" then Checkbox(value == "1")
    else if inputType == "key-value" then KeyValueSelect
    else Input(inputType == "number", inputType == "url")
  }

  function FieldViewOf(field: string, meta: Column, post: map<string, string>, editing: bool, editRow: Option<Row>): FieldView
  {
    var readonly := meta.readonly == "true";
    var value := FieldValue(post, editing, editRow, field);
    FieldView(field, meta.displayName, meta.displayType, readonly, value, FieldError(post, field),
              WidgetOf(readonly, meta.displayType, value))
  }

  /** form-view.php, given the columns, $_POST, $editing, $edit_data and the primary key. */
  function FormViewOf(columns: PArray<Column>, post: map<string, string>, editing: bool, editRow: Option<Row>,
                      primaryKey: string): (v: FormView)
    requires columns.Valid()
    ensures v.formType == "data_form" && v.nonceAction == "crud_form_nonce"
    ensures v.recordId.Some? <==> editing && editRow.Some?
    ensures v.recordId.Some? ==> v.recordId.value == ValueIn(editRow.value, primaryKey)
    ensures |v.fields| == |columns.keys|
    ensures forall i :: 0 <= i < |columns.keys| ==>
      v.fields[i] == FieldViewOf(columns.keys[i], columns.vals[columns.keys[i]], post, editing, editRow)
    ensures v.submitName == (if editing then "update_record" else "add_record")
    ensures v.cancel.Some? <==> editing
    ensures v.cancel.Some? ==> v.cancel.value == Redirect(["edit_record", "_wpnonce"], [])
  {
    var ks := columns.keys;
    FormView("data_form", "crud_form_nonce",
             if editing && editRow.Some? then Some(ValueIn(editRow.value, primaryKey)) else None,
             seq(|ks|, i requires 0 <= i < |ks| => FieldViewOf(ks[i], columns.vals[ks[i]], post, editing, editRow)),
             if editing then "update_record" else "add_record",
             if editing then Some(Redirect(["edit_record", "_wpnonce"], [])) else None)
  }

  /** A field is shown read-only exactly when its readonly attribute is "true", and then as the disabled/hidden pair. */
  lemma ReadonlyCarried(field: string, meta: Column, post: map<string, string>, editing: bool, editRow: Option<Row>)
    ensures var f := FieldViewOf(field, meta, post, editing, editRow);
      && (f.readonly <==> meta.readonly == "true")
      && (f.readonly <==> f.widget == ReadonlyPair)
  {
  }

  /**
    * The parameters the form posts when submitted as displayed: the hidden
    * inputs, then every field except an unchecked checkbox (a read-only
    * field posts through its hidden twin, the disabled input posts nothing).
    */
  function Submitted(v: FormView, nonce: string): (post: map<string, string>)
    ensures forall i :: 0 <= i < |v.fields| && v.fields[i].widget != Checkbox(false) ==> v.fields[i].name in post
  {
    var carrier := if v.recordId.Some? then map["record_id" := v.recordId.value] else map[];
    map["form_type" := v.formType, "crud_nonce" := nonce] + carrier + FieldParams(v.fields)
  }

  /**
    * The fields' own parameters. A key-value select posts its shown value,
    * as if the option the loadFields call adds had been chosen;
    * wp_nonce_field's _wp_http_referer is not among the parameters.
    */
  function FieldParams(fs: seq<FieldView>): (m: map<string, string>)
    ensures forall i :: 0 <= i < |fs| && fs[i].widget != Checkbox(false) ==> fs[i].name in m
  {
    if fs == [] then map[]
    else
      var f := fs[|fs| - 1];
      var m := FieldParams(fs[..|fs| - 1]);
      if f.widget == Checkbox(false) then m
      else m[f.name := if f.widget.Checkbox? then "1" else f.value]
  }

  /** Only the shown fields that send a value are posted. */
  lemma {:induction false} FieldParamsOnlySent(fs: seq<FieldView>)
    ensures forall k :: k in FieldParams(fs) ==> exists i :: 0 <= i < |fs| && fs[i].name == k && fs[i].widget != Checkbox(false)
  {
    if fs != [] {
      var init := fs[..|fs| - 1];
      FieldParamsOnlySent(init);
      forall k | k in FieldParams(fs)
        ensures exists i :: 0 <= i < |fs| && fs[i].name == k && fs[i].widget != Checkbox(false)
      {
        if k in FieldParams(init) {
          var i :| 0 <= i < |init| && init[i].name == k && init[i].widget != Checkbox(false);
          assert fs[i] == init[i];
        } else {
          assert fs[|fs| - 1].name == k;
        }
      }
    }
  }

  /** The hidden inputs reach the post unchanged when no field shadows them. */
  lemma SubmittedCarries(v: FormView, nonce: string)
    requires forall i :: 0 <= i < |v.fields| ==>
      v.fields[i].name != "form_type" && v.fields[i].name != "crud_nonce" &&
      v.fields[i].name != "record_id" && v.fields[i].name != "update_record"
    ensures var post := Submitted(v, nonce);
      && "form_type" in post && post["form_type"] == v.formType
      && "crud_nonce" in post && post["crud_nonce"] == nonce
      && ("record_id" in post <==> v.recordId.Some?)
      && (v.recordId.Some? ==> post["record_id"] == v.recordId.value)
      && "update_record" !in post
  {
    var fields := FieldParams(v.fields);
    FieldParamsOnlySent(v.fields);
    assert "form_type" !in fields && "crud_nonce" !in fields && "record_id" !in fields && "update_record" !in fields;
  }

  /** The value FieldParams posts for field i, when the names are distinct. */
  lemma {:induction false} FieldParamsValue(fs: seq<FieldView>, i: int)
    requires forall a, b :: 0 <= a < b < |fs| ==> fs[a].name != fs[b].name
    requires forall a :: 0 <= a < |fs| && fs[a].widget.Checkbox? ==> (fs[a].widget.checked <==> fs[a].value == "1")
    requires 0 <= i < |fs| && fs[i].widget != Checkbox(false)
    ensures FieldParams(fs)[fs[i].name] == fs[i].value
    decreases |fs|
  {
    var f := fs[|fs| - 1];
    if i < |fs| - 1 {
      FieldParamsValue(fs[..|fs| - 1], i);
    }
  }

  /**
    * Submitting the form unchanged and re-displaying it (as after "All
    * fields are required.") shows every field with the value it had,
    * except an unchecked checkbox, which falls back to the edited row.
    * The error marker then appears exactly on the fields whose value
    * trims to empty.
    */
  lemma RedisplayKeepsValues(columns: PArray<Column>, post: map<string, string>, editing: bool, editRow: Option<Row>,
                             primaryKey: string, nonce: string, i: int)
    requires columns.Valid()
    requires forall k :: k in columns.keys ==> k != "form_type" && k != "crud_nonce" && k != "record_id"
    requires 0 <= i < |columns.keys|
    ensures var v := FormViewOf(columns, post, editing, editRow, primaryKey);
      var v' := FormViewOf(columns, Submitted(v, nonce), editing, editRow, primaryKey);
      v.fields[i].widget != Checkbox(false) ==>
        && v'.fields[i].value == v.fields[i].value
        && (v'.fields[i].error <==> Trim(v.fields[i].value, PhpWhitespace) == "")
  {
    var v := FormViewOf(columns, post, editing, editRow, primaryKey);
    if v.fields[i].widget != Checkbox(false) {
      FieldParamsValue(v.fields, i);
      var k := columns.keys[i];
      assert v.fields[i].name == k;
      assert Submitted(v, nonce)[k] == FieldParams(v.fields)[k];
      TrimEmpty(v.fields[i].value, PhpWhitespace);
    }
  }

  // -----------------------------------------------------------------------
  // table-view.php

  /** A column header: its label, the `order` its link sets, and the sort indicator's class. */
  datatype HeaderView = HeaderView(column: string, caption: string, linkOrder: string, indicator: Option<string>)

  datatype TableBody = Rows(rows: seq<RowView>) | NoRecords(colspan: int)

  /** The headers (an Actions header follows them) and the body. */
  datatype TableView = TableView(headers: seq<HeaderView>, body: TableBody)

  /** The `order` a header link sets: descending only to flip the current ascending sort. */
  function NewOrder(orderBy: string, orderDir: string, column: string): string
  {
    if orderBy == column && orderDir == "ASC" then "desc" else "asc"
  }

  function HeaderOf(column: string, meta: Column, orderBy: string, orderDir: string): HeaderView
  {
    HeaderView(column, meta.displayName, NewOrder(orderBy, orderDir, column),
               if orderBy == column then Some(Lower(orderDir)) else None)
  }

  /** table-view.php, given the columns, the sort, the fetched rows and the primary key. */
  function TableViewOf(env: Env, columns: PArray<Column>, orderBy: string, orderDir: string,
                       rows: seq<Row>, primaryKey: string): (v: TableView)
    requires columns.Valid()
    ensures |v.headers| == |columns.keys|
    ensures forall i :: 0 <= i < |columns.keys| ==>
      v.headers[i] == HeaderOf(columns.keys[i], columns.vals[columns.keys[i]], orderBy, orderDir)
    ensures v.body.Rows? <==> rows != []
    ensures v.body.Rows? ==>
      && |v.body.rows| == |rows|
      && forall j :: 0 <= j < |rows| ==> v.body.rows[j] == RowViewOf(env, rows[j], columns, primaryKey)
  {
    var ks := columns.keys;
    TableView(seq(|ks|, i requires 0 <= i < |ks| => HeaderOf(ks[i], columns.vals[ks[i]], orderBy, orderDir)),
              if rows != [] then Rows(seq(|rows|, j requires 0 <= j < |rows| => RowViewOf(env, rows[j], columns, primaryKey)))
              else NoRecords(columns.Count() + 1))
  }

  /**
    * The "No records found" row spans every column header and the Actions
    * header; a row of records has exactly as many cells as there are headers.
    */
  lemma TableIsRectangular(env: Env, columns: PArray<Column>, orderBy: string, orderDir: string,
                           rows: seq<Row>, primaryKey: string)
    requires columns.Valid()
    ensures var v := TableViewOf(env, columns, orderBy, orderDir, rows, primaryKey);
      && (v.body.NoRecords? ==> v.body.colspan == |v.headers| + 1)
      && (v.body.Rows? ==> forall j :: 0 <= j < |v.body.rows| ==> |v.body.rows[j].cells| == |v.headers|)
  {
  }

  /**
    * At most one header carries the sort indicator, the one of the current
    * sort column, classed with the lower-cased direction; and a header
    * link asks for descending order exactly on that column when it is
    * sorted ascending.
    */
  lemma OneSortIndicator(env: Env, columns: PArray<Column>, orderBy: string, orderDir: string,
                         rows: seq<Row>, primaryKey: string)
    requires columns.Valid()
    ensures var v := TableViewOf(env, columns, orderBy, orderDir, rows, primaryKey);
      && (forall i :: 0 <= i < |v.headers| ==>
            (v.headers[i].indicator.Some? <==> columns.keys[i] == orderBy))
      && (forall i, j :: 0 <= i < j < |v.headers| ==>
            !(v.headers[i].indicator.Some? && v.headers[j].indicator.Some?))
      && (forall i :: 0 <= i < |v.headers| && v.headers[i].indicator.Some? ==>
            v.headers[i].indicator.value == Lower(orderDir))
      && (forall i :: 0 <= i < |v.headers| ==>
            (v.headers[i].linkOrder == "desc" <==> columns.keys[i] == orderBy && orderDir == "ASC"))
  {
  }

  // -----------------------------------------------------------------------
  // search-view.php

  datatype SearchView = SearchView(
    hidden: seq<(string, string)>,  // the GET parameters carried as hidden inputs
    recordsCount: Option<string>,   // the "Records: %d" text
    searchValue: string,            // the search box's value
    clear: Option<Redirect>)        // the Clear link

  /** The GET parameters the search form carries over: all but `search` and `paged`, in order. */
  function Preserved(params: seq<(string, string)>): (r: seq<(string, string)>)
    ensures forall p :: p in r <==> p in params && p.0 != "search" && p.0 != "paged"
    ensures |r| <= |params|
  {
    if params == [] then []
    else
      var p := params[|params| - 1];
      Preserved(params[..|params| - 1]) + (if p.0 != "search" && p.0 != "paged" then [p] else [])
  }

  /** sprintf('Records: %d', $total), with no pluralisation. */
  function RecordsText(total: int): string
  {
    "Records: " + IntToString(total)
  }

  function SearchViewOf(get: PArray<string>, showRecordsCount: string, total: int, searchTerm: string): (v: SearchView)
    requires get.Valid()
    ensures v.hidden == Preserved(get.Entries())
    ensures v.recordsCount.Some? <==> showRecordsCount != "false"
    ensures v.recordsCount.Some? ==> v.recordsCount.value == RecordsText(total)
    ensures v.searchValue == searchTerm
    ensures v.clear.Some? <==> Truthy(searchTerm)
    ensures v.clear.Some? ==> v.clear.value == Redirect(["search"], [])
  {
    SearchView(Preserved(get.Entries()),
               if showRecordsCount != "false" then Some(RecordsText(total)) else None,
               searchTerm,
               if Truthy(searchTerm) then Some(Redirect(["search"], [])) else None)
  }

  /** The records count reads back as the total (intval of the text after "Records: "). */
  lemma RecordsTextReadsBack(total: int)
    ensures StartsWith(RecordsText(total), "Records: ")
    ensures IntVal(RecordsText(total)[9..]) == total
  {
    assert RecordsText(total)[9..] == IntToString(total);
    IntValOfIntToString(total);
  }

  // -----------------------------------------------------------------------
  // pagination-view.php

  datatype PageOption = PageOption(page: int, selected: bool)

  datatype PaginationView = PaginationView(
    formType: string,               // the hidden form_type
    nonceAction: string,            // wp_nonce_field's action, posted as pagination_nonce
    jump: Option<seq<PageOption>>)  // the page-jump select, when there is more than one page

  /** ceil($total / $per_page) for a non-negative total. */
  function TotalPages(total: nat, perPage: int): (n: nat)
    requires perPage > 0
    ensures (n - 1) * perPage < total <= n * perPage || (n == 0 && total == 0)
  {
    (total + perPage - 1) / perPage
  }

  function PageOptions(n: nat, page: int): (r: seq<PageOption>)
    ensures |r| == n
    ensures forall i :: 0 <= i < n ==> r[i] == PageOption(i + 1, page == i + 1)
  {
    seq(n, i requires 0 <= i < n => PageOption(i + 1, page == i + 1))
  }

  function PaginationViewOf(total: nat, perPage: int, page: int): (v: PaginationView)
    requires perPage > 0
    ensures v.formType == "pagination" && v.nonceAction == "pagination_nonce"
    ensures v.jump.Some? <==> TotalPages(total, perPage) > 1
    ensures v.jump.Some? ==> v.jump.value == PageOptions(TotalPages(total, perPage), page)
  {
    var n := TotalPages(total, perPage);
    PaginationView("pagination", "pagination_nonce", if n > 1 then Some(PageOptions(n, page)) else None)
  }

  /** There is more than one page exactly when the total exceeds one page, the condition render_table includes the template on. */
  lemma {:induction false} MorePagesIffMoreRecords(total: nat, perPage: int)
    requires perPage > 0
    ensures TotalPages(total, perPage) > 1 <==> total > perPage
  {
    var n := TotalPages(total, perPage);
    if total > perPage {
      PositiveFactor(n - 1, perPage);
    } else if total > 0 {
      NegativeFactor(n as int - 2, perPage);
    }
  }

  lemma PositiveFactor(a: int, b: int)
    requires b > 0 && a * b > 0
    ensures a > 0
  {
  }

  lemma NegativeFactor(a: int, b: int)
    requires b > 0 && a * b < 0
    ensures a < 0
  {
  }

  /**
    * The page list is 1..n in ascending order, each page once, and it
    * selects exactly one option when the current page is one of them, none
    * otherwise.
    */
  lemma PageListExact(n: nat, page: int)
    ensures var r := PageOptions(n, page);
      && (n > 0 ==> r[0].page == 1 && r[n - 1].page == n)
      && (forall i :: 0 <= i < n - 1 ==> r[i + 1].page == r[i].page + 1)
      && (1 <= page <= n ==> r[page - 1].selected && forall i :: 0 <= i < n && i != page - 1 ==> !r[i].selected)
      && (!(1 <= page <= n) ==> forall i :: 0 <= i < n ==> !r[i].selected)
  {
  }

  /**
    * Every record lies on exactly one listed page: record number k (from
    * 0) is on page k / per_page + 1, whose LIMIT offset is at most k and
    * within one page of it.
    */
  lemma {:induction false} PagesCoverRecords(total: nat, perPage: int, k: nat)
    requires perPage > 0 && k < total
    ensures var p := k / perPage + 1;
      && 1 <= p <= TotalPages(total, perPage)
      && (p - 1) * perPage <= k < p * perPage
  {
    var n := TotalPages(total, perPage);
    var p := k / perPage + 1;
    assert (p - 1) * perPage <= k < p * perPage;
    NegativeFactor(p - 1 - n, perPage);
  }
}

=== FILE: wordpress.dfy ===
/**
  * The WordPress and $wpdb helpers the plugin calls. Their internals are
  * not part of this model: each is a function-valued field that the model
  * only applies, so every property proved here holds whatever they compute.
  */
module WordPress {
  import opened Php

  datatype Env = Env(
    verifyNonce: (string, string) -> bool, // wp_verify_nonce($token, $action) on a non-empty token
    createNonce: string -> string,         // wp_create_nonce($action)
    sanitizeText: string -> string,        // sanitize_text_field
    sanitizeTextarea: string -> string,    // sanitize_textarea_field
    sanitizeKey: string -> string,         // sanitize_key
    sanitizeEmail: string -> string,       // sanitize_email
    escUrlRaw: string -> string,           // esc_url_raw
    escLike: string -> string,             // $wpdb->esc_like
    escSql: string -> string,              // esc_sql
    quote: string -> string,               // the literal $wpdb->prepare substitutes for a %s argument
    prefix: string)                        // $wpdb->prefix

  /**
    * wp_verify_nonce on a request parameter that may be absent: an absent,
    * empty or "0" token never verifies (the function returns false on an
    * empty nonce before looking at the action).
    */
  predicate NonceOk(env: Env, token: Option<string>, action: string)
  {
    token.Some? && Truthy(token.value) && env.verifyNonce(token.value, action)
  }

  /**
    * The request superglobals: $_GET in the order its parameters arrived
    * (the search form re-emits them in that order), $_POST by name.
    */
  datatype Request = Request(get: PArray<string>, post: map<string, string>)

  /** The target of wp_redirect: remove_query_arg(removed) on the current URL, then add_query_arg(added). */
  datatype Redirect = Redirect(removed: seq<string>, added: seq<(string, string)>)

  /** A POST or GET parameter that may be absent. */
  function Param(params: map<string, string>, k: string): (r: Option<string>)
    ensures r.Some? <==> k in params
    ensures r.Some? ==> r.value == params[k]
  {
    if k in params then Some(params[k]) else None
  }

  /**
    * A table name with $wpdb->prefix in front: prepended unless the name
    * already starts with it (`strpos($name, $prefix) !== 0`).
    */
  function WithPrefix(env: Env, name: string): (r: string)
    ensures StartsWith(r, env.prefix)
    ensures r == name || r == env.prefix + name
    ensures r == name <==> StartsWith(name, env.prefix)
  {
    if StartsWith(name, env.prefix) then name else env.prefix + name
  }

  /** Normalising a name twice is normalising it once. */
  lemma WithPrefixIdempotent(env: Env, name: string)
    ensures WithPrefix(env, WithPrefix(env, name)) == WithPrefix(env, name)
  {
  }

  /** A WP_Error: its code and message (messages are the untranslated English strings). */
  datatype WpError = WpError(code: string, message: string)

  /** The keys that remain after remove_query_arg($names), in order. */
  function Without(keys: seq<string>, names: seq<string>): (r: seq<string>)
    ensures forall k :: k in r <==> k in keys && k !in names
    ensures (forall i, j :: 0 <= i < j < |keys| ==> keys[i] != keys[j]) ==>
              (forall i, j :: 0 <= i < j < |r| ==> r[i] != r[j])
  {
    if keys == [] then []
    else
      var k := keys[|keys| - 1];
      Without(keys[..|keys| - 1], names) + (if k in names then [] else [k])
  }

  /** remove_query_arg($names) on the current query parameters. */
  function RemoveQueryArgs(params: PArray<string>, names: seq<string>): (r: PArray<string>)
    requires params.Valid()
    ensures r.Valid()
    ensures forall k :: k in r.vals <==> k in params.vals && k !in names
    ensures forall k :: k in r.vals ==> r.vals[k] == params.vals[k]
  {
    PArray(Without(params.keys, names), map k | k in params.vals && k !in names :: params.vals[k])
  }

  /** add_query_arg($pairs) on the current query parameters: each pair assigned in turn. */
  function AddQueryArgs(params: PArray<string>, pairs: seq<(string, string)>): (r: PArray<string>)
    requires params.Valid()
    ensures r.Valid()
    ensures forall k :: k in r.vals <==> k in params.vals || k in Names(pairs)
    ensures forall k :: k in params.vals && k !in Names(pairs) ==> r.vals[k] == params.vals[k]
  {
    if pairs == [] then params
    else
      var init := pairs[..|pairs| - 1];
      var last := pairs[|pairs| - 1];
      assert Names(pairs) == Names(init) + [last.0];
      AddQueryArgs(params, init).Put(last.0, last.1)
  }

  function Names(pairs: seq<(string, string)>): (r: seq<string>)
    ensures |r| == |pairs| && forall i :: 0 <= i < |pairs| ==> r[i] == pairs[i].0
  {
    seq(|pairs|, i requires 0 <= i < |pairs| => pairs[i].0)
  }

  /** A pair whose key no later pair assigns keeps its value. */
  lemma {:induction false} AddQueryArgsSets(params: PArray<string>, pairs: seq<(string, string)>, i: int)
    requires params.Valid()
    requires 0 <= i < |pairs| && forall j :: i < j < |pairs| ==> pairs[j].0 != pairs[i].0
    ensures pairs[i].0 in AddQueryArgs(params, pairs).vals
    ensures AddQueryArgs(params, pairs).vals[pairs[i].0] == pairs[i].1
    decreases |pairs|
  {
    if i < |pairs| - 1 {
      AddQueryArgsSets(params, pairs[..|pairs| - 1], i);
    }
  }

  /** The query parameters of the page a redirect or a link leads to. */
  function Follow(params: PArray<string>, to: Redirect): (r: PArray<string>)
    requires params.Valid()
    ensures r.Valid()
  {
    AddQueryArgs(RemoveQueryArgs(params, to.removed), to.added)
  }

  /** After a redirect, a parameter is present exactly when it was kept or is set. */
  lemma FollowKeys(params: PArray<string>, to: Redirect)
    requires params.Valid()
    ensures forall k :: Follow(params, to).Has(k) <==> (params.Has(k) && k !in to.removed) || k in Names(to.added)
  {
  }

  /** A link that sets two query arguments on the current page: its parameters are the current ones with both assigned in turn. */
  lemma FollowLink(params: PArray<string>, a: string, x: string, b: string, y: string)
    requires params.Valid()
    ensures Follow(params, Redirect([], [(a, x), (b, y)])).vals == params.vals[a := x][b := y]
  {
    var pairs := [(a, x), (b, y)];
    var start := RemoveQueryArgs(params, []);
    assert pairs[..1] == [(a, x)];
    assert [(a, x)][..0] == [];
    assert start.vals == params.vals;
    var one := AddQueryArgs(start, [(a, x)]);
    assert one == AddQueryArgs(start, []).Put(a, x);
    assert AddQueryArgs(start, pairs) == one.Put(b, y);
  }
}
